=== FILE: README.md ===
# Student fee bookkeeping, modelled in Dafny

This project models the fee bookkeeping of a small tuition centre's
student-management app: an Express/Mongoose back end with three routes
(students, fees, summary) and React pages that list students, track which
months are paid, and summarise the academic year June 2025 – April 2026.

What is modelled:

- **The two record shapes.** A `Student` has a unique numeric `studentId` and an `active` flag. A `FeePayment` is keyed informally by (student `_id`, month) and has status Paid or Unpaid.
- **The three routes** as stores with their invariants:
  - the student store with its counter, soft delete and id checks (`StudentsRoute.StudentStore`);
  - the payment upsert and query (`FeesRoute.FeeStore`);
  - the year summary, computed by two nested loops (`SummaryRoute.Summarize`).
- **The pure derivations of the pages**, as functions over the records a page holds:
  - fee, class-10, installment and balance rules;
  - search and status filters, footer counts and pagination;
  - delete-id selection and badges.
- **Each page's handlers** as a class whose methods change the page state. The answers of the server, and whether a request succeeded, are parameters of those methods.

No modelled file derives applicable months from an end month, reconciles
payments, or keeps an installment track on the server. The records the
client pages read are exactly what the routes send:
- a student never carries `status`, `feeType`, `yearlyFee` or `enrollmentMonth`, because the Student schema drops them;
- a payment never carries installment fields;
- a summary row is `{studentId: _id, name, paid, pending}`.

Several lemmas state the consequences of these mismatches between the pages and the routes.

Modelling conventions:

- `ObjectId` is a `nat`.
- Money is an unbounded integer.
- A JSON field a record lacks reads as `""` or `0` on the client (`ClientRecords.FromServer`).
- `Number`/`parseInt` on route parameters and typed text is read as "non-empty, all decimal digits" (`Text.IsNumeric`, `Text.DigitsValue`).
- Lower-casing is ASCII lower-casing.

## Model

| member | source | states |
|---|---|---|
| Models.ParseStatus | backend/models/FeePayment.js:6 | a status text is accepted iff it is "Paid" or "Unpaid", and an accepted text names the status it yields |
| Models.StatusRoundTrip | backend/models/FeePayment.js:6 | every status is read back from its own name |
| Models.ApplyStudentSchema | backend/models/Student.js:3-11 | a draft is stored iff name, parentNumber, class (non-empty) and monthlyFee are present; the record keeps exactly those fields, the given ids, `enrolledAt` = now, and `active` defaulting to true |
| Models.UndeclaredFieldsDropped | backend/models/Student.js:3-11 | `enrollmentMonth` and `status` in a draft make no difference to the stored record |
| AcademicYear.WindowShape | backend/routes/summary.js:6-9 | the window has exactly 11 distinct labels, from "June 2025" to "April 2026" |
| AcademicYear.IndexOf | frontend_old/src/FeeStatus.js:17 | `indexOf` gives the position of a label of the window, and -1 exactly for a text outside it |
| StudentsRoute.EnrolmentDraft | backend/routes/students.js:15-25 | the draft takes `studentId` from the counter, the four body fields, active true, and enrolment month and status defaulting to "June 2025" and "Active" |
| StudentsRoute.EnrolStore | backend/routes/students.js:7-31 | the counter always advances by one; a complete body appends one student whose `studentId` is the new counter value, otherwise 400 and the store is unchanged |
| StudentsRoute.EnrolPreservesInvariant | backend/routes/students.js:10-17 | enrolment keeps `studentId`s and `_id`s unique, with `studentId`s between 1 and the counter; the new id is larger than every stored one |
| StudentsRoute.FailedEnrolLeavesGap | backend/routes/students.js:10-14 | after a rejected enrolment, the next accepted one gets counter + 2: a gap, never a duplicate |
| StudentsRoute.ActiveStudents | backend/routes/students.js:36 | the listing holds exactly the stored students whose `active` is true |
| StudentsRoute.ListingKeepsOrder | backend/routes/students.js:36 | the listing keeps store order: it distributes over concatenation and lists one student iff active |
| StudentsRoute.RouteId | backend/routes/students.js:45 | a route id is read iff it is numeric, and the number read renders as the parameter without its redundant leading zeros |
| StudentsRoute.RouteIdRoundTrip | backend/routes/students.js:45 | the decimal rendering of any natural number reads back as that number |
| StudentsRoute.Locate | backend/routes/students.js:50-51 | the lookup finds the first student with the given `studentId`, or none exists |
| StudentsRoute.Updated | backend/routes/students.js:49-54 | an update keeps ids, `enrolledAt` and `active`; each of the four fields takes the body's value when the body has it and keeps its own otherwise |
| StudentsRoute.UpdateStore | backend/routes/students.js:44-60 | a non-numeric id gives 400 and an unknown one 404, with no change; otherwise the first student with that `studentId` is replaced by its update, which is also the reply, and no other student changes |
| StudentsRoute.DeleteStore | backend/routes/students.js:63-78 | 400 or 404 as for updates; otherwise the matching student is kept with `active` false and nothing else changes |
| StudentsRoute.UpdatePreservesInvariant | backend/routes/students.js:49-54 | updates keep the store invariant |
| StudentsRoute.DeletePreservesInvariant | backend/routes/students.js:68-72 | soft deletes keep the store invariant |
| StudentsRoute.DeleteHidesFromListing | backend/routes/students.js:68-74 | after a delete the listing is the former listing without that `studentId`, in the same order |
| StudentsRoute.StudentStore.constructor | backend/routes/students.js:10-14 | the store starts empty with the counter at 0 |
| StudentsRoute.StudentStore.Enrol | backend/routes/students.js:7-31 | POST: the reply and new state are those of `EnrolStore`, and the invariant is kept |
| StudentsRoute.StudentStore.Listed | backend/routes/students.js:34-41 | GET returns the active students of the store, in store order |
| StudentsRoute.StudentStore.Update | backend/routes/students.js:44-60 | PUT: the reply and new state are those of `UpdateStore`; the counter is untouched |
| StudentsRoute.StudentStore.Delete | backend/routes/students.js:63-78 | DELETE: the reply and new state are those of `DeleteStore`; the counter is untouched |
| FeesRoute.Upsert | backend/routes/fees.js:6-22 | an invalid body gives 400 and no change; otherwise the reply carries the body's four fields; an existing (student, month) record is overwritten in place, else exactly one record is appended with the next id |
| FeesRoute.UpsertKeepsOtherKeys | backend/routes/fees.js:9-17 | records with another (student, month) key are unchanged |
| FeesRoute.UpsertOverwritesTwoFields | backend/routes/fees.js:10-13 | no record's id, student or month changes |
| FeesRoute.UpsertPreservesInvariant | backend/routes/fees.js:9-17 | at most one record per (student, month), and ids below the next id, before and after |
| FeesRoute.UpsertThenFind | backend/routes/fees.js:9-17 | after a POST, the first record for its key is the record returned |
| FeesRoute.UpsertIdempotent | backend/routes/fees.js:9-17 | posting the same body twice leaves reply and store as one post does |
| FeesRoute.Query | backend/routes/fees.js:27-31 | GET returns exactly the records matching each supplied filter |
| FeesRoute.QueryUnfiltered | backend/routes/fees.js:28-31 | with no filter GET returns the whole store |
| FeesRoute.QueryKeepsOrder | backend/routes/fees.js:27-32 | GET keeps collection order: the query distributes over concatenation and returns one record iff it matches |
| FeesRoute.FeeStore.Post | backend/routes/fees.js:6-22 | POST: reply and new state are those of `Upsert`, and the invariant is kept |
| FeesRoute.FeeStore.List | backend/routes/fees.js:25-36 | GET returns exactly the records matching the given student and month filters, in store order |
| SummaryRoute.Row | backend/routes/summary.js:31-36 | a row names the student by its `_id` and its name |
| SummaryRoute.Rows | backend/routes/summary.js:18-37 | one row per stored student, in store order |
| SummaryRoute.YearTotals | backend/routes/summary.js:16-30 | `totalEarnings` and `totalPending` are the sums of the rows' `paid` and `pending` |
| SummaryRoute.StudentRow | backend/routes/summary.js:19-28 | the month loop computes the student's row |
| SummaryRoute.Summarize | backend/routes/summary.js:14-38 | the student loop computes the year summary of both stores |
| SummaryRoute.MonthsSplit | backend/routes/summary.js:21-28 | every month of a student is counted as paid or as unpaid, never both |
| SummaryRoute.PendingCountsUnpaid | backend/routes/summary.js:23-27 | pending over any months is the monthly fee times the number of unpaid months |
| SummaryRoute.PendingCountsPaid | backend/routes/summary.js:21-28 | pending is the fee times (months − paid months) |
| SummaryRoute.PendingOverYear | backend/routes/summary.js:21-28 | a row's pending is the fee times the unpaid months of the window |
| SummaryRoute.NothingPendingWhenAllPaid | backend/routes/summary.js:23-27 | nothing is pending over months that are all paid |
| SummaryRoute.AllPendingWhenNonePaid | backend/routes/summary.js:23-27 | the full fee is pending for each month when none is paid |
| SummaryRoute.PendingExtremes | backend/routes/summary.js:21-28 | a fully paid year has pending 0; a year with nothing paid has pending 11 × fee |
| SummaryRoute.PaidNonNegative | backend/routes/summary.js:24 | with non-negative amounts, `paid` is never negative |
| SummaryRoute.PendingNonNegative | backend/routes/summary.js:26 | with a non-negative fee, `pending` is never negative |
| SummaryRoute.RowIgnoresInserted | backend/routes/summary.js:22 | a payment keyed to none of the student's window months does not change the row |
| SummaryRoute.SummaryIgnoresOutsideWindow | backend/routes/summary.js:21-22 | a payment for a month outside the window changes no figure |
| SummaryRoute.SummaryIgnoresForeignStudent | backend/routes/summary.js:22 | a payment for no stored student changes no figure |
| SummaryRoute.PostedPaymentDecidesMonth | backend/routes/summary.js:22-24 | after a POST, the month counts as paid iff the posted status is Paid, with the posted amount |
| SummaryRoute.RowIgnoresActive | backend/routes/summary.js:14 | the `active` flag plays no part in a row |
| SummaryRoute.RowsIgnoreActive | backend/routes/summary.js:14-18 | students that differ only in `active` produce the same rows |
| SummaryRoute.DeleteKeepsSummary | backend/routes/summary.js:14 | a soft delete leaves the whole summary unchanged |
| OldFeeStatus.FeeForMonth | frontend_old/src/FeeStatus.js:13-35 | the fee is 0 or the monthly fee: 0 for no student or no fee, full outside the window, otherwise 0 iff enrolment is more than one month after the selected month |
| OldFeeStatus.ServerStudentOwesFullFee | frontend_old/src/FeeStatus.js:21 | a listed student, which has no enrolment month, owes the full fee every month |
| OldFeeStatus.Class10MeansContains10 | frontend_old/src/FeeStatus.js:38-40 | a class counts as class 10 iff its text contains "10" |
| OldFeeStatus.IsClass10Student | frontend_old/src/FeeStatus.js:38-40 | every class whose text contains "10" counts as class 10 |
| OldFeeStatus.YearlyFee | frontend_old/src/FeeStatus.js:112 | the yearly fee falls back from `yearlyFee` to 12 × monthly to 12000, and is never 0 |
| OldFeeStatus.InstallmentCount | frontend_old/src/FeeStatus.js:113 | the installment count falls back to 3 and is never 0 |
| OldFeeStatus.InstallmentsCoverYear | frontend_old/src/FeeStatus.js:113 | the installments add up to the yearly fee within half an installment each |
| OldFeeStatus.InstallmentAmount | frontend_old/src/FeeStatus.js:112-113 | one installment is the yearly fee over the count, rounded to the nearest integer |
| OldFeeStatus.InstallmentWithinYear | frontend_old/src/FeeStatus.js:352-353 | an installment lies between 0 and the yearly fee |
| OldFeeStatus.ServerStudentInstallment | frontend_old/src/FeeStatus.js:163-164 | for a listed student with a fee, an installment is 4 × the monthly fee |
| OldFeeStatus.RowPayment | frontend_old/src/FeeStatus.js:249-323 | the row's record is the first payment its lookup (the student's installment number, else the month) matches, and none only when no payment matches |
| OldFeeStatus.FirstRecordDecides | frontend_old/src/FeeStatus.js:249-323 | whatever first match a caller names, the row's record is that payment |
| OldFeeStatus.GetStatus | frontend_old/src/FeeStatus.js:249-285 | Unpaid without a lookup (unknown student, or neither installment nor month); otherwise Paid exactly when the first matching payment is Paid |
| OldFeeStatus.GetPaymentId | frontend_old/src/FeeStatus.js:287-323 | null without a lookup or when no payment matches; otherwise the `_id` of the first matching payment |
| OldFeeStatus.StatusAndIdAgree | frontend_old/src/FeeStatus.js:249-323 | `getPaymentId` gives null iff `getStatus` falls back to Unpaid, and otherwise names a payment with that status |
| OldFeeStatus.InstallmentsNeverFoundAfterReload | frontend_old/src/FeeStatus.js:257-268 | after a reload no installment payment is ever found, because stored payments carry no installment fields |
| OldFeeStatus.GetBalance | frontend_old/src/FeeStatus.js:325-330 | no student id, or an unknown one, has balance 0 |
| OldFeeStatus.MonthlyBalanceFollowsStatus | frontend_old/src/FeeStatus.js:355-372 | the monthly balance is 0 when the month reads Paid, else the month's fee |
| OldFeeStatus.InstallmentBalanceFollowsStatus | frontend_old/src/FeeStatus.js:336-354 | the installment balance is 0 when it reads Paid, else the installment amount |
| OldFeeStatus.ViewStudents | frontend_old/src/FeeStatus.js:383-395 | a view shows exactly the students of its mode |
| OldFeeStatus.IsYearlyStudent | frontend_old/src/FeeStatus.js:384 | a yearly fee type is billed yearly; a non-class-10 student of another fee type is not |
| OldFeeStatus.ViewsPartition | frontend_old/src/FeeStatus.js:383-395 | the monthly and yearly views partition the students; any other mode shows none |
| OldFeeStatus.InstallmentMonth | frontend_old/src/FeeStatus.js:170 | an installment's month text starts with "I", so it is never a window label |
| OldFeeStatus.AmountFor | frontend_old/src/FeeStatus.js:107-118 | Unpaid records 0; Paid records one installment on the installment path and the month's fee otherwise, which is 0 or the monthly fee |
| OldFeeStatus.PaidAmountIsBalanceDue | frontend_old/src/FeeStatus.js:107-118 | marking an unpaid row Paid records exactly the balance the row showed as due |
| OldFeeStatus.MarkLocally | frontend_old/src/FeeStatus.js:121-128 | only the payment with the given id takes the new status and amount; every key field is kept |
| OldFeeStatus.StatusChange | frontend_old/src/FeeStatus.js:86-247 | an unknown student sends nothing; a known payment id gives a PUT with the status and `AmountFor` amount, and the same local update; otherwise a POST for the student's `_id` whose month is the installment label (with number and count) or the selected month, whose amount is `AmountFor`, and a temporary record with the same fields appended |
| OldFeeStatus.MonthlyClickShowsNewStatus | frontend_old/src/FeeStatus.js:203-216 | right after a monthly click the month reads the chosen status |
| OldFeeStatus.InstallmentClickShowsNewStatus | frontend_old/src/FeeStatus.js:154-179 | right after an installment click the installment reads the chosen status |
| OldFeeStatus.MarkedRecordIsFound | frontend_old/src/FeeStatus.js:121-128 | the record found before the local update is found after it, with the new status |
| OldFeeStatus.PostsAreAccepted | frontend_old/src/FeeStatus.js:219-224 | every POST the page sends for a window month passes the server's checks |
| OldFeeStatus.FailureBannersStyled | frontend_old/src/FeeStatus.js:438 | both failure banners are styled as errors |
| OldFeeStatus.FeeStatusPage.constructor | frontend_old/src/FeeStatus.js:43-49 | the page opens on "June 2025" in monthly mode with nothing loaded |
| OldFeeStatus.FeeStatusPage.Load | frontend_old/src/FeeStatus.js:52-74 | the page holds the listed students and the selected month's payments (monthly mode) or all payments |
| OldFeeStatus.FeeStatusPage.ChangeStatus | frontend_old/src/FeeStatus.js:86-247 | request and local update as in `StatusChange`; a refused request leaves the local update and sets the error banner |
| FeeTracker.GetBalance | frontend/src/FeeStatus.js:43-46 | balance 0 when the payment is Paid or the student unknown; otherwise the student's monthly fee |
| FeeTracker.GetStatus | frontend/src/FeeStatus.js:38-41 | Unpaid when the student has no payment; Paid only when one of the student's payments is Paid |
| FeeTracker.StatusBody | frontend/src/FeeStatus.js:26-33 | the body names the student and selected month, with amount = fee when Paid and 0 when Unpaid; marking an unknown student Paid sends nothing |
| FeeTracker.PostedBodyIsAccepted | frontend/src/FeeStatus.js:28-33 | every body sent passes the server's checks |
| FeeTracker.LookupIsPerMonth | frontend/src/FeeStatus.js:21 | the page's lookup by student is the lookup by (student, selected month) on the store |
| FeeTracker.StudentByIdFinds | frontend/src/FeeStatus.js:27 | a listed student is found by its `_id` |
| FeeTracker.TrackerAgreesWithSummary | frontend/src/FeeStatus.js:38-46 | a month reads Paid iff the summary counts it paid, and its balance is what it adds to the summary's pending |
| FeeTracker.PostThenReloadShowsStatus | frontend/src/FeeStatus.js:26-36 | after posting and reloading, the row shows the posted status; a Paid row owes nothing |
| FeeTracker.FeeTrackerPage.constructor | frontend/src/FeeStatus.js:12 | the selector starts on "June 2025" |
| FeeTracker.FeeTrackerPage.SelectMonth | frontend/src/FeeStatus.js:52-56 | the selection becomes the chosen label |
| FeeTracker.FeeTrackerPage.Load | frontend/src/FeeStatus.js:19-24 | the page holds the listed students and the selected month's payments |
| FeeTracker.FeeTrackerPage.ChangeStatus | frontend/src/FeeStatus.js:26-36 | the body posted is `StatusBody`; the banner confirms only a request that was sent and succeeded, and is otherwise unchanged |
| Pagination.TotalPages | frontend/_old/Summary.js:153 | the page count is the least one whose pages hold all rows; 0 iff there are none |
| Pagination.SlicePosition | frontend/_old/Summary.js:156 | `slice` positions are clipped to the list, negative ones counted from the end |
| Pagination.Slice | frontend/_old/Summary.js:156 | `slice` returns the elements from the clipped start up to the clipped end, in order, and nothing when the end is not past the start |
| Pagination.PageRows | frontend/_old/Summary.js:154-156 | a page shows at most 10 rows, the rows from its start index, as many as remain |
| Pagination.PagesCoverRows | frontend/_old/Summary.js:153-156 | every row appears on the page in range that holds its index |
| Pagination.PagesInRangeAreNonEmpty | frontend/_old/Summary.js:153-156 | pages within range show rows, pages past the end none |
| Pagination.Previous | frontend/_old/Summary.js:158-160 | Previous never goes below page 1 |
| Pagination.Next | frontend/_old/Summary.js:162-164 | Next never goes above the page count |
| Pagination.NavigationStaysInRange | frontend/_old/Summary.js:158-164 | from a page in range both buttons stay in range, moving by one unless at the end |
| Pagination.ControlsIffSeveralPages | frontend/_old/Summary.js:238 | the controls appear iff there is more than one page |
| Pagination.FooterMatchesRows | frontend/_old/Summary.js:262 | the footer's range counts exactly the rows shown |
| Pagination.Clamp | frontend/_old/Summary.js:113-116 | the corrected page is within range when there are pages; a page in range is kept |
| PagedSummary.PickId | frontend/_old/Summary.js:71 | the id is the first truthy of `studentId`, `id`, `_id`, and none iff all are falsy |
| PagedSummary.DeleteTargetAsWritten | frontend/_old/Summary.js:84-91 | as written: a numeric id is sent as is; a string id sends the value of its leading digits, however much text follows, and nothing only when it starts with a non-digit |
| PagedSummary.ObjectIdStringDeletesAnotherStudent | frontend/_old/Summary.js:84 | as written, a route row's `_id` text starting with "68" deletes the student numbered 68 |
| PagedSummary.DeleteTarget | frontend/_old/Summary.js:76-91 | corrected: a string id is sent iff it is wholly numeric, as the number it spells |
| PagedSummary.ObjectIdStringRefused | frontend/_old/Summary.js:84-91 | the correction refuses the `_id` text |
| PagedSummary.DeleteTargetsNamedStudent | frontend/_old/Summary.js:98 | with the correction, the route reads back exactly the number the string spells |
| PagedSummary.CorrectionOnlyRefuses | frontend/_old/Summary.js:84-91 | the correction sends the same request whenever it sends one, and differs only on partly numeric strings |
| PagedSummary.MarkersExclusive | frontend/_old/Summary.js:212-217 | "(Prorated)" and "(Until Left)" never appear together; a row without status shows "Active" and neither |
| PagedSummary.StatusBadge | frontend/_old/Summary.js:195-196 | the badge is never empty: the row's status, or "Active" |
| PagedSummary.EnrolmentBadge | frontend/_old/Summary.js:201 | the column is never empty: the row's month, or "June 2025" |
| PagedSummary.YearlyBadge | frontend/_old/Summary.js:205-206 | a row that is neither class 10 nor of yearly fee type is badged Monthly |
| PagedSummary.Prorated | frontend/_old/Summary.js:212-214 | "(Prorated)" only on an Active row with at most 10 applicable months |
| PagedSummary.UntilLeft | frontend/_old/Summary.js:215-217 | "(Until Left)" only on a row whose badge reads Left |
| PagedSummary.RouteRowBadges | frontend/_old/Summary.js:194-217 | every row the summary route sends is badged Active, June 2025, Monthly, without markers |
| PagedSummary.SummaryPage.constructor | frontend/_old/Summary.js:13 | the page starts on page 1 with no rows |
| PagedSummary.SummaryPage.Shown | frontend/_old/Summary.js:154-156 | at most 10 rows, taken in order from the page's start |
| PagedSummary.SummaryPage.Load | frontend/_old/Summary.js:32 | the rows become the route's rows; the page is kept |
| PagedSummary.SummaryPage.PreviousPage | frontend/_old/Summary.js:158-160 | the page becomes `Previous` of the old one, staying in range |
| PagedSummary.SummaryPage.NextPage | frontend/_old/Summary.js:162-164 | the page becomes `Next` of the old one, within the page count |
| PagedSummary.SummaryPage.Remove | frontend/_old/Summary.js:61-116 | with the corrected id rule (`DeleteTarget`, not the `parseInt` of line 84): no request without a usable id; otherwise the DELETE names the target, the rows are reloaded, and a confirmed delete clamps the page against the old row count minus one |
| PagedStudentList.Filtered | frontend/_old/StudentList.js:84-88 | a student is kept iff name or class contains the lowered search, or the parent number contains it |
| PagedStudentList.EmptySearchShowsAll | frontend/_old/StudentList.js:84-88 | an empty search keeps every student |
| PagedStudentList.SearchKeepsOrder | frontend/_old/StudentList.js:84-88 | the search distributes over concatenation, so it keeps order |
| PagedStudentList.Remaining | frontend/_old/StudentList.js:52 | the remaining list excludes exactly the deleted `studentId` |
| PagedStudentList.ReloadIsRemaining | frontend/_old/StudentList.js:48-52 | the reloaded listing after a delete is the old listing without that `studentId` |
| PagedStudentList.ClampAfterDeleteAsWritten | frontend/_old/StudentList.js:52-56 | as written: the page is clamped against the page count of all remaining students |
| PagedStudentList.AsWrittenLeavesEmptyPage | frontend/_old/StudentList.js:52-56 | when the remaining list has more than 10 students but the search keeps 10, page 2 is kept and shows nothing |
| PagedStudentList.ExampleStrandsPage | frontend/_old/StudentList.js:52-56 | eleven "Ana" rows and one "Bo", search "an", page 2: deleting the eleventh Ana leaves page 2 empty |
| PagedStudentList.ClampAfterDelete | frontend/_old/StudentList.js:52-56 | corrected: the page is clamped against the searched list's page count |
| PagedStudentList.CorrectedClampShowsRows | frontend/_old/StudentList.js:52-56 | with the correction, a non-empty searched list always shows a non-empty page |
| PagedStudentList.FeeColumn | frontend/_old/StudentList.js:161-177 | the column shows `yearlyFee` iff the fee type is "yearly", else `monthlyFee` |
| PagedStudentList.ServerStudentsShowMonthlyFee | frontend/_old/StudentList.js:161-177 | listed students always show the monthly fee |
| PagedStudentList.StudentListPage.constructor | frontend/_old/StudentList.js:9-18 | the page starts on page 1 with no students and no search |
| PagedStudentList.StudentListPage.Shown | frontend/_old/StudentList.js:91-94 | at most 10 rows, each a student matching the search |
| PagedStudentList.StudentListPage.Load | frontend/_old/StudentList.js:25-36 | the students become the listing |
| PagedStudentList.StudentListPage.SetSearch | frontend/_old/StudentList.js:105-107 | a new search resets the page to 1 |
| PagedStudentList.StudentListPage.PreviousPage | frontend/_old/StudentList.js:96-98 | the page becomes `Previous` of the old one |
| PagedStudentList.StudentListPage.NextPage | frontend/_old/StudentList.js:100-102 | the page becomes `Next` within the searched list's page count |
| PagedStudentList.StudentListPage.Remove | frontend/_old/StudentList.js:42-63 | with the corrected clamp (`ClampAfterDelete`, not lines 52-56 as written): the DELETE names the `studentId`; on success the list is reloaded and the page corrected so that a non-empty search result shows rows |
| StatusStudentList.FilteredStudents | frontend_old/src/StudentList.js:61-69 | a student is kept iff it matches both the search and the status filter |
| StatusStudentList.AllStatusIsSearchOnly | frontend_old/src/StudentList.js:66 | with "all" the filter is the search alone |
| StatusStudentList.NoCriteriaShowsAll | frontend_old/src/StudentList.js:61-69 | an empty search with "all" keeps every student |
| StatusStudentList.FilterKeepsOrder | frontend_old/src/StudentList.js:61-69 | the filter distributes over concatenation, so it keeps order |
| StatusStudentList.FooterCountsWithinTotal | frontend_old/src/StudentList.js:188-196 | Active + Left never exceeds the total |
| StatusStudentList.StatusCount | frontend_old/src/StudentList.js:192-196 | the footer's Active and Left counts: each is at most the list length and is 0 iff no student has that exact status |
| StatusStudentList.ActiveSelectionMatchesFooter | frontend_old/src/StudentList.js:192 | selecting Active with no search shows exactly the students the Active count counts |
| StatusStudentList.ServerStudentsHaveNoStatus | frontend_old/src/StudentList.js:66 | listed students have no status: both counts are 0 and the Active and Left filters show nobody |
| StatusStudentList.EmptyState | frontend_old/src/StudentList.js:173-183 | the empty state appears iff nothing is shown |
| StatusStudentList.NoneEnrolledIffEmpty | frontend_old/src/StudentList.js:178-180 | with no criteria, "No students have been enrolled yet." appears iff the list is empty |
| StatusStudentList.SuccessBannerPlain | frontend_old/src/StudentList.js:108 | the deletion banner is not styled as an error |
| StatusStudentList.FailureBannersStyled | frontend_old/src/StudentList.js:108 | both failure banners are styled as errors |
| StatusStudentList.StatusStudentListPage.constructor | frontend_old/src/StudentList.js:8-12 | no students, no message, empty search, filter "all" |
| StatusStudentList.StatusStudentListPage.Shown | frontend_old/src/StudentList.js:127 | every shown student is held and matches the status filter |
| StatusStudentList.StatusStudentListPage.Load | frontend_old/src/StudentList.js:15-26 | success replaces the students; failure keeps them and sets the load error |
| StatusStudentList.StatusStudentListPage.SetSearch | frontend_old/src/StudentList.js:89 | the search becomes the typed text |
| StatusStudentList.StatusStudentListPage.SetStatusFilter | frontend_old/src/StudentList.js:97 | the filter becomes the chosen option |
| StatusStudentList.StatusStudentListPage.Delete | frontend_old/src/StudentList.js:38-54 | the DELETE names the `studentId`; the banner is styled as an error iff the delete failed |
| EditableStudents.Filtered | frontend/src/StudentList.js:49-53 | a student is kept iff name or class contains the lowered filter, or the parent number contains it |
| EditableStudents.SameSearchAsPagedList | frontend/src/StudentList.js:49-53 | this filter and the paged list's search show the same students in the same order |
| EditableStudents.AtMostOneRowEdited | frontend/src/StudentList.js:78 | on a listing with unique `studentId`s at most one shown row is in edit mode |
| EditableStudents.FeeValue | frontend/src/StudentList.js:43 | `Number` of the fee input: the copied number, a numeric text's value, 0 for "", NaN otherwise |
| EditableStudents.RetypedFeeKeepsValue | frontend/src/StudentList.js:43 | retyping a fee's own digits keeps its value |
| EditableStudents.WithField | frontend/src/StudentList.js:36-38 | only the named input changes |
| EditableStudents.SaveBody | frontend/src/StudentList.js:40-44 | the PUT carries the four form fields with the fee as a number; none when the fee is NaN |
| EditableStudents.SaveStoresForm | frontend/src/StudentList.js:40-44 | saving a form updates exactly the edited student's four fields to the form's, and nothing else |
| EditableStudents.UntouchedSaveChangesNothing | frontend/src/StudentList.js:26-44 | opening a row and saving it untouched leaves the store as it was |
| EditableStudents.EditableStudentList.constructor | frontend/src/StudentList.js:5-8 | nothing loaded, no filter, no row in edit mode, an empty form |
| EditableStudents.EditableStudentList.Shown | frontend/src/StudentList.js:76 | the rows are exactly the held students the filter keeps |
| EditableStudents.EditableStudentList.Load | frontend/src/StudentList.js:14-17 | the students become the listing |
| EditableStudents.EditableStudentList.SetFilter | frontend/src/StudentList.js:62 | the filter becomes the typed text |
| EditableStudents.EditableStudentList.Edit | frontend/src/StudentList.js:26-34 | the row's `studentId` is edited and the form holds its four fields |
| EditableStudents.EditableStudentList.ChangeField | frontend/src/StudentList.js:36-38 | the form changes as `WithField` says |
| EditableStudents.EditableStudentList.Save | frontend/src/StudentList.js:40-47 | the PUT names the id and carries `SaveBody`; an accepted save leaves edit mode and reloads, a refused one changes nothing |
| EditableStudents.EditableStudentList.Cancel | frontend/src/StudentList.js:87 | Cancel leaves edit mode |
| EditableStudents.EditableStudentList.Delete | frontend/src/StudentList.js:19-24 | the DELETE names the id; an accepted delete reloads the list |
| OldSummary.CountsWithinTotal | frontend_old/src/Summary.js:76-78 | Active + Left never exceeds the total |
| OldSummary.StatusCount | frontend_old/src/Summary.js:77-78 | `activeStudents` and `leftStudents`: each is at most the total and is 0 iff no row has that exact status |
| OldSummary.TotalPaidOverAllPayments | frontend_old/src/Summary.js:176-180 | a row's total paid is the sum over all payments of the amounts of its own |
| OldSummary.TotalPaid | frontend_old/src/Summary.js:176-180 | a row with no payment of its own has paid 0 |
| OldSummary.TotalPaidNonNegative | frontend_old/src/Summary.js:180 | with non-negative amounts, a row's paid total is not negative |
| OldSummary.DisplayedPending | frontend_old/src/Summary.js:181 | the displayed pending is never negative, is 0 iff paid covers pending, else the difference |
| OldSummary.OwingIffPositive | frontend_old/src/Summary.js:230 | a row is styled as owing iff its displayed pending is positive |
| OldSummary.MonthsLabelOf | frontend_old/src/Summary.js:184-194 | a month range iff the class is exactly "10" or "Class 10", from the enrolment month (June 2025 when absent) to the end month (March 2026 when absent); else the count of applicable months |
| OldSummary.RouteRowMonths | frontend_old/src/Summary.js:184-194 | the summary route's rows carry no class, so each is labelled with a month count of 0 |
| OldSummary.RangeLabelsAreClass10 | frontend_old/src/Summary.js:185 | range labels go only to class-10 students, but "10A" is class 10 for the fee page and not here |
| OldSummary.Retention | frontend_old/src/Summary.js:291 | retention is 0 without students, between 0 and 100 when active ≤ total, and 100 when all are active |
| OldSummary.FromRoute | frontend_old/src/Summary.js:22 | the page keeps one entry per route row, with only `_id`, name and pending filled in |
| OldSummary.RouteAnswerTotals | frontend_old/src/Summary.js:76-80 | on the route's answer revenue is 0, pending is the route's total, both counts are 0 and the total is the number of stored students |
| OldSummary.RouteRowAsShown | frontend_old/src/Summary.js:176-181 | on the route's answer the paid and pending cells would hold 0 and the route's pending (the render throws earlier, see Left out) |
| OldSummary.SummaryBannersStyled | frontend_old/src/Summary.js:91 | the removal banner is plain, both failure banners are errors |
| OldSummary.OldSummaryPage.constructor | frontend_old/src/Summary.js:8-10 | no summary and no message |
| OldSummary.OldSummaryPage.Load | frontend_old/src/Summary.js:13-29 | success stores the answer; failure keeps the old one and sets the load error |
| OldSummary.OldSummaryPage.Remove | frontend_old/src/Summary.js:41-57 | the DELETE names the row's `studentId`; the banner is an error iff the delete failed |

## Left out

- Express routing, the MongoDB connection, the database-drop script (backend/app.js, backend/dropDatabase.js) and the axios client (frontend/src/api.js): the stores are sequences and requests are method calls.
- Asynchrony: fetch ordering, the 30-second refresh of frontend/_old/Summary.js, the refresh flag and the loading indicators. A handler's follow-up reload is a separate `Load` call; where a handler itself installs the reloaded list, the list is a parameter.
- `window.confirm`, `alert`, console logging and CSS class names other than the banner's error/success choice (`ClientRecords.ErrorStyled`). A declined confirmation is the absence of a call.
- Floating point: `collectionRate` with `toFixed`, its remark thresholds, the retention remark and `toLocaleString`. Money is integers. `Math.round` is exact integer rounding on the installment division (`JsMath.RoundDiv`) and on retention.
- `Number` and `parseInt` in full: signs, whitespace, decimals, exponents, "Infinity". A numeric text is a non-empty string of decimal digits.
- Unicode lower-casing; only ASCII letters are lowered.
- `ObjectId`s are numbers handed out by a counter; the hex text of an `_id` is a parameter (`render`, or the text in the finding below).
- Mongoose drops undefined keys from the `findOne` filter of the fees POST, so a body missing `studentId` or `month` could overwrite another student's record or another month's: the model rejects every incomplete body with 400 before the lookup.
- The old fee page's `PUT /api/fees/:id` has no route on the server. `OldFeeStatus.FeeStatusPage.ChangeStatus` takes the outcome as its `accepted` parameter; the response-driven replacement of records (frontend_old/src/FeeStatus.js:137-145, 192-199, 226-233) is left out.
- Temporary payment ids built from `Date.now()` are a `stamp` parameter.
- `student.status.toLowerCase()` in frontend_old/src/StudentList.js:145 throws for every listed student, since the routes never send `status`: the model lets the page render.
- A route row has no `_id`, so `student._id.toString()` in frontend_old/src/Summary.js:177 would throw if `payments` were present; the route never sends `payments`, so the filter is modelled on the entries' `objectId` field.
- PagedSummary.SummaryPage.Remove: uses the corrected id rule `DeleteTarget`; the handler as written derives the id with `parseInt` (`DeleteTargetAsWritten`, see Findings), so for a route row it would send a DELETE for the student numbered by the `_id`'s leading digits.
- PagedStudentList.StudentListPage.Remove: uses the corrected clamp `ClampAfterDelete`; the handler as written clamps against all remaining students (`ClampAfterDeleteAsWritten`, see Findings) and can keep an empty page.
- OldSummary.RouteRowAsShown: states the values the cells would hold; `student.status.toLowerCase()` in frontend_old/src/Summary.js:209 throws on every route row, which carries no `status`, so the page as written renders neither the rows nor the metric cards once the route's answer arrives.
- OldFeeStatus.FeeStatusPage.ChangeStatus: states only that a failed request sets the error banner, not that a successful one's banner is plain, because the success banner embeds the selected month's text.
- EditableStudents.SaveBody: a NaN fee is sent as JSON `null` by the page; the model sends nothing in that case.
- EditableStudents.EditableStudentList.Save: leaves edit mode only when the PUT succeeds, as the code does (a failed `await` skips `setEditId(null)`).
- frontend/src/Summary.js, frontend/src/App.js, frontend/src/EnrollStudent.js, frontend/_old/App.js, Loader.js, ThemeToggle.js and DataRefreshContext.js: UI with no bookkeeping logic.
- The edit modal of frontend/_old/StudentList.js: it delegates to EnrollStudent.js, which is not part of this model.

## Findings

| source | as written | input that shows it | evidently intended | confidence | as-written member | corrected member |
|---|---|---|---|---|---|---|
| frontend/_old/Summary.js:84-91 | a string id is converted with `parseInt(s, 10)`, which reads only leading digits, and only NaN is refused | a summary row as the route sends it, whose `studentId` is the `_id` text "68a1f0c2e4b0d5a3c9e1f207": the page deletes the student numbered 68 | send a delete only for an id that is wholly a number, and refuse anything else | not executed | PagedSummary.DeleteTargetAsWritten | PagedSummary.DeleteTarget |
| frontend/_old/StudentList.js:52-56 | after a delete the page is clamped against the page count of all remaining students, not of the searched list the page shows | eleven students named "Ana" and one "Bo", search "an", page 2; delete the eleventh Ana: 11 students remain, so page 2 is kept, but the search now keeps 10 and page 2 is empty | clamp against the page count of the searched, reloaded list | not executed | PagedStudentList.ClampAfterDeleteAsWritten | PagedStudentList.ClampAfterDelete |

=== FILE: calendar.dfy ===
/** The academic-year window that the summary route and both fee screens
    declare: eleven month labels, June 2025 to April 2026, compared by
    position only. */
module AcademicYear {
  import opened Seqs

  /** The label at position `i` of the window (0 to 10). */
  function MonthLabel(i: int): string
  {
    if i == 0 then "June 2025"
    else if i == 1 then "July 2025"
    else if i == 2 then "August 2025"
    else if i == 3 then "September 2025"
    else if i == 4 then "October 2025"
    else if i == 5 then "November 2025"
    else if i == 6 then "December 2025"
    else if i == 7 then "January 2026"
    else if i == 8 then "February 2026"
    else if i == 9 then "March 2026"
    else "April 2026"
  }

  /** The window, in calendar order. */
  function Months(): seq<string>
  {
    seq(11, MonthLabel)
  }

  /** `months.indexOf(month)`: the label's position, -1 when absent. */
  function IndexOf(month: string): (r: int)
    ensures -1 <= r < |Months()|
    ensures r >= 0 ==> Months()[r] == month
    ensures r == -1 <==> month !in Months()
  {
    FindIndex(Months(), m => m == month)
  }

  /** The window has eleven labels, starts at June 2025 and ends at April
      2026, and no label appears twice. */
  lemma WindowShape()
    ensures |Months()| == 11
    ensures Months()[0] == "June 2025" && Months()[10] == "April 2026"
    ensures forall i, j :: 0 <= i < j < |Months()| ==> Months()[i] != Months()[j]
  {
  }

  /** Each label is found at its own position. */
  lemma IndexOfLabel(i: int)
    requires 0 <= i < |Months()|
    ensures IndexOf(Months()[i]) == i
  {
    WindowShape();
  }
}

=== FILE: client_records.dfy ===
/** The records the browser pages work on. The older pages expect fields
    (enrolment month, fee type, yearly fee, installments, status) that the
    server's Student schema does not store; a field the server does not send
    reads as its falsy value: "" for a string, 0 for a number. */
module ClientRecords {
  import opened Wrappers
  import opened Seqs
  import opened Text
  import opened Models

  /** A student as the older pages read it from the JSON they receive. */
  datatype StudentView = StudentView(
    id: ObjectId,
    studentId: int,
    name: string,
    className: string,
    parentNumber: string,
    monthlyFee: int,
    enrollmentMonth: string,
    feeType: string,
    yearlyFee: int,
    installments: int,
    status: string)

  /** A stored student as an older page sees it: the fields the schema does
      not declare are absent. */
  function FromServer(s: Student): StudentView
  {
    StudentView(s.id, s.studentId, s.name, s.className, s.parentNumber, s.monthlyFee, "", "", 0, 0, "")
  }

  /** A payment's `_id` on the client: a stored `_id`, or the temporary id
      an optimistic record carries until the server answers. */
  datatype ClientId = Stored(oid: ObjectId) | Temporary(stamp: int)

  /** A payment as the older fee page keeps it in its state. */
  datatype ClientPayment = ClientPayment(
    id: ClientId,
    studentRef: ObjectId,
    month: string,
    status: PayStatus,
    amountPaid: int,
    isInstallment: bool,
    installmentNumber: Option<int>)

  /** A stored payment as the older fee page sees it: the schema keeps no
      installment fields, so they are absent. */
  function FromServerPayment(p: FeePayment): ClientPayment
  {
    ClientPayment(Stored(p.id), p.studentRef, p.month, p.status, p.amountPaid, false, None)
  }

  /** A list of stored payments as the older fee page holds it. */
  function FromServerPayments(ps: seq<FeePayment>): (r: seq<ClientPayment>)
    ensures |r| == |ps|
    ensures forall i :: 0 <= i < |ps| ==> r[i] == FromServerPayment(ps[i])
  {
    seq(|ps|, i requires 0 <= i < |ps| => FromServerPayment(ps[i]))
  }

  /** A list of stored students as the older pages hold it. */
  function FromServerStudents(ss: seq<Student>): (r: seq<StudentView>)
    ensures |r| == |ss|
    ensures forall i :: 0 <= i < |ss| ==> r[i] == FromServer(ss[i])
  {
    seq(|ss|, i requires 0 <= i < |ss| => FromServer(ss[i]))
  }

  /** Converting stored students and filtering commute, for a test that
      reads only fields the conversion keeps. */
  lemma {:induction false} FromServerFilter(ss: seq<Student>, p: Student -> bool, q: StudentView -> bool)
    requires forall s :: p(s) == q(FromServer(s))
    ensures FromServerStudents(Filter(ss, p)) == Filter(FromServerStudents(ss), q)
  {
    if ss != [] {
      var x, t := ss[0], ss[1..];
      assert ss == [x] + t;
      FromServerFilter(t, p, q);
      var head := if p(x) then [x] else [];
      FilterCons(x, t, p);
      FromServerAppend([x], t);
      FilterCons(FromServer(x), FromServerStudents(t), q);
      FromServerAppend(head, Filter(t, p));
      assert FromServerStudents(head) == if q(FromServer(x)) then [FromServer(x)] else [];
    }
  }

  /** Converting a concatenation converts each part. */
  lemma FromServerAppend(a: seq<Student>, b: seq<Student>)
    ensures FromServerStudents(a + b) == FromServerStudents(a) + FromServerStudents(b)
  {
  }

  /** The student-list search: the lowercased name or class contains the
      lowercased search text, or the parent number contains it as typed. */
  predicate SearchMatches(name: string, className: string, parentNumber: string, search: string)
  {
    Contains(ToLower(name), ToLower(search))
    || Contains(ToLower(className), ToLower(search))
    || Contains(parentNumber, search)
  }

  /** An empty search matches every student. */
  lemma EmptySearchMatchesAll(name: string, className: string, parentNumber: string)
    ensures SearchMatches(name, className, parentNumber, "")
  {
    assert ToLower("") == "";
    ContainsEmpty(ToLower(name));
  }

  /** A page's message banner is styled as an error when its text
      contains "Error". */
  predicate ErrorStyled(message: string)
  {
    Contains(message, "Error")
  }

  /** A text that begins with "Error" is styled as an error. */
  lemma ErrorPrefixStyled(rest: string)
    ensures ErrorStyled("Error" + rest)
  {
    var m := "Error" + rest;
    assert m[0..5] == "Error";
    assert OccursAt(m, "Error", 0);
  }
}

=== FILE: fee_status.dfy ===
/** frontend/src/FeeStatus.js: the current monthly fee tracker. The page
    holds the active students and the payments of the selected month, shows
    each student's status and balance, and posts a payment when a status is
    changed. */
module FeeTracker {
  import opened Wrappers
  import opened Seqs
  import opened Models
  import opened AcademicYear
  import opened StudentsRoute
  import opened FeesRoute
  import opened SummaryRoute

  /** A payment belongs to the student with `_id` `ref`. */
  function PaymentOf(ref: ObjectId): FeePayment -> bool
  {
    (p: FeePayment) => p.studentRef == ref
  }

  /** `students.find(s => s._id === studentId)`. */
  function StudentById(ss: seq<Student>, ref: ObjectId): Option<Student>
  {
    Find(ss, (s: Student) => s.id == ref)
  }

  /** `getStatus`: the status of the first payment held for the student,
      Unpaid when there is none. */
  function GetStatus(ps: seq<FeePayment>, ref: ObjectId): (r: PayStatus)
    ensures (forall p :: p in ps ==> p.studentRef != ref) ==> r == Unpaid
    ensures r == Paid ==> exists p :: p in ps && p.studentRef == ref && p.status == Paid
  {
    var p := Find(ps, PaymentOf(ref));
    if p.Some? then p.value.status else Unpaid
  }

  /** `getBalance`: nothing when that payment is Paid; otherwise the
      student's monthly fee, or nothing for an unknown student. */
  function GetBalance(ss: seq<Student>, ps: seq<FeePayment>, ref: ObjectId): (r: int)
    ensures GetStatus(ps, ref) == Paid ==> r == 0
    ensures GetStatus(ps, ref) == Unpaid && StudentById(ss, ref).Some? ==> r == StudentById(ss, ref).value.monthlyFee
    ensures StudentById(ss, ref).None? ==> r == 0
  {
    var p := Find(ps, PaymentOf(ref));
    if p.Some? && p.value.status == Paid then 0
    else
      var s := StudentById(ss, ref);
      if s.None? || s.value.monthlyFee == 0 then 0 else s.value.monthlyFee
  }

  /** The body `handleStatusChange` posts for the selected month: the fee
      when marking Paid, 0 when marking Unpaid. Marking an unknown student
      Paid fails before anything is sent (reading the fee of `undefined`). */
  function StatusBody(ss: seq<Student>, selectedMonth: string, ref: ObjectId, status: PayStatus)
    : (b: Option<PaymentBody>)
    ensures b.None? <==> status == Paid && StudentById(ss, ref).None?
    ensures b.Some? ==>
      && b.value.studentRef == Some(ref) && b.value.month == Some(selectedMonth)
      && b.value.status == Some(StatusName(status))
    ensures b.Some? && status == Paid ==> b.value.amountPaid == Some(StudentById(ss, ref).value.monthlyFee)
    ensures b.Some? && status == Unpaid ==> b.value.amountPaid == Some(0)
  {
    var s := StudentById(ss, ref);
    if status == Paid && s.None? then None
    else
      var amount := if status == Paid then s.value.monthlyFee else 0;
      Some(PaymentBody(Some(ref), Some(selectedMonth), Some(StatusName(status)), Some(amount)))
  }

  /** Every body the page posts passes the server's checks: the selected
      month is always a label of the window. */
  lemma PostedBodyIsAccepted(ss: seq<Student>, selectedMonth: string, ref: ObjectId, status: PayStatus)
    requires selectedMonth in Months()
    requires StatusBody(ss, selectedMonth, ref, status).Some?
    ensures PaymentBodyValid(StatusBody(ss, selectedMonth, ref, status).value)
  {
    var i :| 0 <= i < |Months()| && Months()[i] == selectedMonth;
    assert |MonthLabel(i)| > 0;
    StatusRoundTrip(status);
  }

  /** The page holds only the selected month's payments, so its lookup by
      student is the lookup by (student, month) on the whole collection. */
  lemma LookupIsPerMonth(ps: seq<FeePayment>, ref: ObjectId, month: string)
    requires month != ""
    ensures Find(Query(ps, None, month), PaymentOf(ref)) == Find(ps, HasKey(ref, month))
  {
    FindInFilter(ps, MatchesQuery(None, month), PaymentOf(ref), HasKey(ref, month));
  }

  /** With unique `_id`s, looking a listed student up by `_id` finds it. */
  lemma StudentByIdFinds(ss: seq<Student>, s: Student)
    requires UniqueObjectIds(ss) && s in ss
    ensures StudentById(ss, s.id) == Some(s)
  {
    var f := StudentById(ss, s.id);
    var j :| 0 <= j < |ss| && ss[j] == s;
    var k :| 0 <= k < |ss| && ss[k] == f.value;
    if k < j {
      assert ss[k].id != ss[j].id;
    } else if j < k {
      assert ss[j].id != ss[k].id;
    }
  }

  /** For a month of the window, the tracker's row agrees with the summary
      route: it reads Paid exactly when the summary counts the month as
      paid, and its balance is what the month adds to the summary's
      pending amount. */
  lemma TrackerAgreesWithSummary(ss: seq<Student>, ps: seq<FeePayment>, s: Student, month: string)
    requires UniqueObjectIds(ss) && s in ss && month != ""
    ensures GetStatus(Query(ps, None, month), s.id) == Paid <==> MonthPaid(ps, s, month)
    ensures GetBalance(ss, Query(ps, None, month), s.id) == PendingAmount(ps, s, month)
  {
    LookupIsPerMonth(ps, s.id, month);
    StudentByIdFinds(ss, s);
  }

  /** Posting a status and reloading the month shows that status on the
      student's row; a Paid row then owes nothing. */
  lemma PostThenReloadShowsStatus(ss: seq<Student>, ps: seq<FeePayment>, nextId: ObjectId,
                                  month: string, ref: ObjectId, status: PayStatus)
    requires month in Months()
    requires StatusBody(ss, month, ref, status).Some?
    ensures var after := Upsert(ps, nextId, StatusBody(ss, month, ref, status).value).1;
      GetStatus(Query(after, None, month), ref) == status
      && (status == Paid ==> GetBalance(ss, Query(after, None, month), ref) == 0)
  {
    var b := StatusBody(ss, month, ref, status).value;
    PostedBodyIsAccepted(ss, month, ref, status);
    var out := Upsert(ps, nextId, b);
    UpsertThenFind(ps, nextId, b);
    LookupIsPerMonth(out.1, ref, month);
    var stored := out.0.value.status;
    assert StatusName(stored) == StatusName(status);
    StatusRoundTrip(stored);
    StatusRoundTrip(status);
  }

  /** The page's state. */
  class FeeTrackerPage {
    var students: seq<Student>
    var payments: seq<FeePayment>
    var selectedMonth: string
    var message: string

    /** The selector starts on the first label of the window. */
    constructor ()
      ensures students == [] && payments == [] && message == ""
      ensures selectedMonth == Months()[0] && selectedMonth == "June 2025"
    {
      students := [];
      payments := [];
      selectedMonth := MonthLabel(0);
      message := "";
    }

    /** Choosing a month in the selector, whose options are the window's
        labels. */
    method SelectMonth(month: string)
      requires month in Months()
      modifies this
      ensures selectedMonth == month
      ensures students == old(students) && payments == old(payments) && message == old(message)
    {
      selectedMonth := month;
    }

    /** `fetchData` with the server's answers: the active students and the
        payments whose month is the selected one. */
    method Load(listed: seq<Student>, ps: seq<FeePayment>)
      modifies this
      ensures students == listed && payments == Query(ps, None, selectedMonth)
      ensures selectedMonth == old(selectedMonth) && message == old(message)
    {
      students := listed;
      payments := Query(ps, None, selectedMonth);
    }

    /** `handleStatusChange`: the body posted (none when the page fails
        first), and the confirmation once the awaited POST has succeeded;
        `accepted` is whether it did. A failed POST rejects the handler
        before the banner is set. */
    method ChangeStatus(ref: ObjectId, status: PayStatus, accepted: bool) returns (posted: Option<PaymentBody>)
      modifies this
      ensures posted == StatusBody(old(students), old(selectedMonth), ref, status)
      ensures message == if posted.Some? && accepted then "Status updated!" else old(message)
      ensures students == old(students) && payments == old(payments) && selectedMonth == old(selectedMonth)
    {
      posted := StatusBody(students, selectedMonth, ref, status);
      if posted.Some? && accepted {
        message := "Status updated!";
      }
    }
  }
}

=== FILE: fee_status_old.dfy ===
/** frontend_old/src/FeeStatus.js: the older fee page. Students are charged
    either monthly (one row per student for the selected month) or yearly in
    installments (one row per installment). The page looks payments up in
    the list it fetched, computes the amount still due, and on a click
    updates its own copy of the payments and sends one request. */
module OldFeeStatus {
  import opened Wrappers
  import opened Seqs
  import opened Text
  import opened JsMath
  import opened Models
  import opened AcademicYear
  import opened FeesRoute
  import opened ClientRecords

  /** The enrolment month the page assumes: the record's, or June 2025. */
  function EnrolmentOrDefault(st: StudentView): string
  {
    if st.enrollmentMonth == "" then "June 2025" else st.enrollmentMonth
  }

  /** `calculateFeeBasedOnMonths`: the fee due for the selected month. No
      student or a zero fee owes nothing; a month outside the window owes
      the full fee; otherwise nothing is owed only for a month more than one
      month before the enrolment month. */
  function FeeForMonth(student: Option<StudentView>, selectedMonth: string): (r: int)
    ensures r == 0 || (student.Some? && r == student.value.monthlyFee)
    ensures student.None? || student.value.monthlyFee == 0 ==> r == 0
    ensures student.Some? && selectedMonth !in Months() ==> r == student.value.monthlyFee
    ensures student.Some? && student.value.monthlyFee != 0 && selectedMonth in Months() ==>
      (r == 0 <==> IndexOf(EnrolmentOrDefault(student.value)) > IndexOf(selectedMonth) + 1)
  {
    if student.None? || student.value.monthlyFee == 0 then 0
    else
      var fee := student.value.monthlyFee;
      var selected := IndexOf(selectedMonth);
      if selected == -1 then fee
      else
        var enrolled := IndexOf(EnrolmentOrDefault(student.value));
        if enrolled == selected + 1 then fee
        else if enrolled > selected then 0
        else fee
  }

  /** The server never sends an enrolment month, so every stored student is
      charged the full monthly fee in every month. */
  lemma ServerStudentOwesFullFee(s: Student, selectedMonth: string)
    ensures FeeForMonth(Some(FromServer(s)), selectedMonth) == s.monthlyFee
  {
    IndexOfLabel(0);
  }

  /** `isClass10Student`: exactly "10", exactly "Class 10", or any class
      whose lowercased name contains "10". */
  predicate IsClass10Student(className: string)
    ensures Contains(className, "10") ==> IsClass10Student(className)
  {
    ContainsLowerNoLetters(className, "10");
    className == "10" || className == "Class 10" || Contains(ToLower(className), "10")
  }

  /** The two exact names are redundant: a class counts as class 10 exactly
      when its name contains "10". */
  lemma Class10MeansContains10(className: string)
    ensures IsClass10Student(className) <==> Contains(className, "10")
  {
    ContainsLowerNoLetters(className, "10");
    if className == "Class 10" {
      assert OccursAt(className, "10", 6);
    } else if className == "10" {
      assert OccursAt(className, "10", 0);
    }
  }

  /** The yearly fee an installment is cut from: `yearlyFee`, else twelve
      monthly fees, else 12000. */
  function YearlyFee(st: StudentView): (y: int)
    ensures y != 0
    ensures st.yearlyFee != 0 ==> y == st.yearlyFee
    ensures st.yearlyFee == 0 && st.monthlyFee != 0 ==> y == 12 * st.monthlyFee
  {
    if st.yearlyFee != 0 then st.yearlyFee
    else if st.monthlyFee * 12 != 0 then st.monthlyFee * 12
    else 12000
  }

  /** The number of installments: `installments`, else 3. */
  function InstallmentCount(st: StudentView): (n: int)
    ensures n != 0
  {
    if st.installments != 0 then st.installments else 3
  }

  /** One installment: the yearly fee divided by the number of installments,
      rounded with `Math.round`. */
  function InstallmentAmount(st: StudentView): (a: int)
    ensures var n, y := InstallmentCount(st), YearlyFee(st);
      n > 0 ==> 2 * n * a - n <= 2 * y < 2 * n * a + n
  {
    RoundDiv(YearlyFee(st), InstallmentCount(st))
  }

  /** The installments add up to the yearly fee up to rounding: all n of
      them together differ from it by at most half an installment count. */
  lemma InstallmentsCoverYear(st: StudentView)
    requires InstallmentCount(st) > 0
    ensures var n, y := InstallmentCount(st), YearlyFee(st);
      -n < 2 * (n * InstallmentAmount(st) - y) <= n
  {
    var n, y, r := InstallmentCount(st), YearlyFee(st), InstallmentAmount(st);
    assert 2 * n * r - n <= 2 * y < 2 * n * r + n;
    assert 2 * (n * r - y) == 2 * n * r - 2 * y;
  }

  /** A non-negative yearly fee over a positive count gives an installment
      between 0 and the yearly fee. */
  lemma InstallmentWithinYear(st: StudentView)
    requires InstallmentCount(st) > 0 && YearlyFee(st) > 0
    ensures 0 <= InstallmentAmount(st) <= YearlyFee(st)
  {
    var n, y := InstallmentCount(st), YearlyFee(st);
    MulMonotone(y, 1, n);
    RoundDivBetween(y, n, y);
  }

  /** A stored student with a fee pays four monthly fees per installment. */
  lemma ServerStudentInstallment(s: Student)
    requires s.monthlyFee != 0
    ensures InstallmentAmount(FromServer(s)) == 4 * s.monthlyFee
  {
    var st := FromServer(s);
    var r := InstallmentAmount(st);
    assert YearlyFee(st) == 12 * s.monthlyFee && InstallmentCount(st) == 3;
    assert 6 * r - 3 <= 24 * s.monthlyFee < 6 * r + 3;
  }

  /** `students.find(s => s.studentId === studentId)`. */
  function StudentByNumber(ss: seq<StudentView>, studentId: int): Option<StudentView>
  {
    Find(ss, (st: StudentView) => st.studentId == studentId)
  }

  /** An installment lookup matches the student's installment records with
      that number. */
  function InstallmentMatch(ref: ObjectId, number: int): ClientPayment -> bool
  {
    (p: ClientPayment) => p.studentRef == ref && p.isInstallment && p.installmentNumber == Some(number)
  }

  /** A monthly lookup matches the student's records for that month that
      are not installments. */
  function MonthlyMatch(ref: ObjectId, month: string): ClientPayment -> bool
  {
    (p: ClientPayment) => p.studentRef == ref && p.month == month && !p.isInstallment
  }

  /** The lookup a row uses, shared by `getStatus` and `getPaymentId`: none
      for an unknown student; an installment number selects the installment
      lookup, otherwise a non-empty month selects the monthly lookup. */
  function RowLookup(ss: seq<StudentView>, studentId: int, month: string,
                     installment: Option<int>): Option<ClientPayment -> bool>
  {
    var student := StudentByNumber(ss, studentId);
    if student.None? then None
    else if installment.Some? then Some(InstallmentMatch(student.value.id, installment.value))
    else if month != "" then Some(MonthlyMatch(student.value.id, month))
    else None
  }

  /** The payment a row refers to: the first record its lookup matches. */
  function RowPayment(ss: seq<StudentView>, ps: seq<ClientPayment>, studentId: int,
                      month: string, installment: Option<int>): (r: Option<ClientPayment>)
    ensures RowLookup(ss, studentId, month, installment).None? ==> r.None?
    ensures r.Some? ==> exists k :: FirstMatch(ps, RowLookup(ss, studentId, month, installment).value, k) && ps[k] == r.value
    ensures RowLookup(ss, studentId, month, installment).Some? && r.None? ==>
      forall p :: p in ps ==> !RowLookup(ss, studentId, month, installment).value(p)
    ensures r.Some? ==> r.value in ps
    ensures r.Some? ==> StudentByNumber(ss, studentId).Some?
    ensures r.Some? && installment.Some? ==>
      InstallmentMatch(StudentByNumber(ss, studentId).value.id, installment.value)(r.value)
    ensures r.Some? && installment.None? ==>
      month != "" && MonthlyMatch(StudentByNumber(ss, studentId).value.id, month)(r.value)
    ensures r.None? && StudentByNumber(ss, studentId).Some? && installment.Some? ==>
      forall p :: p in ps ==> !InstallmentMatch(StudentByNumber(ss, studentId).value.id, installment.value)(p)
    ensures r.None? && StudentByNumber(ss, studentId).Some? && installment.None? && month != "" ==>
      forall p :: p in ps ==> !MonthlyMatch(StudentByNumber(ss, studentId).value.id, month)(p)
  {
    var m := RowLookup(ss, studentId, month, installment);
    if m.None? then None else Find(ps, m.value)
  }

  /** `getStatus`: the status of the row's payment, Unpaid when there is
      none. */
  function GetStatus(ss: seq<StudentView>, ps: seq<ClientPayment>, studentId: int,
                     month: string, installment: Option<int>): (r: PayStatus)
    ensures StudentByNumber(ss, studentId).None? ==> r == Unpaid
    ensures r == Paid ==>
      exists p :: p in ps && p.status == Paid && p.studentRef == StudentByNumber(ss, studentId).value.id
    ensures RowLookup(ss, studentId, month, installment).None? ==> r == Unpaid
    ensures RowLookup(ss, studentId, month, installment).Some? ==>
      var m := RowLookup(ss, studentId, month, installment).value;
      (r == Paid <==> exists k :: FirstMatch(ps, m, k) && ps[k].status == Paid)
  {
    var p := RowPayment(ss, ps, studentId, month, installment);
    FirstRecordDecides(ss, ps, studentId, month, installment);
    if p.Some? then p.value.status else Unpaid
  }

  /** `getPaymentId`: the `_id` of the row's payment, null when there is
      none. */
  function GetPaymentId(ss: seq<StudentView>, ps: seq<ClientPayment>, studentId: int,
                        month: string, installment: Option<int>): (r: Option<ClientId>)
    ensures StudentByNumber(ss, studentId).None? ==> r.None?
    ensures r.Some? ==>
      exists p :: p in ps && p.id == r.value && p.studentRef == StudentByNumber(ss, studentId).value.id
    ensures RowLookup(ss, studentId, month, installment).None? ==> r.None?
    ensures RowLookup(ss, studentId, month, installment).Some? ==>
      var m := RowLookup(ss, studentId, month, installment).value;
      && (r.None? <==> forall p :: p in ps ==> !m(p))
      && (r.Some? ==> exists k :: FirstMatch(ps, m, k) && ps[k].id == r.value)
  {
    var p := RowPayment(ss, ps, studentId, month, installment);
    if p.Some? then Some(p.value.id) else None
  }

  /** The row's record is the lookup's first match, whichever match it is
      compared with. */
  lemma FirstRecordDecides(ss: seq<StudentView>, ps: seq<ClientPayment>, studentId: int,
                           month: string, installment: Option<int>)
    ensures var m := RowLookup(ss, studentId, month, installment);
      m.Some? ==> forall k :: FirstMatch(ps, m.value, k) ==> RowPayment(ss, ps, studentId, month, installment) == Some(ps[k])
  {
    var m := RowLookup(ss, studentId, month, installment);
    if m.Some? {
      forall k | FirstMatch(ps, m.value, k)
        ensures RowPayment(ss, ps, studentId, month, installment) == Some(ps[k])
      {
        assert ps[k] in ps;
        var r := RowPayment(ss, ps, studentId, month, installment);
        var l :| FirstMatch(ps, m.value, l) && ps[l] == r.value;
        FirstMatchUnique(ps, m.value, k, l);
      }
    }
  }

  /** The status and the id a row shows come from the same record: without
      an id the row reads Unpaid, and with one the row shows that record's
      status. */
  lemma StatusAndIdAgree(ss: seq<StudentView>, ps: seq<ClientPayment>, studentId: int,
                         month: string, installment: Option<int>)
    ensures GetPaymentId(ss, ps, studentId, month, installment).None? ==>
      GetStatus(ss, ps, studentId, month, installment) == Unpaid
    ensures GetPaymentId(ss, ps, studentId, month, installment).Some? ==>
      exists p :: p in ps && p.id == GetPaymentId(ss, ps, studentId, month, installment).value
        && p.status == GetStatus(ss, ps, studentId, month, installment)
  {
  }

  /** The server stores no installment fields, so once the page holds the
      server's payments no installment row ever finds its record: every
      installment shows Unpaid and has no id. */
  lemma InstallmentsNeverFoundAfterReload(ss: seq<StudentView>, ps: seq<FeePayment>, studentId: int, number: int)
    ensures GetStatus(ss, FromServerPayments(ps), studentId, "", Some(number)) == Unpaid
    ensures GetPaymentId(ss, FromServerPayments(ps), studentId, "", Some(number)) == None
  {
    var cs := FromServerPayments(ps);
    var student := StudentByNumber(ss, studentId);
    if student.Some? {
      var m := InstallmentMatch(student.value.id, number);
      assert forall p :: p in cs ==> !m(p);
    }
  }

  /** Which amount `getBalance` shows. */
  datatype BalanceMode = MonthlyBalance | InstallmentBalance(number: int)

  /** `getBalance`: nothing for a falsy or unknown student number or a Paid
      record; otherwise one installment, or the month's fee for the selected
      month. */
  function GetBalance(ss: seq<StudentView>, ps: seq<ClientPayment>, selectedMonth: string,
                      studentId: int, mode: BalanceMode): (r: int)
    ensures studentId == 0 || StudentByNumber(ss, studentId).None? ==> r == 0
  {
    var student := StudentByNumber(ss, studentId);
    if studentId == 0 || student.None? then 0
    else
      match mode
      case InstallmentBalance(n) =>
        var p := Find(ps, InstallmentMatch(student.value.id, n));
        if p.Some? && p.value.status == Paid then 0 else InstallmentAmount(student.value)
      case MonthlyBalance =>
        var p := Find(ps, MonthlyMatch(student.value.id, selectedMonth));
        if p.Some? && p.value.status == Paid then 0 else FeeForMonth(student, selectedMonth)
  }

  /** A monthly row's balance agrees with its status: nothing is due when
      the row reads Paid, the month's fee otherwise. */
  lemma MonthlyBalanceFollowsStatus(ss: seq<StudentView>, ps: seq<ClientPayment>, selectedMonth: string, studentId: int)
    requires studentId != 0 && selectedMonth != ""
    ensures GetBalance(ss, ps, selectedMonth, studentId, MonthlyBalance)
         == if GetStatus(ss, ps, studentId, selectedMonth, None) == Paid then 0
            else FeeForMonth(StudentByNumber(ss, studentId), selectedMonth)
  {
  }

  /** An installment row's balance agrees with its status: nothing is due
      when the row reads Paid, one installment otherwise. */
  lemma InstallmentBalanceFollowsStatus(ss: seq<StudentView>, ps: seq<ClientPayment>, selectedMonth: string,
                                        studentId: int, number: int)
    requires studentId != 0 && StudentByNumber(ss, studentId).Some?
    ensures GetBalance(ss, ps, selectedMonth, studentId, InstallmentBalance(number))
         == if GetStatus(ss, ps, studentId, "", Some(number)) == Paid then 0
            else InstallmentAmount(StudentByNumber(ss, studentId).value)
  {
  }

  /** A student is billed yearly when its class counts as class 10 or its
      fee type is "yearly". */
  predicate IsYearlyStudent(st: StudentView)
    ensures st.feeType == "yearly" ==> IsYearlyStudent(st)
    ensures !IsClass10Student(st.className) && st.feeType != "yearly" ==> !IsYearlyStudent(st)
  {
    IsClass10Student(st.className) || st.feeType == "yearly"
  }

  /** The students a view mode shows: the monthly view the non-yearly ones,
      the yearly view the yearly ones, any other mode none. */
  function InView(viewMode: string): StudentView -> bool
  {
    (st: StudentView) =>
      if viewMode == "monthly" then !IsYearlyStudent(st)
      else if viewMode == "yearly" then IsYearlyStudent(st)
      else false
  }

  /** `filteredStudents`. */
  function ViewStudents(ss: seq<StudentView>, viewMode: string): (r: seq<StudentView>)
    ensures forall st :: st in r <==> st in ss && InView(viewMode)(st)
  {
    FilterMembershipAll(ss, InView(viewMode));
    Filter(ss, InView(viewMode))
  }

  /** The two views split the students: together they hold every student
      exactly as often as the list does, no student is in both, and any
      other mode shows nobody. */
  lemma ViewsPartition(ss: seq<StudentView>)
    ensures multiset(ViewStudents(ss, "monthly")) + multiset(ViewStudents(ss, "yearly")) == multiset(ss)
    ensures forall st :: st in ss ==> (st in ViewStudents(ss, "monthly") <==> st !in ViewStudents(ss, "yearly"))
    ensures forall mode :: mode != "monthly" && mode != "yearly" ==> ViewStudents(ss, mode) == []
  {
    FilterPartition(ss, InView("yearly"), InView("monthly"));
    forall mode | mode != "monthly" && mode != "yearly"
      ensures ViewStudents(ss, mode) == []
    {
      FilterKeepsNone(ss, InView(mode));
    }
  }

  /** The installment part of a POST body. */
  datatype InstallmentInfo = InstallmentInfo(number: int, total: int)

  /** The JSON body of a POST to `/api/fees`. */
  datatype PostBody = PostBody(studentRef: ObjectId, month: string, status: PayStatus, amountPaid: int,
                               installment: Option<InstallmentInfo>)

  /** The request a status change sends. */
  datatype FeeRequest =
    | NoRequest
    | PutPayment(paymentId: ClientId, status: PayStatus, amountPaid: int)
    | PostPayment(body: PostBody)

  /** What the strict FeePayment schema keeps of a POST body: the installment
      keys are dropped. */
  function ToServerBody(b: PostBody): PaymentBody
  {
    PaymentBody(Some(b.studentRef), Some(b.month), Some(StatusName(b.status)), Some(b.amountPaid))
  }

  /** The month label of an installment record. */
  function InstallmentMonth(number: int, selectedMonth: string): (m: string)
    ensures |m| > 0 && m[0] == 'I'
  {
    "Installment " + IntToString(number) + " (" + selectedMonth + ")"
  }

  /** The amount a status change records: nothing for Unpaid; for Paid one
      installment or the month's fee. */
  function AmountFor(st: StudentView, status: PayStatus, asInstallment: bool, selectedMonth: string): (a: int)
    ensures status == Unpaid ==> a == 0
    ensures status == Paid && asInstallment ==> a == InstallmentAmount(st)
    ensures status == Paid && !asInstallment ==> a == FeeForMonth(Some(st), selectedMonth)
    ensures status == Paid && !asInstallment ==> a == 0 || a == st.monthlyFee
  {
    if status != Paid then 0
    else if asInstallment then InstallmentAmount(st)
    else FeeForMonth(Some(st), selectedMonth)
  }

  /** The local update for an existing payment: every record with that `_id`
      takes the new status and amount. */
  function MarkLocally(ps: seq<ClientPayment>, paymentId: ClientId, status: PayStatus, amountPaid: int)
    : (r: seq<ClientPayment>)
    ensures |r| == |ps|
    ensures forall i :: 0 <= i < |ps| ==>
      && r[i].id == ps[i].id && r[i].studentRef == ps[i].studentRef && r[i].month == ps[i].month
      && r[i].isInstallment == ps[i].isInstallment && r[i].installmentNumber == ps[i].installmentNumber
    ensures forall i :: 0 <= i < |ps| && ps[i].id != paymentId ==> r[i] == ps[i]
    ensures forall i :: 0 <= i < |ps| && ps[i].id == paymentId ==>
      r[i].status == status && r[i].amountPaid == amountPaid
  {
    seq(|ps|, i requires 0 <= i < |ps| =>
      if ps[i].id == paymentId then ps[i].(status := status, amountPaid := amountPaid) else ps[i])
  }

  /** `handleStatusChange`: the request sent, the page's payments right
      after the click, and the message shown once the request succeeds.
      `stamp` stands for the clock reading in a temporary id. */
  function StatusChange(ss: seq<StudentView>, ps: seq<ClientPayment>, selectedMonth: string,
                        studentId: int, status: PayStatus, paymentId: Option<ClientId>,
                        isInstallment: bool, installment: Option<int>, stamp: int)
    : (out: (FeeRequest, seq<ClientPayment>, string))
    ensures StudentByNumber(ss, studentId).None? ==> out == (NoRequest, ps, NotFoundMessage)
    ensures StudentByNumber(ss, studentId).Some? && paymentId.Some? ==>
      var st := StudentByNumber(ss, studentId).value;
      && out.0 == PutPayment(paymentId.value, status, AmountFor(st, status, isInstallment, selectedMonth))
      && out.1 == MarkLocally(ps, paymentId.value, status, out.0.amountPaid)
    ensures StudentByNumber(ss, studentId).Some? && paymentId.None? ==>
      && out.0.PostPayment? && out.0.body.studentRef == StudentByNumber(ss, studentId).value.id
      && out.0.body.status == status
      && |out.1| == |ps| + 1 && out.1[..|ps|] == ps && out.1[|ps|].id == Temporary(stamp)
      && out.1[|ps|].studentRef == out.0.body.studentRef && out.1[|ps|].month == out.0.body.month
      && out.1[|ps|].status == status && out.1[|ps|].amountPaid == out.0.body.amountPaid
    ensures StudentByNumber(ss, studentId).Some? && paymentId.None? && isInstallment && installment.Some? ==>
      var st := StudentByNumber(ss, studentId).value;
      && out.0.body.month == InstallmentMonth(installment.value, selectedMonth)
      && out.0.body.amountPaid == AmountFor(st, status, true, selectedMonth)
      && out.0.body.installment == Some(InstallmentInfo(installment.value, InstallmentCount(st)))
      && out.1[|ps|].isInstallment && out.1[|ps|].installmentNumber == installment
    ensures StudentByNumber(ss, studentId).Some? && paymentId.None? && !(isInstallment && installment.Some?) ==>
      var st := StudentByNumber(ss, studentId).value;
      && out.0.body.month == selectedMonth
      && out.0.body.amountPaid == AmountFor(st, status, false, selectedMonth)
      && out.0.body.installment.None?
      && !out.1[|ps|].isInstallment && out.1[|ps|].installmentNumber.None?
  {
    var student := StudentByNumber(ss, studentId);
    if student.None? then (NoRequest, ps, NotFoundMessage)
    else
      var st := student.value;
      if paymentId.Some? then
        var amount := AmountFor(st, status, isInstallment, selectedMonth);
        (PutPayment(paymentId.value, status, amount), MarkLocally(ps, paymentId.value, status, amount),
         "Payment marked as " + StatusName(status) + "!")
      else if isInstallment && installment.Some? then
        var n := installment.value;
        var amount := AmountFor(st, status, true, selectedMonth);
        var month := InstallmentMonth(n, selectedMonth);
        var total := InstallmentCount(st);
        var temp := ClientPayment(Temporary(stamp), st.id, month, status, amount, true, Some(n));
        (PostPayment(PostBody(st.id, month, status, amount, Some(InstallmentInfo(n, total)))), ps + [temp],
         "Installment " + IntToString(n) + " marked as " + StatusName(status) + "!")
      else
        var amount := AmountFor(st, status, false, selectedMonth);
        var temp := ClientPayment(Temporary(stamp), st.id, selectedMonth, status, amount, false, None);
        (PostPayment(PostBody(st.id, selectedMonth, status, amount, None)), ps + [temp],
         "Payment for " + selectedMonth + " marked as " + StatusName(status) + "!")
  }

  /** Marking a row Paid records exactly the balance the row showed as
      due: the month's fee on a monthly row, one installment on an
      installment row. */
  lemma PaidAmountIsBalanceDue(ss: seq<StudentView>, ps: seq<ClientPayment>, selectedMonth: string,
                               studentId: int, number: int)
    requires studentId != 0 && selectedMonth != "" && StudentByNumber(ss, studentId).Some?
    ensures var st := StudentByNumber(ss, studentId).value;
      GetStatus(ss, ps, studentId, selectedMonth, None) != Paid ==>
        GetBalance(ss, ps, selectedMonth, studentId, MonthlyBalance) == AmountFor(st, Paid, false, selectedMonth)
    ensures var st := StudentByNumber(ss, studentId).value;
      GetStatus(ss, ps, studentId, "", Some(number)) != Paid ==>
        GetBalance(ss, ps, selectedMonth, studentId, InstallmentBalance(number)) == AmountFor(st, Paid, true, selectedMonth)
  {
    MonthlyBalanceFollowsStatus(ss, ps, selectedMonth, studentId);
    InstallmentBalanceFollowsStatus(ss, ps, selectedMonth, studentId, number);
  }

  /** Clicking a monthly row's button updates the page at once: the row then
      reads the status that was chosen, whether the click updated the
      existing record or pushed a temporary one. */
  lemma MonthlyClickShowsNewStatus(ss: seq<StudentView>, ps: seq<ClientPayment>, selectedMonth: string,
                                   studentId: int, status: PayStatus, stamp: int)
    requires selectedMonth != ""
    requires StudentByNumber(ss, studentId).Some?
    ensures var id := GetPaymentId(ss, ps, studentId, selectedMonth, None);
      var after := StatusChange(ss, ps, selectedMonth, studentId, status, id, false, None, stamp).1;
      GetStatus(ss, after, studentId, selectedMonth, None) == status
  {
    var st := StudentByNumber(ss, studentId).value;
    var m := MonthlyMatch(st.id, selectedMonth);
    var id := GetPaymentId(ss, ps, studentId, selectedMonth, None);
    var out := StatusChange(ss, ps, selectedMonth, studentId, status, id, false, None, stamp);
    if id.Some? {
      MarkedRecordIsFound(ps, m, id.value, status, out.0.amountPaid);
    } else {
      FindAppend(ps, out.1[|ps|], m);
      assert out.1 == ps + [out.1[|ps|]];
    }
  }

  /** The same for an installment row: after the click it reads the chosen
      status. */
  lemma InstallmentClickShowsNewStatus(ss: seq<StudentView>, ps: seq<ClientPayment>, selectedMonth: string,
                                       studentId: int, number: int, status: PayStatus, stamp: int)
    requires StudentByNumber(ss, studentId).Some?
    ensures var id := GetPaymentId(ss, ps, studentId, "", Some(number));
      var after := StatusChange(ss, ps, selectedMonth, studentId, status, id, true, Some(number), stamp).1;
      GetStatus(ss, after, studentId, "", Some(number)) == status
  {
    var st := StudentByNumber(ss, studentId).value;
    var m := InstallmentMatch(st.id, number);
    var id := GetPaymentId(ss, ps, studentId, "", Some(number));
    var out := StatusChange(ss, ps, selectedMonth, studentId, status, id, true, Some(number), stamp);
    if id.Some? {
      MarkedRecordIsFound(ps, m, id.value, status, out.0.amountPaid);
    } else {
      FindAppend(ps, out.1[|ps|], m);
      assert out.1 == ps + [out.1[|ps|]];
    }
  }

  /** When the first record a lookup finds has `_id` `id`, marking `id`
      locally leaves the lookup on the same record, now with the new status. */
  lemma MarkedRecordIsFound(ps: seq<ClientPayment>, m: ClientPayment -> bool, id: ClientId,
                            status: PayStatus, amountPaid: int)
    requires Find(ps, m).Some? && Find(ps, m).value.id == id
    requires forall i :: 0 <= i < |ps| ==> m(MarkLocally(ps, id, status, amountPaid)[i]) == m(ps[i])
    ensures var f := Find(MarkLocally(ps, id, status, amountPaid), m); f.Some? && f.value.status == status
  {
    var t := MarkLocally(ps, id, status, amountPaid);
    FindIndexAgree(ps, t, m, m);
  }

  /** Every POST the page sends passes the server's checks, as long as the
      selected month is a label of the window. */
  lemma PostsAreAccepted(ss: seq<StudentView>, ps: seq<ClientPayment>, selectedMonth: string,
                         studentId: int, status: PayStatus, isInstallment: bool,
                         installment: Option<int>, stamp: int)
    requires selectedMonth in Months()
    ensures var req := StatusChange(ss, ps, selectedMonth, studentId, status, None, isInstallment, installment, stamp).0;
      req.PostPayment? ==> PaymentBodyValid(ToServerBody(req.body))
  {
    var req := StatusChange(ss, ps, selectedMonth, studentId, status, None, isInstallment, installment, stamp).0;
    if req.PostPayment? {
      assert selectedMonth != "" by {
        var i :| 0 <= i < |Months()| && Months()[i] == selectedMonth;
        assert |MonthLabel(i)| > 0;
      }
      StatusRoundTrip(status);
    }
  }

  /** The banner set when the student is not on the page. */
  const NotFoundMessage := "Error" + ": Student not found!"

  /** The banner set when the request fails. */
  const UpdateFailedMessage := "Error" + " updating payment status. Please try again."

  /** Both failure banners are styled as errors. */
  lemma FailureBannersStyled()
    ensures ErrorStyled(NotFoundMessage) && ErrorStyled(UpdateFailedMessage)
  {
    ErrorPrefixStyled(": Student not found!");
    ErrorPrefixStyled(" updating payment status. Please try again.");
  }

  /** The page's state. */
  class FeeStatusPage {
    var students: seq<StudentView>
    var payments: seq<ClientPayment>
    var selectedMonth: string
    var viewMode: string
    var message: string

    /** The page opens on the first month of the window in monthly mode. */
    constructor ()
      ensures students == [] && payments == [] && message == ""
      ensures selectedMonth == Months()[0] && viewMode == "monthly"
    {
      students := [];
      payments := [];
      selectedMonth := MonthLabel(0);
      viewMode := "monthly";
      message := "";
    }

    /** `fetchData` with the server's answers: the active students, and the
        payments of the selected month (monthly mode) or all of them. */
    method Load(ss: seq<Student>, ps: seq<FeePayment>)
      modifies this
      ensures students == FromServerStudents(ss)
      ensures viewMode == "monthly" ==> payments == FromServerPayments(Query(ps, None, selectedMonth))
      ensures viewMode != "monthly" ==> payments == FromServerPayments(ps)
      ensures selectedMonth == old(selectedMonth) && viewMode == old(viewMode) && message == old(message)
    {
      students := FromServerStudents(ss);
      if viewMode == "monthly" {
        payments := FromServerPayments(Query(ps, None, selectedMonth));
      } else {
        payments := FromServerPayments(ps);
      }
    }

    /** `handleStatusChange`: the local update happens before the request
        is sent and stays when the server refuses it (`accepted` false), in
        which case the banner reports the failure instead. */
    method ChangeStatus(studentId: int, status: PayStatus, paymentId: Option<ClientId>,
                        isInstallment: bool, installment: Option<int>, stamp: int, accepted: bool)
      returns (req: FeeRequest)
      modifies this
      ensures var out := StatusChange(old(students), old(payments), old(selectedMonth), studentId, status,
                                      paymentId, isInstallment, installment, stamp);
        && req == out.0 && payments == out.1
        && message == if req.NoRequest? || accepted then out.2 else UpdateFailedMessage
      ensures req.NoRequest? || !accepted ==> ErrorStyled(message)
      ensures students == old(students) && selectedMonth == old(selectedMonth) && viewMode == old(viewMode)
    {
      var out := StatusChange(students, payments, selectedMonth, studentId, status, paymentId,
                              isInstallment, installment, stamp);
      req, payments := out.0, out.1;
      message := if req.NoRequest? || accepted then out.2 else UpdateFailedMessage;
      FailureBannersStyled();
    }
  }
}

=== FILE: fees_route.dfy ===
/** backend/routes/fees.js: the payment upsert keyed by (student, month)
    and the filtered listing. The store is the FeePayment collection in
    insertion order, together with the source of fresh `_id`s. */
module FeesRoute {
  import opened Wrappers
  import opened Seqs
  import opened Models

  /** A payment belongs to the key (ref, month). */
  function HasKey(ref: ObjectId, month: string): FeePayment -> bool
  {
    (p: FeePayment) => p.studentRef == ref && p.month == month
  }

  /** At most one record per (student, month) key. */
  predicate KeysUnique(ps: seq<FeePayment>)
  {
    forall i, j :: 0 <= i < j < |ps| ==>
      !(ps[i].studentRef == ps[j].studentRef && ps[i].month == ps[j].month)
  }

  /** What the payment store keeps true: unique keys, unique `_id`s, and
      every `_id` below the next fresh one. */
  predicate FeeStoreInvariant(ps: seq<FeePayment>, nextId: ObjectId)
  {
    KeysUnique(ps)
    && (forall i, j :: 0 <= i < j < |ps| ==> ps[i].id != ps[j].id)
    && (forall i :: 0 <= i < |ps| ==> ps[i].id < nextId)
  }

  /** POST `/`: a body missing a required field or carrying an unknown
      status is rejected with 400. Otherwise the first record with the same
      key gets the body's `status` and `amountPaid`, or a new record is
      appended. Results: the reply, the payments, the next `_id`. */
  function Upsert(ps: seq<FeePayment>, nextId: ObjectId, b: PaymentBody)
    : (out: (Reply<FeePayment>, seq<FeePayment>, ObjectId))
    ensures !PaymentBodyValid(b) ==> out == (Failed(400), ps, nextId)
    ensures PaymentBodyValid(b) ==>
      && out.0.Done?
      && out.0.value.studentRef == b.studentRef.value && out.0.value.month == b.month.value
      && StatusName(out.0.value.status) == b.status.value && out.0.value.amountPaid == b.amountPaid.value
      && out.0.value in out.1
    ensures |ps| <= |out.1| <= |ps| + 1
    ensures forall j :: 0 <= j < |ps| && (out.0.Failed? || ps[j].id != out.0.value.id) ==> out.1[j] == ps[j]
    ensures PaymentBodyValid(b) && (exists p :: p in ps && HasKey(b.studentRef.value, b.month.value)(p)) ==>
      && |out.1| == |ps| && out.2 == nextId
      && exists j :: 0 <= j < |ps| && ps[j].id == out.0.value.id
    ensures PaymentBodyValid(b) && (forall p :: p in ps ==> !HasKey(b.studentRef.value, b.month.value)(p)) ==>
      out.1 == ps + [out.0.value] && out.0.value.id == nextId && out.2 == nextId + 1
  {
    if !PaymentBodyValid(b) then (Failed(400), ps, nextId)
    else
      var ref, month := b.studentRef.value, b.month.value;
      var status := ParseStatus(b.status.value).value;
      var i := FindIndex(ps, HasKey(ref, month));
      if i >= 0 then
        var p := ps[i].(status := status, amountPaid := b.amountPaid.value);
        assert ps[i := p][i] == p;
        (Done(p), ps[i := p], nextId)
      else
        var p := FeePayment(nextId, ref, month, status, b.amountPaid.value);
        assert (ps + [p])[|ps|] == p;
        (Done(p), ps + [p], nextId + 1)
  }

  /** An accepted POST changes no record with a different key. */
  lemma UpsertKeepsOtherKeys(ps: seq<FeePayment>, nextId: ObjectId, b: PaymentBody)
    requires PaymentBodyValid(b)
    ensures var out := Upsert(ps, nextId, b);
      forall j :: 0 <= j < |ps| && !HasKey(b.studentRef.value, b.month.value)(ps[j]) ==>
        out.1[j] == ps[j]
  {
  }

  /** An accepted POST overwrites only `status` and `amountPaid`: the
      record's `_id`, student and month stay. */
  lemma UpsertOverwritesTwoFields(ps: seq<FeePayment>, nextId: ObjectId, b: PaymentBody)
    requires PaymentBodyValid(b)
    ensures var out := Upsert(ps, nextId, b);
      forall j :: 0 <= j < |ps| ==>
        out.1[j].id == ps[j].id && out.1[j].studentRef == ps[j].studentRef && out.1[j].month == ps[j].month
  {
  }

  /** Unique keys, unique `_id`s and fresh `_id`s survive every POST. */
  lemma UpsertPreservesInvariant(ps: seq<FeePayment>, nextId: ObjectId, b: PaymentBody)
    requires FeeStoreInvariant(ps, nextId)
    ensures var out := Upsert(ps, nextId, b); FeeStoreInvariant(out.1, out.2)
  {
    var out := Upsert(ps, nextId, b);
    if PaymentBodyValid(b) {
      var i := FindIndex(ps, HasKey(b.studentRef.value, b.month.value));
      if i >= 0 {
        assert forall j :: 0 <= j < |ps| ==>
          out.1[j].id == ps[j].id && out.1[j].studentRef == ps[j].studentRef && out.1[j].month == ps[j].month;
      } else {
        assert forall j :: 0 <= j < |ps| ==> out.1[j] == ps[j];
      }
    }
  }

  /** Right after a POST, the record `find` returns for the posted key is the
      one the POST answered with: the latest write for a key wins. */
  lemma UpsertThenFind(ps: seq<FeePayment>, nextId: ObjectId, b: PaymentBody)
    requires PaymentBodyValid(b)
    ensures var out := Upsert(ps, nextId, b);
      Find(out.1, HasKey(b.studentRef.value, b.month.value)) == Some(out.0.value)
  {
    var key := HasKey(b.studentRef.value, b.month.value);
    var out := Upsert(ps, nextId, b);
    var i := FindIndex(ps, key);
    if i >= 0 {
      assert FindIndex(out.1, key) == i by {
        FindIndexReplace(ps, i, out.0.value, key);
      }
    } else {
      assert FindIndex(out.1, key) == |ps| by {
        FindIndexAppend(ps, out.0.value, key);
      }
    }
  }

  /** Replacing the first match of `p` by another element satisfying `p`
      keeps the first match where it was. */
  lemma FindIndexReplace(ps: seq<FeePayment>, i: int, x: FeePayment, p: FeePayment -> bool)
    requires FindIndex(ps, p) == i && 0 <= i && p(x)
    ensures FindIndex(ps[i := x], p) == i
  {
    var t := ps[i := x];
    var k := FindIndex(t, p);
    assert forall j :: 0 <= j < i ==> t[j] == ps[j];
    assert t[i] == x && p(t[i]);
  }

  /** Appending a match to a list without one makes the new element the
      first match. */
  lemma FindIndexAppend(ps: seq<FeePayment>, x: FeePayment, p: FeePayment -> bool)
    requires FindIndex(ps, p) == -1 && p(x)
    ensures FindIndex(ps + [x], p) == |ps|
  {
    var t := ps + [x];
    var k := FindIndex(t, p);
    assert forall j :: 0 <= j < |ps| ==> t[j] == ps[j];
    assert t[|ps|] == x;
  }

  /** POSTing the same body twice leaves the payments as one POST does. */
  lemma UpsertIdempotent(ps: seq<FeePayment>, nextId: ObjectId, b: PaymentBody)
    ensures var once := Upsert(ps, nextId, b);
      var twice := Upsert(once.1, once.2, b);
      twice.1 == once.1 && twice.2 == once.2 && twice.0 == once.0
  {
    var once := Upsert(ps, nextId, b);
    if PaymentBodyValid(b) {
      var key := HasKey(b.studentRef.value, b.month.value);
      UpsertThenFind(ps, nextId, b);
      var i := FindIndex(once.1, key);
      assert i >= 0 && once.1[i] == once.0.value;
      assert once.1[i := once.1[i]] == once.1;
    }
  }

  /** The GET filter: a payment matches when it agrees with every filter
      that was supplied. An absent `studentId` is `None`, an absent `month`
      is "". */
  function MatchesQuery(ref: Option<ObjectId>, month: string): FeePayment -> bool
  {
    (p: FeePayment) => (ref.None? || p.studentRef == ref.value) && (month == "" || p.month == month)
  }

  /** GET `/`: the matching payments, in store order. */
  function Query(ps: seq<FeePayment>, ref: Option<ObjectId>, month: string): (r: seq<FeePayment>)
    ensures forall p :: p in r <==>
      p in ps && (ref.None? || p.studentRef == ref.value) && (month == "" || p.month == month)
  {
    FilterMembershipAll(ps, MatchesQuery(ref, month));
    Filter(ps, MatchesQuery(ref, month))
  }

  /** GET keeps collection order: the matches of a collection split in two
      are the first part's matches followed by the second part's, and one
      record is returned exactly when it matches. */
  lemma QueryKeepsOrder(a: seq<FeePayment>, b: seq<FeePayment>, x: FeePayment, ref: Option<ObjectId>, month: string)
    ensures Query(a + b, ref, month) == Query(a, ref, month) + Query(b, ref, month)
    ensures Query([x], ref, month) ==
      if (ref.None? || x.studentRef == ref.value) && (month == "" || x.month == month) then [x] else []
  {
    FilterAppend(a, b, MatchesQuery(ref, month));
    FilterSingle(x, MatchesQuery(ref, month));
  }

  /** With no filter at all, GET returns the whole collection. */
  lemma QueryUnfiltered(ps: seq<FeePayment>)
    ensures Query(ps, None, "") == ps
  {
    FilterKeepsAll(ps, MatchesQuery(None, ""));
  }

  /** The fee payment collection as a mutable store. */
  class FeeStore {
    var payments: seq<FeePayment>
    var nextId: ObjectId

    ghost predicate Valid()
      reads this
    {
      FeeStoreInvariant(payments, nextId)
    }

    constructor ()
      ensures Valid() && payments == [] && nextId == 0
    {
      payments := [];
      nextId := 0;
    }

    /** POST `/`. */
    method Post(b: PaymentBody) returns (r: Reply<FeePayment>)
      requires Valid()
      modifies this
      ensures Valid()
      ensures (r, payments, nextId) == Upsert(old(payments), old(nextId), b)
    {
      UpsertPreservesInvariant(payments, nextId, b);
      if !PaymentBodyValid(b) {
        return Failed(400);
      }
      var ref, month := b.studentRef.value, b.month.value;
      var status := ParseStatus(b.status.value).value;
      var i := FindIndex(payments, HasKey(ref, month));
      if i >= 0 {
        var p := payments[i].(status := status, amountPaid := b.amountPaid.value);
        payments := payments[i := p];
        r := Done(p);
      } else {
        var p := FeePayment(nextId, ref, month, status, b.amountPaid.value);
        payments := payments + [p];
        nextId := nextId + 1;
        r := Done(p);
      }
    }

    /** GET `/`. */
    function List(ref: Option<ObjectId>, month: string): (r: seq<FeePayment>)
      reads this
      ensures r == Query(payments, ref, month)
      ensures forall p :: p in r <==>
        p in payments && (ref.None? || p.studentRef == ref.value) && (month == "" || p.month == month)
    {
      Query(payments, ref, month)
    }
  }
}

=== FILE: jsmath.dfy ===
/** Integer versions of the two `Math` roundings the application applies to
    quotients: `Math.ceil(a / b)` for page counts and `Math.round(a / b)`
    for installment amounts and percentages. */
module JsMath {

  /** `Math.ceil(a / b)` for a positive divisor. */
  function CeilDiv(a: int, b: int): (r: int)
    requires b > 0
    ensures (r - 1) * b < a <= r * b
  {
    var q := (-a) / b;
    assert -a == q * b + (-a) % b;
    -q
  }

  /** `Math.round(a / b)`: the integer nearest to a / b, halves rounded
      towards +infinity. */
  function RoundDiv(a: int, b: int): (r: int)
    requires b != 0
    ensures b > 0 ==> 2 * b * r - b <= 2 * a < 2 * b * r + b
    ensures b < 0 ==> 2 * (-b) * r - (-b) <= 2 * (-a) < 2 * (-b) * r + (-b)
  {
    var n, d := if b > 0 then a else -a, if b > 0 then b else -b;
    var q := (2 * n + d) / (2 * d);
    assert 2 * n + d == q * (2 * d) + (2 * n + d) % (2 * d);
    q
  }

  /** Rounding a quotient that lies between 0 and m gives a result in
      [0, m]. */
  lemma RoundDivBetween(a: int, b: int, m: int)
    requires b > 0 && 0 <= a <= m * b
    ensures 0 <= RoundDiv(a, b) <= m
  {
    var r := RoundDiv(a, b);
    if r < 0 {
      MulMonotone(b, r, -1);
      assert false;
    }
    if r > m {
      MulMonotone(b, m + 1, r);
      assert false;
    }
  }

  lemma MulMonotone(x: int, y: int, z: int)
    requires x > 0 && y <= z
    ensures x * y <= x * z
  {
    assert x * z - x * y == x * (z - y);
  }
}

=== FILE: models.dfy ===
/** The two stored record shapes, backend/models/Student.js and
    backend/models/FeePayment.js, with the checks their schemas perform when
    a record is saved. */
module Models {
  import opened Wrappers

  /** A route's reply: the record it returns, or an HTTP error status. */
  datatype Reply<+T> = Done(value: T) | Failed(code: int)

  /** A document's `_id`. Its generation is abstracted as a counter. */
  type ObjectId = nat

  /** The `status` enum of a fee payment. */
  datatype PayStatus = Paid | Unpaid

  function StatusName(s: PayStatus): string
  {
    match s
    case Paid => "Paid"
    case Unpaid => "Unpaid"
  }

  /** The schema's enum check: only the two names are accepted. */
  function ParseStatus(s: string): (r: Option<PayStatus>)
    ensures r.Some? <==> s == "Paid" || s == "Unpaid"
    ensures r.Some? ==> StatusName(r.value) == s
  {
    if s == "Paid" then Some(Paid) else if s == "Unpaid" then Some(Unpaid) else None
  }

  /** Every status survives being written out and read back. */
  lemma StatusRoundTrip(st: PayStatus)
    ensures ParseStatus(StatusName(st)) == Some(st)
  {
  }

  /** A stored student. `className` is the schema's `class` field. */
  datatype Student = Student(
    id: ObjectId,
    studentId: int,
    name: string,
    parentNumber: string,
    className: string,
    monthlyFee: int,
    enrolledAt: int,
    active: bool)

  /** A stored fee payment. `studentRef` is the owning student's `_id`. */
  datatype FeePayment = FeePayment(
    id: ObjectId,
    studentRef: ObjectId,
    month: string,
    status: PayStatus,
    amountPaid: int)

  /** The object literal handed to `new Student(...)`. It carries
      `enrollmentMonth` and `status`, which the schema does not declare.
      A field the request left out is `None`. */
  datatype StudentDraft = StudentDraft(
    studentId: int,
    name: Option<string>,
    parentNumber: Option<string>,
    className: Option<string>,
    monthlyFee: Option<int>,
    enrollmentMonth: string,
    status: string,
    active: Option<bool>)

  /** Mongoose's `required` on a String path rejects a missing value and the
      empty string. */
  predicate RequiredString(v: Option<string>)
  {
    v.Some? && v.value != ""
  }

  /** The four paths the Student schema marks required are all present. */
  predicate DraftComplete(d: StudentDraft)
  {
    RequiredString(d.name) && RequiredString(d.parentNumber)
    && RequiredString(d.className) && d.monthlyFee.Some?
  }

  /** Casting a draft to the Student schema and validating it: undeclared
      fields are dropped, `enrolledAt` and `active` receive their defaults,
      and a draft missing a required path is rejected. */
  function ApplyStudentSchema(d: StudentDraft, id: ObjectId, now: int): (r: Result<Student, string>)
    ensures r.Ok? <==> DraftComplete(d)
    ensures r.Ok? ==>
      && r.value.id == id && r.value.studentId == d.studentId
      && r.value.name == d.name.value && r.value.parentNumber == d.parentNumber.value
      && r.value.className == d.className.value && r.value.monthlyFee == d.monthlyFee.value
    ensures r.Ok? ==> r.value.enrolledAt == now
    ensures r.Ok? ==> r.value.active == (d.active.None? || d.active.value)
  {
    if !DraftComplete(d) then Err("Student validation failed")
    else
      Ok(Student(id, d.studentId, d.name.value, d.parentNumber.value, d.className.value,
                 d.monthlyFee.value, now, if d.active.Some? then d.active.value else true))
  }

  /** The stored record does not depend on the undeclared fields: two drafts
      that differ only in `enrollmentMonth` and `status` store the same
      student. */
  lemma UndeclaredFieldsDropped(d: StudentDraft, month: string, status: string, id: ObjectId, now: int)
    ensures ApplyStudentSchema(d.(enrollmentMonth := month, status := status), id, now)
         == ApplyStudentSchema(d, id, now)
  {
  }

  /** The body of a payment write as the route receives it. */
  datatype PaymentBody = PaymentBody(
    studentRef: Option<ObjectId>,
    month: Option<string>,
    status: Option<string>,
    amountPaid: Option<int>)

  /** The four required paths of the FeePayment schema are present and the
      status is one of the enum's names. `month` is any non-empty string. */
  predicate PaymentBodyValid(b: PaymentBody)
  {
    b.studentRef.Some? && RequiredString(b.month) && b.status.Some?
    && ParseStatus(b.status.value).Some? && b.amountPaid.Some?
  }
}

=== FILE: pagination.dfy ===
/** The page arithmetic shared by frontend/_old/Summary.js and
    frontend/_old/StudentList.js: ten rows per page, pages numbered from 1,
    the rows of a page cut out with `slice`, and the Previous/Next buttons. */
module Pagination {
  import opened JsMath

  const RowsPerPage: int := 10

  /** `Math.ceil(n / rowsPerPage)`. */
  function TotalPages(n: nat): (r: nat)
    ensures (r - 1) * RowsPerPage < n <= r * RowsPerPage
    ensures r == 0 <==> n == 0
  {
    CeilDiv(n, RowsPerPage)
  }

  /** `(currentPage - 1) * rowsPerPage`. */
  function StartIndex(page: int): int
  {
    (page - 1) * RowsPerPage
  }

  /** `startIndex + rowsPerPage`. */
  function EndIndex(page: int): int
  {
    StartIndex(page) + RowsPerPage
  }

  /** How `slice` reads a position: a negative one counts back from the end,
      and the result is clipped to [0, len]. */
  function SlicePosition(k: int, len: nat): (r: nat)
    ensures r <= len
    ensures 0 <= k <= len ==> r == k
    ensures k > len ==> r == len
    ensures k < 0 ==> r == if len + k < 0 then 0 else len + k
  {
    if k < 0 then (if len + k < 0 then 0 else len + k)
    else if k > len then len
    else k
  }

  /** `Array.prototype.slice(start, end)`. */
  function Slice<T>(s: seq<T>, start: int, end: int): (r: seq<T>)
    ensures var a, b := SlicePosition(start, |s|), SlicePosition(end, |s|);
      |r| == (if a < b then b - a else 0) && forall k :: 0 <= k < |r| ==> r[k] == s[a + k]
  {
    var a, b := SlicePosition(start, |s|), SlicePosition(end, |s|);
    if a < b then s[a..b] else []
  }

  /** The rows shown on a page. */
  function PageRows<T>(s: seq<T>, page: int): (r: seq<T>)
    ensures |r| <= RowsPerPage
    ensures page >= 1 ==> forall k :: 0 <= k < |r| ==> StartIndex(page) + k < |s| && r[k] == s[StartIndex(page) + k]
    ensures page >= 1 ==> |r| == if |s| <= StartIndex(page) then 0
                                 else if |s| < EndIndex(page) then |s| - StartIndex(page)
                                 else RowsPerPage
  {
    Slice(s, StartIndex(page), EndIndex(page))
  }

  /** Every row is on exactly one page within range: row i is row i % 10 of
      page i / 10 + 1. */
  lemma PagesCoverRows<T>(s: seq<T>, i: int)
    requires 0 <= i < |s|
    ensures 1 <= i / RowsPerPage + 1 <= TotalPages(|s|)
    ensures PageRows(s, i / RowsPerPage + 1)[i % RowsPerPage] == s[i]
  {
    var page := i / RowsPerPage + 1;
    assert StartIndex(page) == i - i % RowsPerPage;
    var tp := TotalPages(|s|);
    if page > tp {
      MulMonotone(RowsPerPage, tp, page - 1);
      assert false;
    }
  }

  /** A page within range shows at least one row; a page past the last shows
      none. */
  lemma PagesInRangeAreNonEmpty<T>(s: seq<T>, page: int)
    requires page >= 1
    ensures page <= TotalPages(|s|) ==> PageRows(s, page) != []
    ensures page > TotalPages(|s|) ==> PageRows(s, page) == []
  {
    var tp := TotalPages(|s|);
    if page <= tp {
      MulMonotone(RowsPerPage, page - 1, tp - 1);
    } else {
      MulMonotone(RowsPerPage, tp, page - 1);
    }
  }

  /** `handlePreviousPage`: `Math.max(prev - 1, 1)`. */
  function Previous(page: int): (r: int)
    ensures r >= 1
    ensures page > 1 ==> r == page - 1
  {
    if page - 1 > 1 then page - 1 else 1
  }

  /** `handleNextPage`: `Math.min(prev + 1, totalPages)`. */
  function Next(page: int, totalPages: int): (r: int)
    ensures r <= totalPages
    ensures page < totalPages ==> r == page + 1
  {
    if page + 1 < totalPages then page + 1 else totalPages
  }

  /** From a page within range, Previous and Next stay within range, and
      each moves by one page unless it is already at the end. */
  lemma NavigationStaysInRange(page: int, totalPages: int)
    requires 1 <= page <= totalPages
    ensures 1 <= Previous(page) <= totalPages && 1 <= Next(page, totalPages) <= totalPages
    ensures Previous(page) == if page == 1 then 1 else page - 1
    ensures Next(page, totalPages) == if page == totalPages then totalPages else page + 1
  {
  }

  /** The controls are rendered when there are more rows than one page
      holds. */
  predicate ShowControls(n: nat)
  {
    n > RowsPerPage
  }

  /** The controls appear exactly when there is more than one page. */
  lemma ControlsIffSeveralPages(n: nat)
    ensures ShowControls(n) <==> TotalPages(n) > 1
  {
  }

  /** The footer's upper bound: `Math.min(endIndex, n)`. */
  function FooterUpper(page: int, n: nat): int
  {
    if EndIndex(page) < n then EndIndex(page) else n
  }

  /** On a page within range, the footer "Showing a-b of n" names exactly
      the rows displayed: a = start + 1, and b - start rows are shown. */
  lemma FooterMatchesRows<T>(s: seq<T>, page: int)
    requires 1 <= page <= TotalPages(|s|)
    ensures StartIndex(page) + 1 <= FooterUpper(page, |s|)
    ensures FooterUpper(page, |s|) - StartIndex(page) == |PageRows(s, page)|
  {
    PagesInRangeAreNonEmpty(s, page);
  }

  /** The post-delete correction: move to page `totalPages` when the current
      page is past it and there is at least one page. */
  function Clamp(page: int, totalPages: int): (r: int)
    ensures page >= 1 && totalPages > 0 ==> 1 <= r <= totalPages
    ensures page <= totalPages ==> r == page
  {
    if page > totalPages && totalPages > 0 then totalPages else page
  }
}

=== FILE: seqs.dfy ===
/** The JavaScript array operations the application relies on, `filter`,
    `findIndex`/`find`, and a `reduce` that sums, with their laws. */
module Seqs {
  import opened Wrappers

  /** `Array.prototype.filter`: the elements satisfying `p`, in order. */
  function Filter<T>(s: seq<T>, p: T -> bool): (r: seq<T>)
    ensures |r| <= |s|
    ensures forall x :: x in r ==> x in s && p(x)
  {
    if s == [] then [] else (if p(s[0]) then [s[0]] else []) + Filter(s[1..], p)
  }

  /** Filtering a one-element list. */
  lemma FilterSingle<T>(x: T, p: T -> bool)
    ensures Filter([x], p) == if p(x) then [x] else []
  {
    assert [x][1..] == [];
  }

  /** Filtering a list with a given head. */
  lemma FilterCons<T>(x: T, s: seq<T>, p: T -> bool)
    ensures Filter([x] + s, p) == (if p(x) then [x] else []) + Filter(s, p)
  {
    assert ([x] + s)[1..] == s;
  }

  /** Nothing that satisfies `p` is dropped. */
  lemma {:induction false} FilterComplete<T>(s: seq<T>, p: T -> bool, x: T)
    requires x in s && p(x)
    ensures x in Filter(s, p)
  {
    if s[0] != x {
      FilterComplete(s[1..], p, x);
    }
  }

  /** Membership in a filtered list, for every element at once. */
  lemma FilterMembershipAll<T>(s: seq<T>, p: T -> bool)
    ensures forall x :: x in Filter(s, p) <==> x in s && p(x)
  {
    forall x | x in s && p(x)
      ensures x in Filter(s, p)
    {
      FilterComplete(s, p, x);
    }
  }

  /** A filter keeps nothing exactly when no element passes. */
  lemma FilterEmptyIff<T>(s: seq<T>, p: T -> bool)
    ensures |Filter(s, p)| <= |s|
    ensures |Filter(s, p)| == 0 <==> forall x :: x in s ==> !p(x)
  {
    FilterMembershipAll(s, p);
    if |Filter(s, p)| > 0 {
      assert Filter(s, p)[0] in Filter(s, p);
    }
  }

  /** Filtering distributes over concatenation: the order of the kept
      elements is the order of the input. */
  lemma {:induction false} FilterAppend<T>(a: seq<T>, b: seq<T>, p: T -> bool)
    ensures Filter(a + b, p) == Filter(a, p) + Filter(b, p)
  {
    if a == [] {
      assert a + b == b;
    } else {
      assert (a + b)[1..] == a[1..] + b;
      FilterAppend(a[1..], b, p);
    }
  }

  /** A predicate that holds everywhere keeps the whole list. */
  lemma {:induction false} FilterKeepsAll<T>(s: seq<T>, p: T -> bool)
    requires forall i :: 0 <= i < |s| ==> p(s[i])
    ensures Filter(s, p) == s
  {
    if s != [] {
      FilterKeepsAll(s[1..], p);
    }
  }

  /** A predicate that holds nowhere keeps nothing. */
  lemma {:induction false} FilterKeepsNone<T>(s: seq<T>, p: T -> bool)
    requires forall i :: 0 <= i < |s| ==> !p(s[i])
    ensures Filter(s, p) == []
  {
    if s != [] {
      FilterKeepsNone(s[1..], p);
    }
  }

  /** Filtering by `p` and by its negation splits the list: together the two
      results hold every element exactly as often as the input. */
  lemma {:induction false} FilterPartition<T>(s: seq<T>, p: T -> bool, q: T -> bool)
    requires forall x :: q(x) == !p(x)
    ensures multiset(Filter(s, p)) + multiset(Filter(s, q)) == multiset(s)
    ensures |Filter(s, p)| + |Filter(s, q)| == |s|
  {
    if s != [] {
      FilterPartition(s[1..], p, q);
      assert s == [s[0]] + s[1..];
    }
  }

  /** Two predicates that never hold together select at most |s| elements
      between them. */
  lemma {:induction false} FilterDisjointCount<T>(s: seq<T>, p: T -> bool, q: T -> bool)
    requires forall x :: !(p(x) && q(x))
    ensures |Filter(s, p)| + |Filter(s, q)| <= |s|
  {
    if s != [] {
      FilterDisjointCount(s[1..], p, q);
    }
  }

  /** Two predicates that agree on every element of the list filter it
      alike. */
  lemma {:induction false} FilterAgree<T>(s: seq<T>, p: T -> bool, q: T -> bool)
    requires forall i :: 0 <= i < |s| ==> p(s[i]) == q(s[i])
    ensures Filter(s, p) == Filter(s, q)
  {
    if s != [] {
      FilterAgree(s[1..], p, q);
    }
  }

  /** A stronger filter keeps no more elements than a weaker one. */
  lemma {:induction false} FilterMonotone<T>(s: seq<T>, p: T -> bool, q: T -> bool)
    requires forall x :: p(x) ==> q(x)
    ensures |Filter(s, p)| <= |Filter(s, q)|
  {
    if s != [] {
      FilterMonotone(s[1..], p, q);
    }
  }

  /** `Array.prototype.findIndex`: the first index satisfying `p`, or -1. */
  function FindIndex<T>(s: seq<T>, p: T -> bool): (r: int)
    ensures -1 <= r < |s|
    ensures r >= 0 ==> p(s[r]) && forall j :: 0 <= j < r ==> !p(s[j])
    ensures r == -1 ==> forall j :: 0 <= j < |s| ==> !p(s[j])
  {
    if s == [] then -1
    else if p(s[0]) then 0
    else var k := FindIndex(s[1..], p); if k < 0 then -1 else k + 1
  }

  /** Position `k` holds the first element of `s` satisfying `p`. */
  predicate FirstMatch<T>(s: seq<T>, p: T -> bool, k: int)
  {
    0 <= k < |s| && p(s[k]) && forall j :: 0 <= j < k ==> !p(s[j])
  }

  /** There is at most one first match. */
  lemma FirstMatchUnique<T>(s: seq<T>, p: T -> bool, k: int, l: int)
    requires FirstMatch(s, p, k) && FirstMatch(s, p, l)
    ensures k == l
  {
  }

  /** `Array.prototype.find`: the first element satisfying `p`. */
  function Find<T>(s: seq<T>, p: T -> bool): (r: Option<T>)
    ensures r.Some? ==> r.value in s && p(r.value)
    ensures r.Some? ==> exists k :: FirstMatch(s, p, k) && s[k] == r.value
    ensures r.None? <==> forall x :: x in s ==> !p(x)
  {
    var k := FindIndex(s, p);
    if k < 0 then None else assert FirstMatch(s, p, k); Some(s[k])
  }

  /** Inserting an element that fails `p` anywhere does not change what
      `find` returns. */
  lemma {:induction false} FindSkipsInserted<T>(s: seq<T>, i: nat, x: T, p: T -> bool)
    requires i <= |s| && !p(x)
    ensures Find(s[..i] + [x] + s[i..], p) == Find(s, p)
  {
    var t := s[..i] + [x] + s[i..];
    if i == 0 {
      assert t[1..] == s;
    } else {
      assert t[0] == s[0];
      assert t[1..] == s[1..][..i - 1] + [x] + s[1..][i - 1..];
      FindSkipsInserted(s[1..], i - 1, x, p);
    }
  }

  /** `find` looks at the head first and otherwise at the tail. */
  lemma FindCons<T>(s: seq<T>, p: T -> bool)
    requires s != []
    ensures Find(s, p) == if p(s[0]) then Some(s[0]) else Find(s[1..], p)
  {
  }

  /** `find` on a filtered list: when whatever `p` accepts also passes the
      filter `q`, the first match is the same with or without the filter. */
  lemma {:induction false} FindThroughFilter<T>(s: seq<T>, q: T -> bool, p: T -> bool)
    requires forall x :: p(x) ==> q(x)
    ensures Find(Filter(s, q), p) == Find(s, p)
  {
    if s != [] {
      FindThroughFilter(s[1..], q, p);
      FindCons(s, p);
      if q(s[0]) {
        var f := Filter(s, q);
        assert f == [s[0]] + Filter(s[1..], q);
        assert f[1..] == Filter(s[1..], q);
        FindCons(f, p);
      } else {
        assert Filter(s, q) == Filter(s[1..], q);
      }
    }
  }

  /** Two lists whose elements pass two tests alike have their first match
      at the same index. */
  lemma {:induction false} FindIndexAgree<T>(s: seq<T>, t: seq<T>, p: T -> bool, q: T -> bool)
    requires |s| == |t| && forall i :: 0 <= i < |s| ==> p(s[i]) == q(t[i])
    ensures FindIndex(s, p) == FindIndex(t, q)
  {
    if s != [] {
      FindIndexAgree(s[1..], t[1..], p, q);
    }
  }

  /** `find` on a filtered list is `find` on the whole list with the filter
      folded into the test. */
  lemma {:induction false} FindInFilter<T>(s: seq<T>, q: T -> bool, p: T -> bool, r: T -> bool)
    requires forall x :: r(x) == (q(x) && p(x))
    ensures Find(Filter(s, q), p) == Find(s, r)
  {
    if s != [] {
      FindInFilter(s[1..], q, p, r);
      FindCons(s, r);
      var f := Filter(s, q);
      if q(s[0]) {
        assert f == [s[0]] + Filter(s[1..], q);
        assert f[1..] == Filter(s[1..], q);
        FindCons(f, p);
      } else {
        assert f == Filter(s[1..], q);
      }
    }
  }

  /** `find` after a push: an earlier match still wins; otherwise the pushed
      element is found when it matches. */
  lemma {:induction false} FindAppend<T>(s: seq<T>, x: T, p: T -> bool)
    ensures Find(s + [x], p) == if Find(s, p).Some? then Find(s, p) else if p(x) then Some(x) else None
  {
    if s == [] {
      assert s + [x] == [x];
    } else {
      assert (s + [x])[1..] == s[1..] + [x];
      FindAppend(s[1..], x, p);
      FindCons(s, p);
      FindCons(s + [x], p);
    }
  }

  /** `reduce((sum, x) => sum + f(x), 0)`. */
  function Sum<T>(s: seq<T>, f: T -> int): int
  {
    if s == [] then 0 else f(s[0]) + Sum(s[1..], f)
  }

  /** `s.map(f)`. */
  function Map<A, B>(s: seq<A>, f: A -> B): (r: seq<B>)
    ensures |r| == |s|
    ensures forall i :: 0 <= i < |s| ==> r[i] == f(s[i])
  {
    seq(|s|, i requires 0 <= i < |s| => f(s[i]))
  }

  /** The first i + 1 images are the first i followed by the i-th. */
  lemma MapSnoc<A, B>(s: seq<A>, i: int, f: A -> B)
    requires 0 <= i < |s|
    ensures Map(s, f)[..i + 1] == Map(s, f)[..i] + [f(s[i])]
  {
  }

  /** Lists whose elements have the same images map to the same list. */
  lemma MapPointwise<A, B>(s: seq<A>, t: seq<A>, f: A -> B)
    requires |s| == |t|
    requires forall i :: 0 <= i < |s| ==> f(s[i]) == f(t[i])
    ensures Map(s, f) == Map(t, f)
  {
  }

  lemma {:induction false} SumAppend<T>(a: seq<T>, b: seq<T>, f: T -> int)
    ensures Sum(a + b, f) == Sum(a, f) + Sum(b, f)
  {
    if a == [] {
      assert a + b == b;
    } else {
      assert (a + b)[1..] == a[1..] + b;
      SumAppend(a[1..], b, f);
    }
  }

  /** Summing a term that is `c` on the elements satisfying `q` and 0
      elsewhere counts those elements `c` times. */
  lemma {:induction false} SumCountsFilter<T>(s: seq<T>, f: T -> int, q: T -> bool, c: int)
    requires forall x :: f(x) == if q(x) then c else 0
    ensures Sum(s, f) == c * |Filter(s, q)|
  {
    if s != [] {
      SumCountsFilter(s[1..], f, q, c);
      var n := |Filter(s[1..], q)|;
      assert Sum(s, f) == f(s[0]) + c * n;
      if q(s[0]) {
        assert |Filter(s, q)| == n + 1;
        MulSucc(c, n);
      } else {
        assert |Filter(s, q)| == n;
      }
    }
  }

  lemma MulSucc(c: int, n: int)
    ensures c * (n + 1) == c * n + c
  {
  }

  /** Sums of two terms that agree on every element are equal. */
  lemma {:induction false} SumPointwise<T>(s: seq<T>, f: T -> int, g: T -> int)
    requires forall i :: 0 <= i < |s| ==> f(s[i]) == g(s[i])
    ensures Sum(s, f) == Sum(s, g)
  {
    if s != [] {
      SumPointwise(s[1..], f, g);
    }
  }

  /** Summing over the elements that pass `q` is summing over all elements
      a term that is 0 where `q` fails. */
  lemma {:induction false} SumOverFilter<T>(s: seq<T>, q: T -> bool, f: T -> int, g: T -> int)
    requires forall x :: g(x) == if q(x) then f(x) else 0
    ensures Sum(Filter(s, q), f) == Sum(s, g)
  {
    if s != [] {
      SumOverFilter(s[1..], q, f, g);
      if q(s[0]) {
        var t := Filter(s, q);
        assert t == [s[0]] + Filter(s[1..], q);
        assert t[1..] == Filter(s[1..], q);
      } else {
        assert Filter(s, q) == Filter(s[1..], q);
      }
    }
  }

  /** A sum of non-negative terms is non-negative. */
  lemma {:induction false} SumNonNegative<T>(s: seq<T>, f: T -> int)
    requires forall i :: 0 <= i < |s| ==> f(s[i]) >= 0
    ensures Sum(s, f) >= 0
  {
    if s != [] {
      SumNonNegative(s[1..], f);
    }
  }
}

=== FILE: student_list_edit.dfy ===
/** frontend/src/StudentList.js: the current student list. It shows the
    listed students that match the search box, lets one row at a time be
    edited in place and saved with a PUT, and removes a student with a
    DELETE; both requests name the student by `studentId`. */
module EditableStudents {
  import opened Wrappers
  import opened Seqs
  import opened Text
  import opened Models
  import opened StudentsRoute
  import opened ClientRecords
  import PagedStudentList

  /** The search test on a stored student. */
  function StudentMatches(search: string): Student -> bool
  {
    (s: Student) => SearchMatches(s.name, s.className, s.parentNumber, search)
  }

  /** `filtered`: the students the search matches, in list order. */
  function Filtered(ss: seq<Student>, search: string): (r: seq<Student>)
    ensures forall s :: s in r <==> s in ss && SearchMatches(s.name, s.className, s.parentNumber, search)
    ensures |r| <= |ss|
  {
    FilterMembershipAll(ss, StudentMatches(search));
    Filter(ss, StudentMatches(search))
  }

  /** This page and the paged list search alike: both show the same
      students of the same listing, in the same order. */
  lemma SameSearchAsPagedList(ss: seq<Student>, search: string)
    ensures FromServerStudents(Filtered(ss, search)) == PagedStudentList.Filtered(FromServerStudents(ss), search)
  {
    FromServerFilter(ss, StudentMatches(search), PagedStudentList.Matches(search));
  }

  /** A list with distinct `studentId`s keeps them distinct when filtered. */
  lemma {:induction false} FilterKeepsIdsUnique(ss: seq<Student>, p: Student -> bool)
    requires UniqueStudentIds(ss)
    ensures UniqueStudentIds(Filter(ss, p))
  {
    if ss != [] {
      var tail := ss[1..];
      assert UniqueStudentIds(tail) by {
        forall i, j | 0 <= i < j < |tail|
          ensures tail[i].studentId != tail[j].studentId
        {
          assert tail[i] == ss[i + 1] && tail[j] == ss[j + 1];
        }
      }
      FilterKeepsIdsUnique(tail, p);
      var rest := Filter(tail, p);
      forall t | t in rest
        ensures t.studentId != ss[0].studentId
      {
        var k :| 0 <= k < |tail| && tail[k] == t;
        assert ss[k + 1] == t;
      }
    }
  }

  /** Rows are keyed by `studentId` and a row is in edit mode when its
      `studentId` is `editId`; on a listing of a store whose `studentId`s
      are unique, at most one shown row is ever in edit mode. */
  lemma AtMostOneRowEdited(ss: seq<Student>, search: string, editId: int)
    requires UniqueStudentIds(ss)
    ensures var rows := Filtered(ActiveStudents(ss), search);
      forall i, j :: 0 <= i < |rows| && 0 <= j < |rows| && rows[i].studentId == editId && rows[j].studentId == editId
        ==> i == j
  {
    FilterKeepsIdsUnique(ss, IsListed);
    FilterKeepsIdsUnique(ActiveStudents(ss), StudentMatches(search));
  }

  /** The fee input: the number copied from the student, or the text typed
      since. */
  datatype FeeInput = FeeNumber(n: int) | FeeText(text: string)

  /** `Number(editForm.monthlyFee)`, with `None` for NaN. The empty text
      reads as 0. */
  function FeeValue(f: FeeInput): (r: Option<int>)
    ensures f.FeeNumber? ==> r == Some(f.n)
    ensures f.FeeText? && IsNumeric(f.text) ==> r == Some(DigitsValue(f.text))
    ensures f.FeeText? && f.text == "" ==> r == Some(0)
    ensures r.None? <==> f.FeeText? && f.text != "" && !IsNumeric(f.text)
  {
    match f
    case FeeNumber(n) => Some(n)
    case FeeText(t) => if t == "" then Some(0) else if IsNumeric(t) then Some(DigitsValue(t)) else None
  }

  /** Typing a number's own rendering back into the fee input keeps its
      value. */
  lemma RetypedFeeKeepsValue(n: nat)
    ensures FeeValue(FeeText(NatToString(n))) == FeeValue(FeeNumber(n))
  {
    NatToStringRoundTrip(n);
  }

  /** `editForm`. */
  datatype EditForm = EditForm(name: string, className: string, parentNumber: string, monthlyFee: FeeInput)

  /** The form `handleEdit` fills from a row. */
  function FormOf(s: Student): EditForm
  {
    EditForm(s.name, s.className, s.parentNumber, FeeNumber(s.monthlyFee))
  }

  /** The inputs, by their `name` attribute. */
  datatype FormField = NameField | ClassField | ParentNumberField | MonthlyFeeField

  /** `handleEditChange`: the named input takes the typed text, the others
      keep theirs. */
  function WithField(form: EditForm, field: FormField, value: string): (r: EditForm)
    ensures field == NameField ==> r == form.(name := value)
    ensures field == ClassField ==> r == form.(className := value)
    ensures field == ParentNumberField ==> r == form.(parentNumber := value)
    ensures field == MonthlyFeeField ==> r == form.(monthlyFee := FeeText(value))
  {
    match field
    case NameField => form.(name := value)
    case ClassField => form.(className := value)
    case ParentNumberField => form.(parentNumber := value)
    case MonthlyFeeField => form.(monthlyFee := FeeText(value))
  }

  /** The PUT body `handleEditSave` sends: all four fields, the fee as a
      number. `None` when the fee text is not a number. */
  function SaveBody(form: EditForm): (b: Option<UpdateBody>)
    ensures b.Some? <==> FeeValue(form.monthlyFee).Some?
    ensures b.Some? ==> b.value == UpdateBody(Some(form.name), Some(form.parentNumber), Some(form.className), FeeValue(form.monthlyFee))
  {
    var fee := FeeValue(form.monthlyFee);
    if fee.None? then None
    else Some(UpdateBody(Some(form.name), Some(form.parentNumber), Some(form.className), fee))
  }

  /** Saving a form for a stored student replaces exactly that student's
      four editable fields with the form's, and changes nothing else. */
  lemma {:induction false} SaveStoresForm(ss: seq<Student>, s: Student, form: EditForm)
    requires UniqueStudentIds(ss) && s in ss && s.studentId >= 0
    requires SaveBody(form).Some?
    ensures var t := s.(name := form.name, className := form.className,
                        parentNumber := form.parentNumber, monthlyFee := FeeValue(form.monthlyFee).value);
      var out := UpdateStore(ss, IntToString(s.studentId), SaveBody(form).value);
      && out.0 == Done(t)
      && forall j :: 0 <= j < |ss| ==> out.1[j] == if ss[j] == s then t else ss[j]
  {
    var param := IntToString(s.studentId);
    NatToStringRoundTrip(s.studentId);
    var i := Locate(ss, s.studentId);
    var j :| 0 <= j < |ss| && ss[j] == s;
    assert i == j;
    forall k | 0 <= k < |ss| && k != j
      ensures ss[k] != s
    {
      if k < j {
        assert ss[k].studentId != ss[j].studentId;
      } else {
        assert ss[j].studentId != ss[k].studentId;
      }
    }
  }

  /** Opening a row for editing and saving it untouched stores nothing new. */
  lemma UntouchedSaveChangesNothing(ss: seq<Student>, s: Student)
    requires UniqueStudentIds(ss) && s in ss && s.studentId >= 0
    ensures UpdateStore(ss, IntToString(s.studentId), SaveBody(FormOf(s)).value) == (Done(s), ss)
  {
    SaveStoresForm(ss, s, FormOf(s));
    var out := UpdateStore(ss, IntToString(s.studentId), SaveBody(FormOf(s)).value);
    assert out.1 == ss;
  }

  /** The page's state. */
  class EditableStudentList {
    var students: seq<Student>
    var filter: string
    var editId: Option<int>
    var editForm: EditForm

    constructor ()
      ensures students == [] && filter == "" && editId.None?
      ensures editForm == EditForm("", "", "", FeeText(""))
    {
      students := [];
      filter := "";
      editId := None;
      editForm := EditForm("", "", "", FeeText(""));
    }

    /** The rows the table shows. */
    function Shown(): (r: seq<Student>)
      reads this
      ensures forall s :: s in r <==> s in students && SearchMatches(s.name, s.className, s.parentNumber, filter)
    {
      Filtered(students, filter)
    }

    /** A row is shown as inputs when its `studentId` is being edited. */
    predicate Editing(s: Student)
      reads this
    {
      editId == Some(s.studentId)
    }

    /** `fetchStudents` with the server's answer. */
    method Load(listed: seq<Student>)
      modifies this
      ensures students == listed
      ensures filter == old(filter) && editId == old(editId) && editForm == old(editForm)
    {
      students := listed;
    }

    method SetFilter(text: string)
      modifies this
      ensures filter == text
      ensures students == old(students) && editId == old(editId) && editForm == old(editForm)
    {
      filter := text;
    }

    /** `handleEdit`: the row's student is edited, starting from its own
        values. */
    method Edit(s: Student)
      modifies this
      ensures editId == Some(s.studentId) && editForm == FormOf(s)
      ensures Editing(s)
      ensures students == old(students) && filter == old(filter)
    {
      editId := Some(s.studentId);
      editForm := FormOf(s);
    }

    /** `handleEditChange`. */
    method ChangeField(field: FormField, value: string)
      modifies this
      ensures editForm == WithField(old(editForm), field, value)
      ensures students == old(students) && filter == old(filter) && editId == old(editId)
    {
      editForm := WithField(editForm, field, value);
    }

    /** `handleEditSave(id)`: the PUT names `id` and carries the form. When
        the server accepts it (`accepted`) the row leaves edit mode and the
        list is reloaded; otherwise the handler stops at the failed request
        and the row stays in edit mode. */
    method Save(id: int, accepted: bool, reloaded: seq<Student>) returns (param: string, body: Option<UpdateBody>)
      modifies this
      ensures param == IntToString(id) && body == SaveBody(old(editForm))
      ensures accepted ==> editId.None? && students == reloaded
      ensures !accepted ==> editId == old(editId) && students == old(students)
      ensures editForm == old(editForm) && filter == old(filter)
    {
      param := IntToString(id);
      body := SaveBody(editForm);
      if accepted {
        editId := None;
        students := reloaded;
      }
    }

    /** "Cancel": the row leaves edit mode; the form keeps its text. */
    method Cancel()
      modifies this
      ensures editId.None?
      ensures students == old(students) && filter == old(filter) && editForm == old(editForm)
    {
      editId := None;
    }

    /** `handleDelete(id)` after the confirmation: the DELETE names `id`;
        an accepted delete reloads the list. */
    method Delete(id: int, deleted: bool, reloaded: seq<Student>) returns (param: string)
      modifies this
      ensures param == IntToString(id)
      ensures deleted ==> students == reloaded
      ensures !deleted ==> students == old(students)
      ensures filter == old(filter) && editId == old(editId) && editForm == old(editForm)
    {
      param := IntToString(id);
      if deleted {
        students := reloaded;
      }
    }
  }
}

=== FILE: student_list_paged.dfy ===
/** frontend/_old/StudentList.js: the paged student list with a search box.
    The search narrows the list, the list is cut into pages of ten, and
    removing a student reloads the list and corrects the page. */
module PagedStudentList {
  import opened Seqs
  import opened Text
  import opened Models
  import opened StudentsRoute
  import opened ClientRecords
  import opened Pagination

  /** The search test for one student. */
  function Matches(search: string): StudentView -> bool
  {
    (st: StudentView) => SearchMatches(st.name, st.className, st.parentNumber, search)
  }

  /** `filtered`: the students the search matches, in list order. */
  function Filtered(ss: seq<StudentView>, search: string): (r: seq<StudentView>)
    ensures forall st :: st in r <==> st in ss && SearchMatches(st.name, st.className, st.parentNumber, search)
    ensures |r| <= |ss|
  {
    FilterMembershipAll(ss, Matches(search));
    Filter(ss, Matches(search))
  }

  /** An empty search shows the whole list. */
  lemma EmptySearchShowsAll(ss: seq<StudentView>)
    ensures Filtered(ss, "") == ss
  {
    forall i | 0 <= i < |ss|
      ensures Matches("")(ss[i])
    {
      EmptySearchMatchesAll(ss[i].name, ss[i].className, ss[i].parentNumber);
    }
    FilterKeepsAll(ss, Matches(""));
  }

  /** The search keeps the list's order: searching a list made of two parts
      gives the matches of the first part, then those of the second. */
  lemma SearchKeepsOrder(a: seq<StudentView>, b: seq<StudentView>, search: string)
    ensures Filtered(a + b, search) == Filtered(a, search) + Filtered(b, search)
  {
    FilterAppend(a, b, Matches(search));
  }

  /** The students other than the one with `studentId` n. */
  function Others(n: int): StudentView -> bool
  {
    (st: StudentView) => st.studentId != n
  }

  /** `remainingStudents`: the list without the removed `studentId`. */
  function Remaining(ss: seq<StudentView>, n: int): (r: seq<StudentView>)
    ensures forall st :: st in r <==> st in ss && st.studentId != n
  {
    FilterMembershipAll(ss, Others(n));
    Filter(ss, Others(n))
  }

  /** After a delete the server lists exactly the remaining students: the
      reloaded list is the page's list without the removed `studentId`. */
  lemma ReloadIsRemaining(ss: seq<Student>, param: string)
    requires UniqueStudentIds(ss) && DeleteStore(ss, param).0.Done?
    ensures FromServerStudents(ActiveStudents(DeleteStore(ss, param).1))
         == Remaining(FromServerStudents(ActiveStudents(ss)), DigitsValue(param))
  {
    var n := DigitsValue(param);
    DeleteHidesFromListing(ss, param);
    FromServerFilter(ActiveStudents(ss), Without(n), Others(n));
  }

  /** The page after a delete, as written: the page count comes from the
      remaining students of the whole list, not from the searched list. */
  function ClampAfterDeleteAsWritten(ss: seq<StudentView>, n: int, page: int): (r: int)
    ensures page >= 1 && Remaining(ss, n) != [] ==> 1 <= r <= TotalPages(|Remaining(ss, n)|)
    ensures page <= TotalPages(|Remaining(ss, n)|) ==> r == page
  {
    Clamp(page, TotalPages(|Remaining(ss, n)|))
  }

  /** As written, the correction can leave the page past the end of the
      searched list: when the whole list still has more than ten students
      but the search matches only ten of them, page 2 stays and is empty. */
  lemma AsWrittenLeavesEmptyPage(ss: seq<StudentView>, n: int, search: string)
    requires |Remaining(ss, n)| > RowsPerPage
    requires |Filtered(Remaining(ss, n), search)| == RowsPerPage
    ensures ClampAfterDeleteAsWritten(ss, n, 2) == 2
    ensures PageRows(Filtered(Remaining(ss, n), search), 2) == []
  {
    var tp := TotalPages(|Remaining(ss, n)|);
    assert tp >= 2;
  }

  /** The k-th of a run of students named "Ana"; its `studentId` is k + 1. */
  function Ana(k: nat): StudentView
  {
    StudentView(k, k + 1, "Ana", "5", "9", 500, "", "", 0, 0, "")
  }

  /** The first n students named "Ana". */
  function Anas(n: nat): (r: seq<StudentView>)
    ensures |r| == n
    ensures forall k :: 0 <= k < n ==> r[k] == Ana(k)
  {
    if n == 0 then [] else Anas(n - 1) + [Ana(n - 1)]
  }

  /** A twelfth student whom the search "an" does not match. */
  function Bo(): StudentView
  {
    StudentView(11, 12, "Bo", "5", "9", 500, "", "", 0, 0, "")
  }

  lemma AnaMatches(k: nat)
    ensures Matches("an")(Ana(k))
  {
    assert ToLower("Ana") == "ana";
    assert ToLower("an") == "an";
    assert OccursAt("ana", "an", 0);
  }

  lemma BoDoesNotMatch()
    ensures !Matches("an")(Bo())
  {
    assert ToLower("Bo") == "bo";
    assert ToLower("5") == "5";
    assert ToLower("an") == "an";
    assert "bo"[0..2][0] == 'b';
    assert !OccursAt("bo", "an", 0);
    assert !OccursAt("5", "an", 0) && !OccursAt("9", "an", 0);
  }

  /** Searching "an" keeps the first n Anas and drops Bo. */
  lemma {:induction false} SearchKeepsAnas(n: nat)
    ensures Filtered(Anas(n) + [Bo()], "an") == Anas(n)
  {
    forall k | 0 <= k < n
      ensures Matches("an")(Anas(n)[k])
    {
      AnaMatches(k);
    }
    BoDoesNotMatch();
    FilterAppend(Anas(n), [Bo()], Matches("an"));
    FilterKeepsAll(Anas(n), Matches("an"));
  }

  /** Every Ana of the first n keeps a `studentId` of at most n. */
  lemma OthersKeepAnas(n: nat)
    ensures Filter(Anas(n), Others(n + 1)) == Anas(n)
  {
    var a := Anas(n);
    forall k | 0 <= k < |a|
      ensures Others(n + 1)(a[k])
    {
      assert a[k] == Ana(k);
    }
    FilterKeepsAll(a, Others(n + 1));
  }

  lemma FilterDropsLastAna(n: nat)
    requires n != 11
    ensures Filter(Anas(n + 1) + [Bo()], Others(n + 1)) == Anas(n) + [Bo()]
  {
    var a, x, b, p := Anas(n), Ana(n), Bo(), Others(n + 1);
    assert Anas(n + 1) + [b] == a + [x] + [b];
    calc {
      Filter(a + [x] + [b], p);
    ==  { FilterAppend(a + [x], [b], p); }
      Filter(a + [x], p) + Filter([b], p);
    ==  { FilterAppend(a, [x], p); }
      Filter(a, p) + Filter([x], p) + Filter([b], p);
    ==  { OthersKeepAnas(n); FilterSingle(x, p); FilterSingle(b, p); }
      a + [] + [b];
    }
    assert a + [] + [b] == a + [b];
  }

  /** Removing the last Ana of a run by her `studentId` leaves the others
      and Bo. */
  lemma RemoveLastAna(n: nat)
    requires n != 11
    ensures Remaining(Anas(n + 1) + [Bo()], n + 1) == Anas(n) + [Bo()]
  {
    FilterDropsLastAna(n);
  }

  /** Twelve students, eleven named "Ana" and one "Bo", searched for "an"
      on page 2, which shows only the eleventh Ana (`studentId` 11).
      Removing her keeps the page at 2, where the ten remaining matches
      leave nothing to show. */
  lemma ExampleStrandsPage()
    ensures var ex := Anas(11) + [Bo()];
      && PageRows(Filtered(ex, "an"), 2) == [Ana(10)]
      && ClampAfterDeleteAsWritten(ex, 11, 2) == 2
      && PageRows(Filtered(Remaining(ex, 11), "an"), 2) == []
  {
    var ex := Anas(11) + [Bo()];
    SearchKeepsAnas(11);
    SearchKeepsAnas(10);
    RemoveLastAna(10);
    AsWrittenLeavesEmptyPage(ex, 11, "an");
  }

  /** The page after a delete, corrected: the page count comes from the
      searched list that the reloaded page shows. */
  function ClampAfterDelete(reloaded: seq<StudentView>, search: string, page: int): (r: int)
    ensures page >= 1 && Filtered(reloaded, search) != [] ==> 1 <= r <= TotalPages(|Filtered(reloaded, search)|)
    ensures page <= TotalPages(|Filtered(reloaded, search)|) ==> r == page
  {
    Clamp(page, TotalPages(|Filtered(reloaded, search)|))
  }

  /** The corrected page is within range, so it shows at least one student
      whenever the search matches any. */
  lemma CorrectedClampShowsRows(reloaded: seq<StudentView>, search: string, page: int)
    requires page >= 1 && Filtered(reloaded, search) != []
    ensures 1 <= ClampAfterDelete(reloaded, search, page) <= TotalPages(|Filtered(reloaded, search)|)
    ensures PageRows(Filtered(reloaded, search), ClampAfterDelete(reloaded, search, page)) != []
  {
    PagesInRangeAreNonEmpty(Filtered(reloaded, search), ClampAfterDelete(reloaded, search, page));
  }

  /** The fee column's content. */
  datatype FeeCell = YearlyCell(amount: int) | MonthlyCell(amount: int)

  /** The fee column: the yearly fee for fee type "yearly", the monthly fee
      otherwise. */
  function FeeColumn(st: StudentView): (c: FeeCell)
    ensures c.YearlyCell? <==> st.feeType == "yearly"
    ensures c.amount == if st.feeType == "yearly" then st.yearlyFee else st.monthlyFee
  {
    if st.feeType == "yearly" then YearlyCell(st.yearlyFee) else MonthlyCell(st.monthlyFee)
  }

  /** The server sends no fee type, so every stored student is shown with
      its monthly fee. */
  lemma ServerStudentsShowMonthlyFee(s: Student)
    ensures FeeColumn(FromServer(s)) == MonthlyCell(s.monthlyFee)
  {
  }

  /** The page's state. */
  class StudentListPage {
    var students: seq<StudentView>
    var search: string
    var currentPage: int

    ghost predicate Valid()
      reads this
    {
      currentPage >= 1
    }

    constructor ()
      ensures Valid() && students == [] && search == "" && currentPage == 1
    {
      students := [];
      search := "";
      currentPage := 1;
    }

    /** The rows the table shows. */
    function Shown(): (r: seq<StudentView>)
      reads this
      ensures |r| <= RowsPerPage
      ensures forall st :: st in r ==> st in students && SearchMatches(st.name, st.className, st.parentNumber, search)
    {
      var f := Filtered(students, search);
      var r := PageRows(f, currentPage);
      assert forall st :: st in r ==> st in f;
      r
    }

    /** `fetchStudents` with the server's answer. */
    method Load(listed: seq<StudentView>)
      requires Valid()
      modifies this
      ensures Valid() && students == listed && search == old(search) && currentPage == old(currentPage)
    {
      students := listed;
    }

    /** Typing in the search box; the effect on `filter` returns to page 1. */
    method SetSearch(text: string)
      requires Valid()
      modifies this
      ensures Valid() && search == text && currentPage == 1 && students == old(students)
    {
      search := text;
      currentPage := 1;
    }

    /** "Previous", rendered only when the searched list has several pages. */
    method PreviousPage()
      requires Valid() && ShowControls(|Filtered(students, search)|)
      modifies this
      ensures Valid() && students == old(students) && search == old(search)
      ensures currentPage == Previous(old(currentPage))
    {
      currentPage := Previous(currentPage);
    }

    /** "Next", rendered only when the searched list has several pages. */
    method NextPage()
      requires Valid() && ShowControls(|Filtered(students, search)|)
      modifies this
      ensures Valid() && students == old(students) && search == old(search)
      ensures currentPage == Next(old(currentPage), TotalPages(|Filtered(students, search)|))
      ensures currentPage <= TotalPages(|Filtered(students, search)|)
    {
      ControlsIffSeveralPages(|Filtered(students, search)|);
      currentPage := Next(currentPage, TotalPages(|Filtered(students, search)|));
    }

    /** `handleDelete` with the corrected page: the delete is sent for the
        student's `studentId`; when the server accepts it (`deleted`), the
        list is reloaded and the page is brought back within the searched
        list. A refused delete skips the rest of the handler. */
    method Remove(st: StudentView, deleted: bool, reloaded: seq<StudentView>) returns (param: string)
      requires Valid()
      modifies this
      ensures Valid()
      ensures param == IntToString(st.studentId)
      ensures search == old(search)
      ensures !deleted ==> students == old(students) && currentPage == old(currentPage)
      ensures deleted ==>
        && students == reloaded
        && currentPage == ClampAfterDelete(reloaded, old(search), old(currentPage))
        && (Filtered(students, search) != [] ==> Shown() != [])
    {
      param := IntToString(st.studentId);
      if deleted {
        students := reloaded;
        currentPage := ClampAfterDelete(reloaded, search, currentPage);
        if Filtered(students, search) != [] {
          CorrectedClampShowsRows(reloaded, search, old(currentPage));
        }
      }
    }
  }
}

=== FILE: student_list_status.dfy ===
/** frontend_old/src/StudentList.js: the student list with a search box and
    a status selector, a delete button per row, and a footer counting the
    students by status. */
module StatusStudentList {
  import opened Wrappers
  import opened Seqs
  import opened Text
  import opened Models
  import opened ClientRecords
  import PagedStudentList

  /** The status selector's test: "all" admits every student, any other
      choice only the students whose status is exactly that. */
  predicate StatusMatches(status: string, statusFilter: string)
  {
    statusFilter == "all" || status == statusFilter
  }

  /** The combined test for one row. */
  function Shows(searchTerm: string, statusFilter: string): StudentView -> bool
  {
    (st: StudentView) =>
      SearchMatches(st.name, st.className, st.parentNumber, searchTerm) && StatusMatches(st.status, statusFilter)
  }

  /** `filteredStudents`: the students both the search and the status
      selector admit, in list order. */
  function FilteredStudents(ss: seq<StudentView>, searchTerm: string, statusFilter: string): (r: seq<StudentView>)
    ensures forall st :: st in r <==>
      && st in ss
      && SearchMatches(st.name, st.className, st.parentNumber, searchTerm)
      && StatusMatches(st.status, statusFilter)
    ensures |r| <= |ss|
  {
    FilterMembershipAll(ss, Shows(searchTerm, statusFilter));
    Filter(ss, Shows(searchTerm, statusFilter))
  }

  /** With the selector on "all" the page shows what the paged list's
      search shows. */
  lemma AllStatusIsSearchOnly(ss: seq<StudentView>, searchTerm: string)
    ensures FilteredStudents(ss, searchTerm, "all") == PagedStudentList.Filtered(ss, searchTerm)
  {
    FilterAgree(ss, Shows(searchTerm, "all"), PagedStudentList.Matches(searchTerm));
  }

  /** With no search and the selector on "all" every student is shown. */
  lemma NoCriteriaShowsAll(ss: seq<StudentView>)
    ensures FilteredStudents(ss, "", "all") == ss
  {
    AllStatusIsSearchOnly(ss, "");
    PagedStudentList.EmptySearchShowsAll(ss);
  }

  /** The shown rows keep the list's order. */
  lemma FilterKeepsOrder(a: seq<StudentView>, b: seq<StudentView>, searchTerm: string, statusFilter: string)
    ensures FilteredStudents(a + b, searchTerm, statusFilter)
         == FilteredStudents(a, searchTerm, statusFilter) + FilteredStudents(b, searchTerm, statusFilter)
  {
    FilterAppend(a, b, Shows(searchTerm, statusFilter));
  }

  /** The students whose status is exactly `status`. */
  function HasStatus(status: string): StudentView -> bool
  {
    (st: StudentView) => st.status == status
  }

  /** The footer's count of the students whose status is exactly `status`:
      the Active count and the Left count. */
  function StatusCount(ss: seq<StudentView>, status: string): (r: nat)
    ensures r <= |ss|
    ensures r == 0 <==> forall st :: st in ss ==> st.status != status
  {
    FilterEmptyIff(ss, HasStatus(status));
    |Filter(ss, HasStatus(status))|
  }

  /** The Active and Left counts never exceed the total between them; they
      reach it exactly when every student is Active or Left. */
  lemma FooterCountsWithinTotal(ss: seq<StudentView>)
    ensures StatusCount(ss, "Active") + StatusCount(ss, "Left") <= |ss|
  {
    FilterDisjointCount(ss, HasStatus("Active"), HasStatus("Left"));
  }

  /** Choosing Active with no search shows as many rows as the footer's
      Active count, and they are those same students. */
  lemma ActiveSelectionMatchesFooter(ss: seq<StudentView>)
    ensures FilteredStudents(ss, "", "Active") == Filter(ss, HasStatus("Active"))
    ensures |FilteredStudents(ss, "", "Active")| == StatusCount(ss, "Active")
  {
    forall i | 0 <= i < |ss|
      ensures Shows("", "Active")(ss[i]) == HasStatus("Active")(ss[i])
    {
      EmptySearchMatchesAll(ss[i].name, ss[i].className, ss[i].parentNumber);
    }
    FilterAgree(ss, Shows("", "Active"), HasStatus("Active"));
  }

  /** The server's students carry no status: the footer counts none of them
      Active or Left, and choosing either status shows no row. */
  lemma ServerStudentsHaveNoStatus(ss: seq<Student>, searchTerm: string)
    ensures StatusCount(FromServerStudents(ss), "Active") == 0 && StatusCount(FromServerStudents(ss), "Left") == 0
    ensures FilteredStudents(FromServerStudents(ss), searchTerm, "Active") == []
    ensures FilteredStudents(FromServerStudents(ss), searchTerm, "Left") == []
  {
    var vs := FromServerStudents(ss);
    FilterKeepsNone(vs, HasStatus("Active"));
    FilterKeepsNone(vs, HasStatus("Left"));
    FilterKeepsNone(vs, Shows(searchTerm, "Active"));
    FilterKeepsNone(vs, Shows(searchTerm, "Left"));
  }

  /** The text under an empty table: `None` while rows are shown. */
  function EmptyState(searchTerm: string, statusFilter: string, shown: seq<StudentView>): (r: Option<string>)
    ensures r.Some? <==> shown == []
  {
    if shown != [] then None
    else if searchTerm != "" || statusFilter != "all" then Some("Try adjusting your search or filter criteria.")
    else Some("No students have been enrolled yet.")
  }

  /** With no criteria the page says that nobody is enrolled exactly when
      the list is empty. */
  lemma NoneEnrolledIffEmpty(ss: seq<StudentView>)
    ensures EmptyState("", "all", FilteredStudents(ss, "", "all")) == Some("No students have been enrolled yet.")
        <==> ss == []
  {
    NoCriteriaShowsAll(ss);
  }

  const DeletedMessage: string := "Student deleted successfully!"
  const DeleteFailedMessage: string := "Error" + " deleting student. Please try again."
  const LoadFailedMessage: string := "Error" + " loading students. Please try again."

  /** The success banner is not styled as an error. */
  lemma SuccessBannerPlain()
    ensures !ErrorStyled(DeletedMessage)
  {
    forall i | 0 <= i < |DeletedMessage|
      ensures DeletedMessage[i] != 'E'
    {
    }
    AbsentFirstChar(DeletedMessage, "Error");
  }

  /** The failure banners are styled as errors. */
  lemma FailureBannersStyled()
    ensures ErrorStyled(DeleteFailedMessage) && ErrorStyled(LoadFailedMessage)
  {
    ErrorPrefixStyled(" deleting student. Please try again.");
    ErrorPrefixStyled(" loading students. Please try again.");
  }

  /** The page's state. */
  class StatusStudentListPage {
    var students: seq<StudentView>
    var message: string
    var searchTerm: string
    var statusFilter: string

    constructor ()
      ensures students == [] && message == "" && searchTerm == "" && statusFilter == "all"
    {
      students := [];
      message := "";
      searchTerm := "";
      statusFilter := "all";
    }

    /** The rows the table shows. */
    function Shown(): (r: seq<StudentView>)
      reads this
      ensures forall st :: st in r ==> st in students && StatusMatches(st.status, statusFilter)
    {
      FilteredStudents(students, searchTerm, statusFilter)
    }

    /** `fetchStudents`: the server's list, or the error banner when the
        request fails (the list is then kept). */
    method Load(listed: seq<StudentView>, ok: bool)
      modifies this
      ensures ok ==> students == listed && message == old(message)
      ensures !ok ==> students == old(students) && message == LoadFailedMessage
      ensures searchTerm == old(searchTerm) && statusFilter == old(statusFilter)
    {
      if ok {
        students := listed;
      } else {
        message := LoadFailedMessage;
      }
    }

    method SetSearch(text: string)
      modifies this
      ensures searchTerm == text
      ensures students == old(students) && message == old(message) && statusFilter == old(statusFilter)
    {
      searchTerm := text;
    }

    method SetStatusFilter(choice: string)
      modifies this
      ensures statusFilter == choice
      ensures students == old(students) && message == old(message) && searchTerm == old(searchTerm)
    {
      statusFilter := choice;
    }

    /** `handleDelete(studentId)` after the confirmation: the request names
        the `studentId`; an accepted delete shows the success banner and
        reloads the list, a refused one shows the error banner. */
    method Delete(studentId: int, deleted: bool, reloaded: seq<StudentView>) returns (param: string)
      modifies this
      ensures param == IntToString(studentId)
      ensures deleted ==> message == DeletedMessage && students == reloaded
      ensures !deleted ==> message == DeleteFailedMessage && students == old(students)
      ensures ErrorStyled(message) <==> !deleted
      ensures searchTerm == old(searchTerm) && statusFilter == old(statusFilter)
    {
      SuccessBannerPlain();
      FailureBannersStyled();
      param := IntToString(studentId);
      if deleted {
        message := DeletedMessage;
        students := reloaded;
      } else {
        message := DeleteFailedMessage;
      }
    }
  }
}

=== FILE: students_route.dfy ===
/** backend/routes/students.js: enrolment with a counter-assigned
    `studentId`, the listing of active students, update of four fields by
    `studentId`, and the soft delete. The store is a sequence of Student
    records in insertion order, together with the Counter document's `seq`
    value and the source of fresh `_id`s. */
module StudentsRoute {
  import opened Wrappers
  import opened Seqs
  import opened Text
  import opened Models

  /** The enrolment request body. `enrollmentMonth` and `status` are ""
      when absent, which is how the route's `||` defaults see them. */
  datatype EnrolBody = EnrolBody(
    name: Option<string>,
    parentNumber: Option<string>,
    className: Option<string>,
    monthlyFee: Option<int>,
    enrollmentMonth: string,
    status: string)

  /** The update request body; an absent field is left as it is. */
  datatype UpdateBody = UpdateBody(
    name: Option<string>,
    parentNumber: Option<string>,
    className: Option<string>,
    monthlyFee: Option<int>)

  const DefaultEnrollmentMonth: string := "June 2025"
  const DefaultStatus: string := "Active"

  /** The object the enrolment route builds from the new counter value and
      the body: `active` is true and the two undeclared fields get their
      defaults. */
  function EnrolmentDraft(next: int, body: EnrolBody): (d: StudentDraft)
    ensures d.studentId == next && d.active == Some(true)
    ensures d.name == body.name && d.parentNumber == body.parentNumber
      && d.className == body.className && d.monthlyFee == body.monthlyFee
    ensures d.enrollmentMonth == DefaultEnrollmentMonth || d.enrollmentMonth == body.enrollmentMonth
    ensures d.enrollmentMonth == DefaultEnrollmentMonth <==>
      body.enrollmentMonth == "" || body.enrollmentMonth == DefaultEnrollmentMonth
    ensures d.status == DefaultStatus <==> body.status == "" || body.status == DefaultStatus
  {
    StudentDraft(next, body.name, body.parentNumber, body.className, body.monthlyFee,
                 if body.enrollmentMonth == "" then DefaultEnrollmentMonth else body.enrollmentMonth,
                 if body.status == "" then DefaultStatus else body.status,
                 Some(true))
  }

  predicate EnrolBodyComplete(body: EnrolBody)
  {
    RequiredString(body.name) && RequiredString(body.parentNumber)
    && RequiredString(body.className) && body.monthlyFee.Some?
  }

  /** The unique index on `studentId`. */
  predicate UniqueStudentIds(ss: seq<Student>)
  {
    forall i, j :: 0 <= i < j < |ss| ==> ss[i].studentId != ss[j].studentId
  }

  predicate UniqueObjectIds(ss: seq<Student>)
  {
    forall i, j :: 0 <= i < j < |ss| ==> ss[i].id != ss[j].id
  }

  /** What the store keeps true: `studentId`s and `_id`s are unique, every
      `studentId` was handed out by the counter, and every `_id` is below the
      next fresh one. */
  predicate StoreInvariant(ss: seq<Student>, counter: nat, nextId: ObjectId)
  {
    UniqueStudentIds(ss) && UniqueObjectIds(ss)
    && (forall i :: 0 <= i < |ss| ==> 1 <= ss[i].studentId <= counter && ss[i].id < nextId)
  }

  /** POST: the counter advances first, then the record is validated and
      saved. Results: the reply, the students, the counter, the next `_id`. */
  function EnrolStore(ss: seq<Student>, counter: nat, nextId: ObjectId, body: EnrolBody, now: int)
    : (out: (Reply<Student>, seq<Student>, nat, ObjectId))
    ensures out.2 == counter + 1
    ensures out.0.Done? <==> EnrolBodyComplete(body)
    ensures out.0.Failed? ==> out.0.code == 400 && out.1 == ss && out.3 == nextId
    ensures out.0.Done? ==> out.1 == ss + [out.0.value] && out.3 == nextId + 1
    ensures out.0.Done? ==>
      && out.0.value.studentId == counter + 1 && out.0.value.id == nextId
      && out.0.value.active && out.0.value.enrolledAt == now
  {
    var next := counter + 1;
    var saved := ApplyStudentSchema(EnrolmentDraft(next, body), nextId, now);
    if saved.Err? then (Failed(400), ss, next, nextId)
    else (Done(saved.value), ss + [saved.value], next, nextId + 1)
  }

  /** Enrolment keeps the store invariant, whether it succeeds or not; in
      particular the new `studentId` is larger than every earlier one, so
      no two students ever share one. */
  lemma EnrolPreservesInvariant(ss: seq<Student>, counter: nat, nextId: ObjectId, body: EnrolBody, now: int)
    requires StoreInvariant(ss, counter, nextId)
    ensures var out := EnrolStore(ss, counter, nextId, body, now);
      StoreInvariant(out.1, out.2, out.3)
      && (out.0.Done? ==> forall s :: s in ss ==> s.studentId < out.0.value.studentId)
  {
  }

  /** A failed save still consumes a counter value: the next successful
      enrolment skips it, leaving a gap but never a duplicate. */
  lemma FailedEnrolLeavesGap(ss: seq<Student>, counter: nat, nextId: ObjectId, bad: EnrolBody, good: EnrolBody, now: int)
    requires !EnrolBodyComplete(bad) && EnrolBodyComplete(good)
    ensures var first := EnrolStore(ss, counter, nextId, bad, now);
      var second := EnrolStore(first.1, first.2, first.3, good, now);
      second.0.Done? && second.0.value.studentId == counter + 2
  {
  }

  function IsListed(s: Student): bool
  {
    s.active
  }

  /** GET: `Student.find({ active: { $ne: false } })`, in store order. */
  function ActiveStudents(ss: seq<Student>): (r: seq<Student>)
    ensures forall s :: s in r <==> s in ss && s.active
  {
    FilterMembershipAll(ss, IsListed);
    Filter(ss, IsListed)
  }

  /** The listing keeps store order: a store split in two lists the first
      part's active students before the second part's, and one student is
      listed exactly when active. */
  lemma ListingKeepsOrder(a: seq<Student>, b: seq<Student>, s: Student)
    ensures ActiveStudents(a + b) == ActiveStudents(a) + ActiveStudents(b)
    ensures ActiveStudents([s]) == if s.active then [s] else []
  {
    FilterAppend(a, b, IsListed);
    FilterSingle(s, IsListed);
  }

  /** The `:studentId` route parameter as a number; `None` when the route
      answers 400 (empty or not a number). */
  function RouteId(param: string): (r: Option<nat>)
    ensures r.Some? <==> IsNumeric(param)
    ensures r.Some? ==> NatToString(r.value) == StripLeadingZeros(param)
  {
    if IsNumeric(param) then
      NumericCanonical(param);
      Some(DigitsValue(param))
    else None
  }

  /** A numeric string without its redundant leading zeros is the decimal
      rendering of its value. */
  lemma {:induction false} NumericCanonical(s: string)
    requires IsNumeric(s)
    ensures NatToString(DigitsValue(s)) == StripLeadingZeros(s)
  {
    if |s| > 1 && s[0] == '0' {
      LeadingZeroValue(s);
      NumericCanonical(s[1..]);
    } else if |s| > 1 {
      var init := s[..|s| - 1];
      NumericCanonical(init);
      assert StripLeadingZeros(init) == init;
      var v := DigitsValue(init);
      assert NatToString(v) == init;
      assert v >= 1;
      var d := DigitValue(s[|s| - 1]);
      assert DigitsValue(s) == 10 * v + d;
      assert (10 * v + d) / 10 == v && (10 * v + d) % 10 == d;
      assert DigitChar(d) == s[|s| - 1];
      assert s == init + [s[|s| - 1]];
    }
  }

  /** Every id the server renders is accepted back as a route parameter. */
  lemma RouteIdRoundTrip(n: nat)
    ensures RouteId(NatToString(n)) == Some(n)
  {
    NatToStringRoundTrip(n);
  }

  function HasStudentId(n: int): Student -> bool
  {
    (s: Student) => s.studentId == n
  }

  /** `findOneAndUpdate({ studentId: n }, ...)` acts on the first match. */
  function Locate(ss: seq<Student>, n: int): (i: int)
    ensures -1 <= i < |ss|
    ensures i >= 0 ==> ss[i].studentId == n && forall j :: 0 <= j < i ==> ss[j].studentId != n
    ensures i < 0 <==> forall s :: s in ss ==> s.studentId != n
  {
    FindIndex(ss, HasStudentId(n))
  }

  /** The PUT update applied to one record: only `name`, `parentNumber`,
      `class` and `monthlyFee` can change, each only when the body has it. */
  function Updated(s: Student, b: UpdateBody): (t: Student)
    ensures t.id == s.id && t.studentId == s.studentId
      && t.enrolledAt == s.enrolledAt && t.active == s.active
    ensures b.name.None? ==> t.name == s.name
    ensures b.parentNumber.None? ==> t.parentNumber == s.parentNumber
    ensures b.className.None? ==> t.className == s.className
    ensures b.monthlyFee.None? ==> t.monthlyFee == s.monthlyFee
    ensures b.name.Some? ==> t.name == b.name.value
    ensures b.parentNumber.Some? ==> t.parentNumber == b.parentNumber.value
    ensures b.className.Some? ==> t.className == b.className.value
    ensures b.monthlyFee.Some? ==> t.monthlyFee == b.monthlyFee.value
  {
    s.(name := if b.name.Some? then b.name.value else s.name,
       parentNumber := if b.parentNumber.Some? then b.parentNumber.value else s.parentNumber,
       className := if b.className.Some? then b.className.value else s.className,
       monthlyFee := if b.monthlyFee.Some? then b.monthlyFee.value else s.monthlyFee)
  }

  /** PUT `/:studentId`: the reply and the students afterwards. */
  function UpdateStore(ss: seq<Student>, param: string, b: UpdateBody): (out: (Reply<Student>, seq<Student>))
    ensures |out.1| == |ss|
    ensures out.0.Failed? ==> out.1 == ss
    ensures out.0.Failed? ==> out.0.code == (if IsNumeric(param) then 404 else 400)
    ensures out.0.Done? <==>
      IsNumeric(param) && exists s :: s in ss && s.studentId == DigitsValue(param)
    ensures out.0.Done? ==> out.0.value in out.1 && out.0.value.studentId == DigitsValue(param)
    ensures out.0.Done? ==> forall j :: 0 <= j < |ss| ==>
      out.1[j] == ss[j] || (ss[j].studentId == DigitsValue(param) && out.1[j] == Updated(ss[j], b))
    ensures out.0.Done? ==> var i := Locate(ss, DigitsValue(param));
      && 0 <= i < |ss|
      && out.0.value == Updated(ss[i], b)
      && out.1 == ss[i := Updated(ss[i], b)]
  {
    match RouteId(param)
    case None => (Failed(400), ss)
    case Some(n) =>
      var i := Locate(ss, n);
      if i < 0 then (Failed(404), ss)
      else
        var t := Updated(ss[i], b);
        assert ss[i := t][i] == t;
        (Done(t), ss[i := t])
  }

  /** DELETE `/:studentId`: a soft delete that only clears `active`. */
  function DeleteStore(ss: seq<Student>, param: string): (out: (Reply<Student>, seq<Student>))
    ensures |out.1| == |ss|
    ensures forall j :: 0 <= j < |ss| ==> out.1[j] == ss[j] || out.1[j] == ss[j].(active := false)
    ensures out.0.Failed? ==> out.1 == ss
    ensures out.0.Failed? ==> out.0.code == (if IsNumeric(param) then 404 else 400)
    ensures out.0.Done? <==>
      IsNumeric(param) && exists s :: s in ss && s.studentId == DigitsValue(param)
    ensures out.0.Done? ==>
      && out.0.value in out.1 && out.0.value.studentId == DigitsValue(param)
      && !out.0.value.active
    ensures out.0.Done? ==> forall j :: 0 <= j < |ss| ==>
      out.1[j] == ss[j] || ss[j].studentId == DigitsValue(param)
  {
    match RouteId(param)
    case None => (Failed(400), ss)
    case Some(n) =>
      var i := Locate(ss, n);
      if i < 0 then (Failed(404), ss)
      else
        var t := ss[i].(active := false);
        (Done(t), ss[i := t])
  }

  /** Update and delete leave `studentId`s and `_id`s where they were, so
      they keep the store invariant. */
  lemma UpdatePreservesInvariant(ss: seq<Student>, counter: nat, nextId: ObjectId, param: string, b: UpdateBody)
    requires StoreInvariant(ss, counter, nextId)
    ensures StoreInvariant(UpdateStore(ss, param, b).1, counter, nextId)
  {
    var out := UpdateStore(ss, param, b);
    assert forall j :: 0 <= j < |ss| ==> out.1[j].studentId == ss[j].studentId && out.1[j].id == ss[j].id;
  }

  lemma DeletePreservesInvariant(ss: seq<Student>, counter: nat, nextId: ObjectId, param: string)
    requires StoreInvariant(ss, counter, nextId)
    ensures StoreInvariant(DeleteStore(ss, param).1, counter, nextId)
  {
    var out := DeleteStore(ss, param);
    assert forall j :: 0 <= j < |ss| ==> out.1[j].studentId == ss[j].studentId && out.1[j].id == ss[j].id;
  }

  function Without(n: int): Student -> bool
  {
    (s: Student) => s.studentId != n
  }

  /** After a successful delete the listing is the earlier listing without
      that student: the deleted record disappears from GET and nothing else
      does. */
  lemma DeleteHidesFromListing(ss: seq<Student>, param: string)
    requires UniqueStudentIds(ss)
    requires DeleteStore(ss, param).0.Done?
    ensures ActiveStudents(DeleteStore(ss, param).1)
         == Filter(ActiveStudents(ss), Without(DigitsValue(param)))
  {
    var n := DigitsValue(param);
    var i := Locate(ss, n);
    ListingAfterDeactivate(ss, i, n);
  }

  /** Deactivating the only record with `studentId` n removes exactly n
      from the listing. */
  lemma {:induction false} ListingAfterDeactivate(ss: seq<Student>, i: int, n: int)
    requires 0 <= i < |ss| && ss[i].studentId == n
    requires forall j :: 0 <= j < |ss| && j != i ==> ss[j].studentId != n
    ensures Filter(ss[i := ss[i].(active := false)], IsListed)
         == Filter(Filter(ss, IsListed), Without(n))
  {
    var t := ss[i := ss[i].(active := false)];
    assert ss == [ss[0]] + ss[1..];
    if i == 0 {
      assert t == [ss[0].(active := false)] + ss[1..];
      assert forall j :: 0 <= j < |ss[1..]| ==> ss[1..][j] == ss[j + 1];
      ListingHead(ss[0], ss[1..], n);
    } else {
      var t1 := ss[1..][i - 1 := ss[i].(active := false)];
      assert t == [ss[0]] + t1;
      ListingAfterDeactivate(ss[1..], i - 1, n);
      ListingStep(ss[0], ss[1..], t1, n);
    }
  }

  lemma {:induction false} ListingHead(head: Student, tail: seq<Student>, n: int)
    requires head.studentId == n
    requires forall j :: 0 <= j < |tail| ==> tail[j].studentId != n
    ensures Filter([head.(active := false)] + tail, IsListed)
         == Filter(Filter([head] + tail, IsListed), Without(n))
  {
    var rest := Filter(tail, IsListed);
    FilterCons(head.(active := false), tail, IsListed);
    assert Filter([head.(active := false)] + tail, IsListed) == rest;
    ListedAllWithout(tail, n);
    assert Filter(rest, Without(n)) == rest;
    FilterCons(head, tail, IsListed);
    if IsListed(head) {
      assert Filter([head] + tail, IsListed) == [head] + rest;
      FilterCons(head, rest, Without(n));
      assert !Without(n)(head);
    } else {
      assert Filter([head] + tail, IsListed) == rest;
    }
  }

  lemma {:induction false} ListingStep(head: Student, tail: seq<Student>, t1: seq<Student>, n: int)
    requires head.studentId != n
    requires Filter(t1, IsListed) == Filter(Filter(tail, IsListed), Without(n))
    ensures Filter([head] + t1, IsListed) == Filter(Filter([head] + tail, IsListed), Without(n))
  {
    var rest := Filter(tail, IsListed);
    FilterCons(head, t1, IsListed);
    FilterCons(head, tail, IsListed);
    if IsListed(head) {
      assert Filter([head] + t1, IsListed) == [head] + Filter(t1, IsListed);
      assert Filter([head] + tail, IsListed) == [head] + rest;
      FilterCons(head, rest, Without(n));
      assert Without(n)(head);
    } else {
      assert Filter([head] + t1, IsListed) == Filter(t1, IsListed);
      assert Filter([head] + tail, IsListed) == rest;
    }
  }

  lemma {:induction false} ListedAllWithout(ss: seq<Student>, n: int)
    requires forall j :: 0 <= j < |ss| ==> ss[j].studentId != n
    ensures Filter(Filter(ss, IsListed), Without(n)) == Filter(ss, IsListed)
  {
    var a := Filter(ss, IsListed);
    forall j | 0 <= j < |a|
      ensures Without(n)(a[j])
    {
      assert a[j] in ss;
    }
    FilterKeepsAll(a, Without(n));
  }

  /** The student collection as a mutable store. */
  class StudentStore {
    var students: seq<Student>
    /** The Counter document's `seq`; 0 stands for "not created yet". */
    var counter: nat
    var nextId: ObjectId

    ghost predicate Valid()
      reads this
    {
      StoreInvariant(students, counter, nextId)
    }

    constructor ()
      ensures Valid() && students == [] && counter == 0 && nextId == 0
    {
      students := [];
      counter := 0;
      nextId := 0;
    }

    /** POST `/`. */
    method Enrol(body: EnrolBody, now: int) returns (r: Reply<Student>)
      requires Valid()
      modifies this
      ensures Valid()
      ensures (r, students, counter, nextId) == EnrolStore(old(students), old(counter), old(nextId), body, now)
    {
      EnrolPreservesInvariant(students, counter, nextId, body, now);
      counter := counter + 1;
      var saved := ApplyStudentSchema(EnrolmentDraft(counter, body), nextId, now);
      if saved.Err? {
        r := Failed(400);
        return;
      }
      students := students + [saved.value];
      nextId := nextId + 1;
      r := Done(saved.value);
    }

    /** GET `/`. */
    function Listed(): (r: seq<Student>)
      reads this
      ensures r == ActiveStudents(students)
      ensures forall s :: s in r <==> s in students && s.active
    {
      ActiveStudents(students)
    }

    /** PUT `/:studentId`. */
    method Update(param: string, b: UpdateBody) returns (r: Reply<Student>)
      requires Valid()
      modifies this
      ensures Valid() && counter == old(counter) && nextId == old(nextId)
      ensures (r, students) == UpdateStore(old(students), param, b)
    {
      UpdatePreservesInvariant(students, counter, nextId, param, b);
      if !IsNumeric(param) {
        return Failed(400);
      }
      var i := Locate(students, DigitsValue(param));
      if i < 0 {
        return Failed(404);
      }
      var t := Updated(students[i], b);
      students := students[i := t];
      r := Done(t);
    }

    /** DELETE `/:studentId`. */
    method Delete(param: string) returns (r: Reply<Student>)
      requires Valid()
      modifies this
      ensures Valid() && counter == old(counter) && nextId == old(nextId)
      ensures (r, students) == DeleteStore(old(students), param)
    {
      DeletePreservesInvariant(students, counter, nextId, param);
      if !IsNumeric(param) {
        return Failed(400);
      }
      var i := Locate(students, DigitsValue(param));
      if i < 0 {
        return Failed(404);
      }
      var t := students[i].(active := false);
      students := students[i := t];
      r := Done(t);
    }
  }
}

=== FILE: summary_paged.dfy ===
/** frontend/_old/Summary.js: the paged summary table. Each row carries
    badges derived from optional fields, a Remove button that derives a
    numeric student id from whichever id field the row has, and ten rows per
    page. */
module PagedSummary {
  import opened Wrappers
  import opened Text
  import opened JsMath
  import opened StudentsRoute
  import opened Pagination

  /** A JSON value an id field can hold. */
  datatype JsValue = Missing | Num(n: int) | Str(s: string)

  /** Falsy values are `undefined`, 0 and "". */
  predicate Truthy(v: JsValue)
  {
    match v
    case Missing => false
    case Num(n) => n != 0
    case Str(s) => s != ""
  }

  /** One element of `studentStats` as the table reads it. `rowId` is the
      row's `id` and `objectId` its `_id`; a number field the row lacks is
      `None`, a string field "". */
  datatype StatView = StatView(
    studentId: JsValue,
    rowId: JsValue,
    objectId: JsValue,
    name: string,
    status: string,
    enrollmentMonth: string,
    isClass10: bool,
    feeType: string,
    applicableMonths: Option<int>,
    paid: int,
    pending: int)

  /** `student.studentId || student.id || student._id`: the first truthy
      field, `None` when all three are falsy. */
  function PickId(v: StatView): (r: Option<JsValue>)
    ensures r.Some? ==> Truthy(r.value)
    ensures r.None? <==> !Truthy(v.studentId) && !Truthy(v.rowId) && !Truthy(v.objectId)
    ensures Truthy(v.studentId) ==> r == Some(v.studentId)
  {
    if Truthy(v.studentId) then Some(v.studentId)
    else if Truthy(v.rowId) then Some(v.rowId)
    else if Truthy(v.objectId) then Some(v.objectId)
    else None
  }

  /** The number `handleDelete` sends, as written: a string goes through
      `parseInt(s, 10)`, which reads only the leading digits. `None` means
      the handler alerts and sends nothing. */
  function DeleteTargetAsWritten(v: StatView): (r: Option<int>)
    ensures PickId(v).None? ==> r.None?
    ensures PickId(v).Some? && PickId(v).value.Num? ==> r == Some(PickId(v).value.n)
    ensures PickId(v).Some? && PickId(v).value.Str? ==>
      var s := PickId(v).value.s; var n := LeadingDigitCount(s);
      && (r.None? <==> n == 0)
      && (r.Some? ==> r.value == DigitsValue(s[..n]))
  {
    match PickId(v)
    case None => None
    case Some(id) =>
      match id
      case Num(n) => Some(n)
      case Str(s) => (var p := ParseIntPrefix(s); if p.Some? then Some(p.value as int) else None)
      case Missing => None
  }

  /** The number `handleDelete` should send: a string id is used only when
      all of it is a decimal number. */
  function DeleteTarget(v: StatView): (r: Option<int>)
    ensures PickId(v).None? ==> r.None?
    ensures PickId(v).Some? && PickId(v).value.Num? ==> r == Some(PickId(v).value.n)
    ensures PickId(v).Some? && PickId(v).value.Str? ==>
      (r.Some? <==> IsNumeric(PickId(v).value.s))
      && (r.Some? ==> r.value == DigitsValue(PickId(v).value.s))
  {
    match PickId(v)
    case None => None
    case Some(id) =>
      match id
      case Num(n) => Some(n)
      case Str(s) => if IsNumeric(s) then Some(DigitsValue(s)) else None
      case Missing => None
  }

  /** `DELETE /api/students/${n}`: the route parameter the request carries. */
  function DeleteParam(n: int): string
  {
    IntToString(n)
  }

  /** The `_id` text of a stored student, as the summary route sends it. */
  const HexId := "68a1f0c2e4b0d5a3c9e1f207"

  /** `parseInt` reads the two leading digits of that text, which as a
      whole is not a number. */
  lemma HexIdParsesAs68()
    ensures ParseIntPrefix(HexId) == Some(68) && !IsNumeric(HexId)
  {
    assert HexId[0] == '6' && HexId[1] == '8' && HexId[2] == 'a';
    ParseTwoDigits(HexId);
  }

  /** As written, a row whose only id is a MongoDB `_id` string (the
      summary route puts the `_id` in `studentId`) that starts with digits
      is sent as a delete for the student whose numeric id is those digits,
      and the server accepts it. */
  lemma ObjectIdStringDeletesAnotherStudent()
    ensures var v := StatView(Str(HexId), Missing, Missing, "Asha", "", "", false, "", None, 0, 0);
      && !IsNumeric(v.studentId.s)
      && DeleteTargetAsWritten(v) == Some(68)
      && RouteId(DeleteParam(68)) == Some(68)
  {
    HexIdParsesAs68();
    DeleteParamReadBack(68);
  }

  /** The route reads back the number a delete request names. */
  lemma DeleteParamReadBack(n: nat)
    ensures RouteId(DeleteParam(n)) == Some(n)
  {
    RouteIdRoundTrip(n);
  }

  /** The correction refuses such a row: an id string that is not wholly a
      number sends nothing. */
  lemma ObjectIdStringRefused()
    ensures DeleteTarget(StatView(Str(HexId), Missing, Missing, "Asha", "", "", false, "", None, 0, 0)).None?
  {
    HexIdParsesAs68();
  }

  /** With the correction, a string id reaches the server as exactly the
      number it spells, and the route reads that number back. */
  lemma DeleteTargetsNamedStudent(v: StatView)
    requires DeleteTarget(v).Some? && PickId(v).value.Str?
    ensures RouteId(DeleteParam(DeleteTarget(v).value)) == Some(DigitsValue(PickId(v).value.s))
  {
    RouteIdRoundTrip(DigitsValue(PickId(v).value.s));
  }

  /** The correction changes only the partly numeric strings: whenever it
      sends a request, the code as written sends the same one. */
  lemma CorrectionOnlyRefuses(v: StatView)
    ensures DeleteTarget(v).Some? ==> DeleteTargetAsWritten(v) == DeleteTarget(v)
    ensures DeleteTargetAsWritten(v).Some? && DeleteTarget(v).None? ==>
      PickId(v).value.Str? && !IsNumeric(PickId(v).value.s)
  {
    if PickId(v).Some? && PickId(v).value.Str? && IsNumeric(PickId(v).value.s) {
      ParseIntPrefixNumeric(PickId(v).value.s);
    }
  }

  /** The status badge: the row's status, "Active" when it has none. */
  function StatusBadge(v: StatView): (r: string)
    ensures r != ""
    ensures v.status != "" ==> r == v.status
  {
    if v.status == "" then "Active" else v.status
  }

  /** The enrolment column: the row's month, "June 2025" when it has none. */
  function EnrolmentBadge(v: StatView): (r: string)
    ensures r != ""
    ensures v.enrollmentMonth != "" ==> r == v.enrollmentMonth
  {
    if v.enrollmentMonth == "" then "June 2025" else v.enrollmentMonth
  }

  /** The fee-type badge reads Yearly for class-10 rows and yearly fee
      types. */
  predicate YearlyBadge(v: StatView)
    ensures !v.isClass10 && v.feeType != "yearly" ==> !YearlyBadge(v)
  {
    v.isClass10 || v.feeType == "yearly"
  }

  /** "(Prorated)": fewer than 11 applicable months on an Active row. A
      missing count compares false. */
  predicate Prorated(v: StatView)
    ensures Prorated(v) ==> StatusBadge(v) == "Active" && v.applicableMonths.Some? && v.applicableMonths.value <= 10
  {
    v.applicableMonths.Some? && v.applicableMonths.value < 11 && v.status == "Active"
  }

  /** "(Until Left)": a row whose status is Left. */
  predicate UntilLeft(v: StatView)
    ensures UntilLeft(v) ==> StatusBadge(v) == "Left"
  {
    v.status == "Left"
  }

  /** The two markers never appear together, and a row showing the default
      "Active" badge without an explicit status shows neither. */
  lemma MarkersExclusive(v: StatView)
    ensures !(Prorated(v) && UntilLeft(v))
    ensures v.status == "" ==> StatusBadge(v) == "Active" && !Prorated(v) && !UntilLeft(v)
  {
  }

  /** A row as the summary route sends it: `studentId` holds the `_id`
      text, and the other optional fields are absent. */
  function FromRouteRow(idText: string, name: string, paid: int, pending: int): StatView
  {
    StatView(Str(idText), Missing, Missing, name, "", "", false, "", None, paid, pending)
  }

  /** Every row the summary route sends is badged Active, June 2025 and
      Monthly, without either marker. */
  lemma RouteRowBadges(idText: string, name: string, paid: int, pending: int)
    ensures var v := FromRouteRow(idText, name, paid, pending);
      StatusBadge(v) == "Active" && EnrolmentBadge(v) == "June 2025"
      && !YearlyBadge(v) && !Prorated(v) && !UntilLeft(v)
  {
  }

  /** The page's state. */
  class SummaryPage {
    var stats: seq<StatView>
    var currentPage: int

    ghost predicate Valid()
      reads this
    {
      currentPage >= 1
    }

    constructor ()
      ensures Valid() && stats == [] && currentPage == 1
    {
      stats := [];
      currentPage := 1;
    }

    /** The rows the table shows. */
    function Shown(): (r: seq<StatView>)
      reads this
      ensures |r| <= RowsPerPage
      ensures currentPage >= 1 ==>
        forall k :: 0 <= k < |r| ==> StartIndex(currentPage) + k < |stats| && r[k] == stats[StartIndex(currentPage) + k]
    {
      PageRows(stats, currentPage)
    }

    /** `fetchSummary` with the route's rows. */
    method Load(rows: seq<StatView>)
      requires Valid()
      modifies this
      ensures Valid() && stats == rows && currentPage == old(currentPage)
    {
      stats := rows;
    }

    /** "Previous", rendered only when there is more than one page. */
    method PreviousPage()
      requires Valid() && ShowControls(|stats|)
      modifies this
      ensures Valid() && stats == old(stats)
      ensures currentPage == Previous(old(currentPage))
      ensures old(currentPage) <= TotalPages(|stats|) ==> currentPage <= TotalPages(|stats|)
    {
      currentPage := Previous(currentPage);
    }

    /** "Next", rendered only when there is more than one page. */
    method NextPage()
      requires Valid() && ShowControls(|stats|)
      modifies this
      ensures Valid() && stats == old(stats)
      ensures currentPage == Next(old(currentPage), TotalPages(|stats|))
      ensures 1 <= currentPage <= TotalPages(|stats|)
    {
      ControlsIffSeveralPages(|stats|);
      currentPage := Next(currentPage, TotalPages(|stats|));
    }

    /** `handleDelete`: nothing happens when no number can be derived from
        the row. Otherwise the delete is sent and the rows are reloaded;
        when the server confirmed the delete (`confirmed`), the page is also
        corrected against the row count read before the reload, minus one. */
    method Remove(v: StatView, confirmed: bool, reloaded: seq<StatView>) returns (sent: Option<string>)
      requires Valid()
      modifies this
      ensures Valid()
      ensures DeleteTarget(v).None? ==> sent.None? && stats == old(stats) && currentPage == old(currentPage)
      ensures DeleteTarget(v).Some? ==> sent == Some(DeleteParam(DeleteTarget(v).value)) && stats == reloaded
      ensures DeleteTarget(v).Some? && confirmed ==>
        currentPage == Clamp(old(currentPage), CeilDiv(|old(stats)| - 1, RowsPerPage))
      ensures DeleteTarget(v).Some? && !confirmed ==> currentPage == old(currentPage)
    {
      var target := DeleteTarget(v);
      if target.None? {
        return None;
      }
      sent := Some(DeleteParam(target.value));
      var totalPages := CeilDiv(|stats| - 1, RowsPerPage);
      stats := reloaded;
      if confirmed {
        currentPage := Clamp(currentPage, totalPages);
      }
    }
  }
}

=== FILE: summary_route.dfy ===
/** backend/routes/summary.js: per-student paid and pending amounts over the
    academic-year window, and the grand totals. */
module SummaryRoute {
  import opened Wrappers
  import opened Seqs
  import opened Models
  import opened AcademicYear
  import opened StudentsRoute
  import opened FeesRoute

  /** One element of `studentStats`. `studentId` carries the student's
      `_id`, not the numeric `studentId`. */
  datatype StatRow = StatRow(studentId: ObjectId, name: string, paid: int, pending: int)

  datatype YearSummary = YearSummary(totalEarnings: int, totalPending: int, studentStats: seq<StatRow>)

  /** Month `m` is paid for `s` when the first payment with key (`s._id`,
      `m`) has status Paid. A missing or Unpaid record leaves it unpaid. */
  predicate MonthPaid(ps: seq<FeePayment>, s: Student, m: string)
  {
    var f := Find(ps, HasKey(s.id, m));
    f.Some? && f.value.status == Paid
  }

  /** What month `m` adds to `paid`: the paid record's `amountPaid`. */
  function PaidAmount(ps: seq<FeePayment>, s: Student, m: string): int
  {
    if MonthPaid(ps, s, m) then Find(ps, HasKey(s.id, m)).value.amountPaid else 0
  }

  /** What month `m` adds to `pending`: the monthly fee, unless it is paid. */
  function PendingAmount(ps: seq<FeePayment>, s: Student, m: string): int
  {
    if MonthPaid(ps, s, m) then 0 else s.monthlyFee
  }

  function PaidAmountIn(ps: seq<FeePayment>, s: Student): string -> int
  {
    (m: string) => PaidAmount(ps, s, m)
  }

  function PendingAmountIn(ps: seq<FeePayment>, s: Student): string -> int
  {
    (m: string) => PendingAmount(ps, s, m)
  }

  /** The row for one student. */
  function Row(ps: seq<FeePayment>, s: Student): (r: StatRow)
    ensures r.studentId == s.id && r.name == s.name
  {
    StatRow(s.id, s.name, Sum(Months(), PaidAmountIn(ps, s)), Sum(Months(), PendingAmountIn(ps, s)))
  }

  /** `students.map(...)`: one row per stored student, inactive ones
      included, in store order. */
  function Rows(ss: seq<Student>, ps: seq<FeePayment>): (r: seq<StatRow>)
    ensures |r| == |ss|
    ensures forall i :: 0 <= i < |ss| ==> r[i] == Row(ps, ss[i])
  {
    Map(ss, RowOf(ps))
  }

  function RowOf(ps: seq<FeePayment>): Student -> StatRow
  {
    (s: Student) => Row(ps, s)
  }

  function PaidOf(r: StatRow): int
  {
    r.paid
  }

  function PendingOf(r: StatRow): int
  {
    r.pending
  }

  /** The reply of GET `/`: the totals are the sums of the rows. */
  function YearTotals(ss: seq<Student>, ps: seq<FeePayment>): (y: YearSummary)
    ensures y.studentStats == Rows(ss, ps)
    ensures y.totalEarnings == Sum(y.studentStats, PaidOf)
    ensures y.totalPending == Sum(y.studentStats, PendingOf)
  {
    var rows := Rows(ss, ps);
    YearSummary(Sum(rows, PaidOf), Sum(rows, PendingOf), rows)
  }

  /** The `students.map` callback: one pass over the window's months for
      one student. */
  method StudentRow(ps: seq<FeePayment>, s: Student) returns (row: StatRow)
    ensures row == Row(ps, s)
  {
    var ms := Months();
    var paid, pending := 0, 0;
    for k := 0 to |ms|
      invariant paid == Sum(ms[..k], PaidAmountIn(ps, s))
      invariant pending == Sum(ms[..k], PendingAmountIn(ps, s))
    {
      var month := ms[k];
      var payment := Find(ps, HasKey(s.id, month));
      if payment.Some? && payment.value.status == Paid {
        paid := paid + payment.value.amountPaid;
      } else {
        pending := pending + s.monthlyFee;
      }
      assert ms[..k + 1] == ms[..k] + [month];
      SumAppend(ms[..k], [month], PaidAmountIn(ps, s));
      SumAppend(ms[..k], [month], PendingAmountIn(ps, s));
    }
    assert ms[..|ms|] == ms;
    row := StatRow(s.id, s.name, paid, pending);
  }

  /** GET `/`, as the route computes it: one row per student, with the
      totals accumulated alongside. */
  method Summarize(students: StudentStore, fees: FeeStore) returns (y: YearSummary)
    ensures y == YearTotals(students.students, fees.payments)
  {
    var ss := students.students;
    var ps := fees.payments;
    var totalEarnings, totalPending := 0, 0;
    var stats: seq<StatRow> := [];
    for i := 0 to |ss|
      invariant stats == Rows(ss, ps)[..i]
      invariant totalEarnings == Sum(stats, PaidOf)
      invariant totalPending == Sum(stats, PendingOf)
    {
      var row := StudentRow(ps, ss[i]);
      SumAppend(stats, [row], PaidOf);
      SumAppend(stats, [row], PendingOf);
      MapSnoc(ss, i, RowOf(ps));
      totalEarnings := totalEarnings + row.paid;
      totalPending := totalPending + row.pending;
      stats := stats + [row];
    }
    assert Rows(ss, ps)[..|ss|] == Rows(ss, ps);
    y := YearSummary(totalEarnings, totalPending, stats);
  }

  function PaidIn(ps: seq<FeePayment>, s: Student): string -> bool
  {
    (m: string) => MonthPaid(ps, s, m)
  }

  function UnpaidIn(ps: seq<FeePayment>, s: Student): string -> bool
  {
    (m: string) => !MonthPaid(ps, s, m)
  }

  /** The months of `ms` that are paid and those that are not split `ms`:
      every month falls on exactly one side. */
  lemma MonthsSplit(ps: seq<FeePayment>, s: Student, ms: seq<string>)
    ensures |Filter(ms, PaidIn(ps, s))| + |Filter(ms, UnpaidIn(ps, s))| == |ms|
    ensures multiset(Filter(ms, PaidIn(ps, s))) + multiset(Filter(ms, UnpaidIn(ps, s))) == multiset(ms)
  {
    FilterPartition(ms, PaidIn(ps, s), UnpaidIn(ps, s));
  }

  /** `pending` is the monthly fee once for each month that is not paid. */
  lemma PendingCountsUnpaid(ps: seq<FeePayment>, s: Student, ms: seq<string>)
    ensures Sum(ms, PendingAmountIn(ps, s)) == s.monthlyFee * |Filter(ms, UnpaidIn(ps, s))|
  {
    SumCountsFilter(ms, PendingAmountIn(ps, s), UnpaidIn(ps, s), s.monthlyFee);
  }

  /** `pending` is the monthly fee once for each month of `ms` that is not
      paid, counted as the months minus the paid ones. */
  lemma PendingCountsPaid(ps: seq<FeePayment>, s: Student, ms: seq<string>)
    ensures Sum(ms, PendingAmountIn(ps, s)) == s.monthlyFee * (|ms| - |Filter(ms, PaidIn(ps, s))|)
  {
    PendingCountsUnpaid(ps, s, ms);
    MonthsSplit(ps, s, ms);
    ScaleEqual(s.monthlyFee, |Filter(ms, UnpaidIn(ps, s))|, |ms| - |Filter(ms, PaidIn(ps, s))|);
  }

  /** For the whole window: `pending` is `monthlyFee` times the number of
      window months without a Paid match (with `MonthsSplit`, that number is
      11 minus the paid months). */
  lemma PendingOverYear(ps: seq<FeePayment>, s: Student)
    ensures Row(ps, s).pending == s.monthlyFee * |Filter(Months(), UnpaidIn(ps, s))|
  {
    PendingCountsUnpaid(ps, s, Months());
  }

  lemma ScaleEqual(a: int, x: int, y: int)
    requires x == y
    ensures a * x == a * y
  {
  }

  /** Over months that are all paid nothing is pending. */
  lemma NothingPendingWhenAllPaid(ps: seq<FeePayment>, s: Student, ms: seq<string>)
    requires forall m :: m in ms ==> MonthPaid(ps, s, m)
    ensures Sum(ms, PendingAmountIn(ps, s)) == 0
  {
    PendingCountsUnpaid(ps, s, ms);
    forall k | 0 <= k < |ms|
      ensures !UnpaidIn(ps, s)(ms[k])
    {
      assert ms[k] in ms;
    }
    FilterKeepsNone(ms, UnpaidIn(ps, s));
  }

  /** Over months none of which is paid, the fee is pending for each. */
  lemma AllPendingWhenNonePaid(ps: seq<FeePayment>, s: Student, ms: seq<string>)
    requires forall m :: m in ms ==> !MonthPaid(ps, s, m)
    ensures Sum(ms, PendingAmountIn(ps, s)) == s.monthlyFee * |ms|
  {
    PendingCountsUnpaid(ps, s, ms);
    forall k | 0 <= k < |ms|
      ensures UnpaidIn(ps, s)(ms[k])
    {
      assert ms[k] in ms;
    }
    FilterKeepsAll(ms, UnpaidIn(ps, s));
  }

  /** A student with every window month paid owes nothing; one with no
      paid month owes the fee eleven times. */
  lemma PendingExtremes(ps: seq<FeePayment>, s: Student)
    ensures (forall m :: m in Months() ==> MonthPaid(ps, s, m)) ==> Row(ps, s).pending == 0
    ensures (forall m :: m in Months() ==> !MonthPaid(ps, s, m)) ==> Row(ps, s).pending == 11 * s.monthlyFee
  {
    var ms := Months();
    assert Row(ps, s).pending == Sum(ms, PendingAmountIn(ps, s));
    if forall m :: m in ms ==> MonthPaid(ps, s, m) {
      NothingPendingWhenAllPaid(ps, s, ms);
    }
    if forall m :: m in ms ==> !MonthPaid(ps, s, m) {
      AllPendingWhenNonePaid(ps, s, ms);
    }
  }

  /** `paid` sums the stored amounts, so it is not negative when they are
      not. */
  lemma PaidNonNegative(ps: seq<FeePayment>, s: Student)
    requires forall p :: p in ps ==> p.amountPaid >= 0
    ensures Row(ps, s).paid >= 0
  {
    SumNonNegative(Months(), PaidAmountIn(ps, s));
  }

  /** `pending` sums monthly fees, so it is not negative when the fee is
      not. */
  lemma PendingNonNegative(ps: seq<FeePayment>, s: Student)
    requires s.monthlyFee >= 0
    ensures Row(ps, s).pending >= 0
  {
    SumNonNegative(Months(), PendingAmountIn(ps, s));
  }

  /** A payment no month of `ms` looks up (another student's, or a month
      outside `ms`) changes neither amount, wherever it sits in the list. */
  lemma RowIgnoresInserted(ps: seq<FeePayment>, i: nat, x: FeePayment, s: Student)
    requires i <= |ps|
    requires forall m :: m in Months() ==> !HasKey(s.id, m)(x)
    ensures Row(ps[..i] + [x] + ps[i..], s) == Row(ps, s)
  {
    var qs := ps[..i] + [x] + ps[i..];
    forall k | 0 <= k < |Months()|
      ensures PaidAmountIn(qs, s)(Months()[k]) == PaidAmountIn(ps, s)(Months()[k])
      ensures PendingAmountIn(qs, s)(Months()[k]) == PendingAmountIn(ps, s)(Months()[k])
    {
      assert Months()[k] in Months();
      FindSkipsInserted(ps, i, x, HasKey(s.id, Months()[k]));
    }
    SumPointwise(Months(), PaidAmountIn(qs, s), PaidAmountIn(ps, s));
    SumPointwise(Months(), PendingAmountIn(qs, s), PendingAmountIn(ps, s));
  }

  /** Payments whose `month` is not a window label are ignored by the
      summary. */
  lemma SummaryIgnoresOutsideWindow(ss: seq<Student>, ps: seq<FeePayment>, i: nat, x: FeePayment)
    requires i <= |ps| && x.month !in Months()
    ensures YearTotals(ss, ps[..i] + [x] + ps[i..]) == YearTotals(ss, ps)
  {
    var qs := ps[..i] + [x] + ps[i..];
    forall k | 0 <= k < |ss|
      ensures Row(qs, ss[k]) == Row(ps, ss[k])
    {
      RowIgnoresInserted(ps, i, x, ss[k]);
    }
    assert Rows(ss, qs) == Rows(ss, ps);
  }

  /** Payments of students no longer in the store are ignored as well. */
  lemma SummaryIgnoresForeignStudent(ss: seq<Student>, ps: seq<FeePayment>, i: nat, x: FeePayment)
    requires i <= |ps| && forall s :: s in ss ==> s.id != x.studentRef
    ensures YearTotals(ss, ps[..i] + [x] + ps[i..]) == YearTotals(ss, ps)
  {
    var qs := ps[..i] + [x] + ps[i..];
    forall k | 0 <= k < |ss|
      ensures Row(qs, ss[k]) == Row(ps, ss[k])
    {
      assert ss[k] in ss;
      RowIgnoresInserted(ps, i, x, ss[k]);
    }
    assert Rows(ss, qs) == Rows(ss, ps);
  }

  /** After an accepted payment POST for (`s._id`, m), month m counts as
      paid exactly when the posted status is Paid, with the posted amount. */
  lemma PostedPaymentDecidesMonth(ps: seq<FeePayment>, nextId: ObjectId, b: PaymentBody, s: Student)
    requires PaymentBodyValid(b) && b.studentRef.value == s.id
    ensures var qs := Upsert(ps, nextId, b).1;
      && (MonthPaid(qs, s, b.month.value) <==> b.status.value == "Paid")
      && (b.status.value == "Paid" ==> PaidAmount(qs, s, b.month.value) == b.amountPaid.value)
  {
    UpsertThenFind(ps, nextId, b);
  }

  /** A row depends on the student's `_id`, name and fee, not on whether
      the student is active. */
  lemma RowIgnoresActive(ps: seq<FeePayment>, s: Student, active: bool)
    ensures Row(ps, s.(active := active)) == Row(ps, s)
  {
    var t := s.(active := active);
    forall k | 0 <= k < |Months()|
      ensures PaidAmountIn(ps, t)(Months()[k]) == PaidAmountIn(ps, s)(Months()[k])
      ensures PendingAmountIn(ps, t)(Months()[k]) == PendingAmountIn(ps, s)(Months()[k])
    {
    }
    SumPointwise(Months(), PaidAmountIn(ps, t), PaidAmountIn(ps, s));
    SumPointwise(Months(), PendingAmountIn(ps, t), PendingAmountIn(ps, s));
  }

  /** Students that differ at most in `active` give the same rows. */
  lemma RowsIgnoreActive(ss: seq<Student>, ts: seq<Student>, ps: seq<FeePayment>)
    requires |ts| == |ss|
    requires forall j :: 0 <= j < |ss| ==> ts[j] == ss[j] || ts[j] == ss[j].(active := false)
    ensures Rows(ts, ps) == Rows(ss, ps)
  {
    forall k | 0 <= k < |ss|
      ensures RowOf(ps)(ts[k]) == RowOf(ps)(ss[k])
    {
      RowIgnoresActive(ps, ss[k], false);
    }
    MapPointwise(ts, ss, RowOf(ps));
  }

  /** The summary reads every stored student, so removing a student (a soft
      delete) changes neither its row nor the totals. */
  lemma DeleteKeepsSummary(ss: seq<Student>, ps: seq<FeePayment>, param: string)
    ensures YearTotals(DeleteStore(ss, param).1, ps) == YearTotals(ss, ps)
  {
    RowsIgnoreActive(ss, DeleteStore(ss, param).1, ps);
  }
}

=== FILE: summary_view_old.dfy ===
/** frontend_old/src/Summary.js: the financial summary page. It reads the
    summary route's answer, counts the students by status, shows each row's
    paid and pending amounts and the months it covers, and removes a
    student by the row's `studentId`. */
module OldSummary {
  import opened Wrappers
  import opened Seqs
  import opened Text
  import opened JsMath
  import opened Models
  import opened SummaryRoute
  import opened ClientRecords
  import OldFeeStatus

  /** A payment as the page reads it from `summary.payments`. */
  datatype PaymentView = PaymentView(studentRef: ObjectId, amountPaid: int)

  /** One element of `summary.studentStats` as the page reads it. A string
      field the answer lacks is "", a number 0. `objectId` is the row's
      `_id`; `deleteKey` is the text the row's `studentId` renders as. */
  datatype StatEntry = StatEntry(
    objectId: ObjectId,
    deleteKey: string,
    name: string,
    className: string,
    status: string,
    enrollmentMonth: string,
    endMonth: string,
    applicableMonths: int,
    pending: int)

  /** The answer as the page reads it. A missing list is empty and a missing
      number 0, as the `?.` and `|| 0` defaults make them. */
  datatype SummaryData = SummaryData(
    totalRevenue: int,
    totalPending: int,
    studentStats: seq<StatEntry>,
    payments: seq<PaymentView>)

  /** `totalStudents`. */
  function TotalStudents(d: SummaryData): nat
  {
    |d.studentStats|
  }

  function WithStatus(status: string): StatEntry -> bool
  {
    (e: StatEntry) => e.status == status
  }

  /** `activeStudents` and `leftStudents`: the rows whose status is exactly
      `status`. */
  function StatusCount(d: SummaryData, status: string): (r: nat)
    ensures r <= TotalStudents(d)
    ensures r == 0 <==> forall e :: e in d.studentStats ==> e.status != status
  {
    FilterEmptyIff(d.studentStats, WithStatus(status));
    |Filter(d.studentStats, WithStatus(status))|
  }

  /** No row is counted both Active and Left, so the two counts fit in the
      total. */
  lemma CountsWithinTotal(d: SummaryData)
    ensures StatusCount(d, "Active") + StatusCount(d, "Left") <= TotalStudents(d)
  {
    FilterDisjointCount(d.studentStats, WithStatus("Active"), WithStatus("Left"));
  }

  function PaidBy(e: StatEntry): PaymentView -> bool
  {
    (p: PaymentView) => p.studentRef == e.objectId
  }

  function AmountOf(p: PaymentView): int
  {
    p.amountPaid
  }

  /** `totalPaid`: the sum of `amountPaid` over the row's payments. */
  function TotalPaid(d: SummaryData, e: StatEntry): (r: int)
    ensures (forall p :: p in d.payments ==> p.studentRef != e.objectId) ==> r == 0
  {
    FilterEmptyIff(d.payments, PaidBy(e));
    Sum(Filter(d.payments, PaidBy(e)), AmountOf)
  }

  /** With no negative amount among the payments, a row's paid total is not
      negative. */
  lemma TotalPaidNonNegative(d: SummaryData, e: StatEntry)
    requires forall p :: p in d.payments ==> p.amountPaid >= 0
    ensures TotalPaid(d, e) >= 0
  {
    var mine := Filter(d.payments, PaidBy(e));
    FilterMembershipAll(d.payments, PaidBy(e));
    forall i | 0 <= i < |mine|
      ensures AmountOf(mine[i]) >= 0
    {
      assert mine[i] in mine;
    }
    SumNonNegative(mine, AmountOf);
  }

  /** What one payment adds to a row's total. */
  function ShareOf(e: StatEntry): PaymentView -> int
  {
    (p: PaymentView) => if p.studentRef == e.objectId then p.amountPaid else 0
  }

  /** The row's total paid is the sum, over all payments, of what each
      contributes to that row. */
  lemma TotalPaidOverAllPayments(d: SummaryData, e: StatEntry)
    ensures TotalPaid(d, e) == Sum(d.payments, ShareOf(e))
  {
    SumOverFilter(d.payments, PaidBy(e), AmountOf, ShareOf(e));
  }

  /** `totalPending` of a row: its pending amount less what it paid. */
  function RowPending(d: SummaryData, e: StatEntry): int
  {
    e.pending - TotalPaid(d, e)
  }

  /** The pending cell: `Math.max(0, totalPending)`. */
  function DisplayedPending(d: SummaryData, e: StatEntry): (r: int)
    ensures r >= 0
    ensures r == 0 <==> TotalPaid(d, e) >= e.pending
    ensures r > 0 ==> r == e.pending - TotalPaid(d, e)
  {
    if RowPending(d, e) > 0 then RowPending(d, e) else 0
  }

  /** The pending cell is styled as owing exactly when it shows a positive
      amount. */
  predicate ShownAsOwing(d: SummaryData, e: StatEntry)
  {
    RowPending(d, e) > 0
  }

  lemma OwingIffPositive(d: SummaryData, e: StatEntry)
    ensures ShownAsOwing(d, e) <==> DisplayedPending(d, e) > 0
  {
  }

  /** The months a row covers: a range for class 10, a count otherwise. */
  datatype MonthsLabel = MonthRange(from: string, to: string) | MonthCount(count: int)

  /** `applicableMonthsDisplay`: for the classes named exactly "10" or
      "Class 10", the enrolment month (June 2025 by default) to the end
      month (March 2026 by default); for the others the number of
      applicable months (0 by default). */
  function MonthsLabelOf(e: StatEntry): (r: MonthsLabel)
    ensures r.MonthRange? <==> e.className == "10" || e.className == "Class 10"
    ensures r.MonthRange? ==> r.from != "" && r.to != ""
    ensures r.MonthRange? ==> r.from == if e.enrollmentMonth == "" then "June 2025" else e.enrollmentMonth
    ensures r.MonthRange? ==> r.to == if e.endMonth == "" then "March 2026" else e.endMonth
    ensures r.MonthCount? ==> r.count == e.applicableMonths
  {
    if e.className == "10" || e.className == "Class 10" then
      MonthRange(if e.enrollmentMonth == "" then "June 2025" else e.enrollmentMonth,
                 if e.endMonth == "" then "March 2026" else e.endMonth)
    else MonthCount(e.applicableMonths)
  }

  /** Every row labelled with a range is a class-10 student for the fee
      page, but the fee page's test is wider: a class such as "10A" gets the
      class-10 fee plan there and a month count here. */
  lemma RangeLabelsAreClass10(e: StatEntry)
    ensures MonthsLabelOf(e).MonthRange? ==> OldFeeStatus.IsClass10Student(e.className)
    ensures e.className == "10A" ==> OldFeeStatus.IsClass10Student(e.className) && MonthsLabelOf(e).MonthCount?
  {
    if e.className == "10A" {
      assert "10A"[0..2] == "10";
      assert OccursAt("10A", "10", 0);
      OldFeeStatus.Class10MeansContains10("10A");
    }
  }

  /** The retention rate: `Math.round(active / total * 100)`, 0 without
      students. */
  function Retention(active: nat, total: nat): (r: int)
    ensures total == 0 ==> r == 0
    ensures active <= total ==> 0 <= r <= 100
    ensures 0 < total && active == total ==> r == 100
  {
    if total == 0 then 0
    else
      RetentionBounds(active, total);
      RoundDiv(100 * active, total)
  }

  /** Rounding 100 × active / total with active ≤ total stays in [0, 100]
      and gives exactly 100 when every student is active. */
  lemma RetentionBounds(active: nat, total: nat)
    requires total > 0
    ensures active <= total ==> 0 <= RoundDiv(100 * active, total) <= 100
    ensures active == total ==> RoundDiv(100 * active, total) == 100
  {
    if active <= total {
      MulMonotone(100, active, total);
      RoundDivBetween(100 * active, total, 100);
    }
    if active == total {
      var r := RoundDiv(100 * active, total);
      if r < 100 {
        MulMonotone(2 * total, r, 99);
        assert false;
      }
    }
  }

  /** The page's reading of the summary route's answer. The route sends
      `totalEarnings` where the page reads `totalRevenue`, sends no
      `payments`, and its rows carry only `studentId` (the `_id`), `name`,
      `paid` and `pending`; `render` is the text an `_id` becomes. */
  function FromRoute(y: YearSummary, render: ObjectId -> string): (d: SummaryData)
    ensures |d.studentStats| == |y.studentStats|
    ensures forall i :: 0 <= i < |y.studentStats| ==>
      d.studentStats[i] == StatEntry(y.studentStats[i].studentId, render(y.studentStats[i].studentId),
                                     y.studentStats[i].name, "", "", "", "", 0, y.studentStats[i].pending)
  {
    var rows := y.studentStats;
    SummaryData(0, y.totalPending,
                seq(|rows|, i requires 0 <= i < |rows| =>
                  StatEntry(rows[i].studentId, render(rows[i].studentId), rows[i].name, "", "", "", "", 0, rows[i].pending)),
                [])
  }

  /** Against the summary route the page shows no revenue and counts no
      student Active or Left among all the route's rows. */
  lemma RouteAnswerTotals(ss: seq<Student>, ps: seq<FeePayment>, render: ObjectId -> string)
    ensures var d := FromRoute(YearTotals(ss, ps), render);
      && d.totalRevenue == 0 && d.totalPending == YearTotals(ss, ps).totalPending
      && StatusCount(d, "Active") == 0 && StatusCount(d, "Left") == 0 && TotalStudents(d) == |ss|
  {
    var d := FromRoute(YearTotals(ss, ps), render);
    FilterKeepsNone(d.studentStats, WithStatus("Active"));
    FilterKeepsNone(d.studentStats, WithStatus("Left"));
  }

  /** Against the summary route no row has a class, so every row is
      labelled with a month count, and that count is 0. */
  lemma RouteRowMonths(ss: seq<Student>, ps: seq<FeePayment>, render: ObjectId -> string, i: int)
    requires 0 <= i < |ss|
    ensures MonthsLabelOf(FromRoute(YearTotals(ss, ps), render).studentStats[i]) == MonthCount(0)
  {
  }

  /** Against the summary route each row shows no payment, and its pending
      cell is the route's pending amount for the student whenever the
      monthly fee is not negative. */
  lemma RouteRowAsShown(ss: seq<Student>, ps: seq<FeePayment>, render: ObjectId -> string, i: int)
    requires 0 <= i < |ss| && ss[i].monthlyFee >= 0
    ensures var d := FromRoute(YearTotals(ss, ps), render);
      && TotalPaid(d, d.studentStats[i]) == 0
      && DisplayedPending(d, d.studentStats[i]) == Row(ps, ss[i]).pending
  {
    var y := YearTotals(ss, ps);
    var d := FromRoute(y, render);
    assert d.payments == [];
    assert d.studentStats[i].pending == Row(ps, ss[i]).pending;
    PendingNonNegative(ps, ss[i]);
  }

  const RemovedMessage: string := "Student removed successfully!"
  const RemoveFailedMessage: string := "Error" + " removing student. Please try again."
  const LoadFailedMessage: string := "Error" + " loading summary data. Please try again."

  /** The success banner is plain, the failure banners are styled as
      errors. */
  lemma SummaryBannersStyled()
    ensures !ErrorStyled(RemovedMessage)
    ensures ErrorStyled(RemoveFailedMessage) && ErrorStyled(LoadFailedMessage)
  {
    forall k | 0 <= k < |RemovedMessage|
      ensures RemovedMessage[k] != 'E'
    {
    }
    AbsentFirstChar(RemovedMessage, "Error");
    ErrorPrefixStyled(" removing student. Please try again.");
    ErrorPrefixStyled(" loading summary data. Please try again.");
  }

  /** The page's state: the last answer read, if any, and the banner. */
  class OldSummaryPage {
    var summary: Option<SummaryData>
    var message: string

    constructor ()
      ensures summary.None? && message == ""
    {
      summary := None;
      message := "";
    }

    /** `fetchSummary`: a read answer replaces the shown one; a failed
        request keeps it and shows the error banner. */
    method Load(answer: SummaryData, ok: bool)
      modifies this
      ensures ok ==> summary == Some(answer) && message == old(message)
      ensures !ok ==> summary == old(summary) && message == LoadFailedMessage
      ensures ErrorStyled(message) <==> (if ok then ErrorStyled(old(message)) else true)
    {
      SummaryBannersStyled();
      if ok {
        summary := Some(answer);
      } else {
        message := LoadFailedMessage;
      }
    }

    /** `handleDelete(studentId)` after the confirmation: the DELETE carries
        the row's `studentId` text. The banner reports the outcome, styled as
        an error exactly when the delete failed; the reload that follows a
        success is a separate `Load`. */
    method Remove(e: StatEntry, deleted: bool) returns (param: string)
      modifies this
      ensures param == e.deleteKey
      ensures message == if deleted then RemovedMessage else RemoveFailedMessage
      ensures ErrorStyled(message) <==> !deleted
      ensures summary == old(summary)
    {
      SummaryBannersStyled();
      param := e.deleteKey;
      message := if deleted then RemovedMessage else RemoveFailedMessage;
    }
  }
}

=== FILE: text.dfy ===
/** The string operations the application uses: `includes`,
    `toLowerCase` (on the ASCII letters), decimal rendering of numbers, and
    the two ways an identifier string is read as a number. */
module Text {
  import opened Wrappers

  /** `needle` occurs in `hay` starting at position `i`. */
  predicate OccursAt(hay: string, needle: string, i: int)
  {
    0 <= i <= |hay| - |needle| && hay[i..i + |needle|] == needle
  }

  /** `hay.includes(needle)`: `needle` occurs as a contiguous substring. */
  predicate Contains(hay: string, needle: string)
  {
    exists i | 0 <= i <= |hay| - |needle| :: OccursAt(hay, needle, i)
  }

  /** Every string contains the empty string. */
  lemma ContainsEmpty(hay: string)
    ensures Contains(hay, "")
  {
    assert OccursAt(hay, "", 0);
  }

  /** A string lacking the first character of a non-empty needle does not
      contain it. */
  lemma AbsentFirstChar(hay: string, needle: string)
    requires |needle| > 0
    requires forall i :: 0 <= i < |hay| ==> hay[i] != needle[0]
    ensures !Contains(hay, needle)
  {
    forall i | 0 <= i <= |hay| - |needle|
      ensures !OccursAt(hay, needle, i)
    {
      assert hay[i..i + |needle|][0] == hay[i];
    }
  }

  function LowerChar(c: char): (d: char)
    ensures 'A' <= c <= 'Z' ==> 'a' <= d <= 'z' && d as int - 'a' as int == c as int - 'A' as int
    ensures !('A' <= c <= 'Z') ==> d == c
  {
    if 'A' <= c <= 'Z' then (c as int - 'A' as int + 'a' as int) as char else c
  }

  /** `s.toLowerCase()`, restricted to the letters A-Z. */
  function ToLower(s: string): (r: string)
    ensures |r| == |s|
    ensures forall i :: 0 <= i < |s| ==> r[i] == LowerChar(s[i])
  {
    seq(|s|, i requires 0 <= i < |s| => LowerChar(s[i]))
  }

  /** A needle without letters occurs in the lowercased string exactly where
      it occurs in the original. */
  lemma ContainsLowerNoLetters(hay: string, needle: string)
    requires forall i :: 0 <= i < |needle| ==> !('A' <= needle[i] <= 'Z' || 'a' <= needle[i] <= 'z')
    ensures Contains(ToLower(hay), needle) <==> Contains(hay, needle)
  {
    var low := ToLower(hay);
    if Contains(low, needle) {
      var i :| 0 <= i <= |low| - |needle| && OccursAt(low, needle, i);
      OccursAtLower(hay, needle, i);
    }
    if Contains(hay, needle) {
      var i :| 0 <= i <= |hay| - |needle| && OccursAt(hay, needle, i);
      OccursAtLower(hay, needle, i);
    }
  }

  lemma OccursAtLower(hay: string, needle: string, i: int)
    requires forall k :: 0 <= k < |needle| ==> !('A' <= needle[k] <= 'Z' || 'a' <= needle[k] <= 'z')
    ensures OccursAt(ToLower(hay), needle, i) <==> OccursAt(hay, needle, i)
  {
    var low := ToLower(hay);
    if 0 <= i <= |hay| - |needle| {
      if low[i..i + |needle|] == needle {
        forall k | 0 <= k < |needle|
          ensures hay[i + k] == needle[k]
        {
          assert low[i + k] == needle[k];
        }
        assert hay[i..i + |needle|] == needle;
      }
      if hay[i..i + |needle|] == needle {
        forall k | 0 <= k < |needle|
          ensures low[i + k] == needle[k]
        {
          assert hay[i + k] == needle[k];
        }
        assert low[i..i + |needle|] == needle;
      }
    }
  }

  predicate IsDigit(c: char)
  {
    '0' <= c <= '9'
  }

  /** A non-empty string of decimal digits: the model's stand-in for a
      route parameter that `Number` accepts. */
  predicate IsNumeric(s: string)
  {
    |s| > 0 && forall i :: 0 <= i < |s| ==> IsDigit(s[i])
  }

  function DigitValue(c: char): (v: nat)
    requires IsDigit(c)
    ensures v < 10
  {
    c as int - '0' as int
  }

  function DigitChar(d: nat): (c: char)
    requires d < 10
    ensures IsDigit(c) && DigitValue(c) == d
  {
    ('0' as int + d) as char
  }

  /** The number a string of decimal digits denotes. */
  function DigitsValue(s: string): nat
    requires forall i :: 0 <= i < |s| ==> IsDigit(s[i])
  {
    if s == [] then 0 else 10 * DigitsValue(s[..|s| - 1]) + DigitValue(s[|s| - 1])
  }

  /** A string of digits without its redundant leading zeros: every zero
      before the last character is dropped. */
  function StripLeadingZeros(s: string): (t: string)
    ensures |s| > 0 && s[0] != '0' ==> t == s
  {
    if |s| > 1 && s[0] == '0' then StripLeadingZeros(s[1..]) else s
  }

  /** A leading zero adds nothing to the value of a string of digits. */
  lemma {:induction false} LeadingZeroValue(s: string)
    requires IsNumeric(s) && s[0] == '0'
    ensures DigitsValue(s) == DigitsValue(s[1..])
  {
    if |s| > 1 {
      var init := s[..|s| - 1];
      LeadingZeroValue(init);
      assert s[1..][..|s| - 2] == init[1..];
      assert s[1..][|s| - 2] == s[|s| - 1];
    }
  }

  /** `String(n)` for a non-negative integer. */
  function NatToString(n: nat): (s: string)
    ensures IsNumeric(s)
  {
    if n < 10 then [DigitChar(n)] else NatToString(n / 10) + [DigitChar(n % 10)]
  }

  /** Reading back the decimal rendering of a number gives the number. */
  lemma {:induction false} NatToStringRoundTrip(n: nat)
    ensures DigitsValue(NatToString(n)) == n
  {
    var s := NatToString(n);
    if n >= 10 {
      NatToStringRoundTrip(n / 10);
      assert s[..|s| - 1] == NatToString(n / 10);
    }
  }

  /** `String(i)` for any integer. */
  function IntToString(i: int): (s: string)
    ensures |s| > 0
    ensures i >= 0 ==> s == NatToString(i)
    ensures i < 0 ==> s[0] == '-' && s[1..] == NatToString(-i)
  {
    if i >= 0 then NatToString(i) else "-" + NatToString(-i)
  }

  /** The length of the longest prefix of `s` made of decimal digits. */
  function LeadingDigitCount(s: string): (n: nat)
    ensures n <= |s|
    ensures forall i :: 0 <= i < n ==> IsDigit(s[i])
    ensures n < |s| ==> !IsDigit(s[n])
  {
    if s == [] || !IsDigit(s[0]) then 0 else 1 + LeadingDigitCount(s[1..])
  }

  /** `parseInt(s, 10)` on a string without leading blanks or sign: the
      value of the leading decimal digits, or `None` (NaN) when the string
      does not start with a digit. */
  function ParseIntPrefix(s: string): (r: Option<nat>)
    ensures r.None? <==> (s == [] || !IsDigit(s[0]))
  {
    var n := LeadingDigitCount(s);
    if n == 0 then None else Some(DigitsValue(s[..n]))
  }

  /** `parseInt` on a string whose first two characters are the only
      leading digits reads the number those two spell. */
  lemma ParseTwoDigits(s: string)
    requires |s| >= 3 && IsDigit(s[0]) && IsDigit(s[1]) && !IsDigit(s[2])
    ensures ParseIntPrefix(s) == Some(10 * DigitValue(s[0]) + DigitValue(s[1]))
  {
    assert LeadingDigitCount(s[2..]) == 0;
    assert s[1..][1..] == s[2..];
    assert LeadingDigitCount(s) == 2;
    var d := s[..2];
    assert d[..1] == [s[0]] && d[1] == s[1];
    assert [s[0]][..0] == [];
    assert DigitsValue([s[0]]) == DigitValue(s[0]);
    assert DigitsValue(d) == 10 * DigitsValue(d[..1]) + DigitValue(d[1]);
  }

  /** On a wholly numeric string, `parseInt` reads every digit. */
  lemma ParseIntPrefixNumeric(s: string)
    requires IsNumeric(s)
    ensures ParseIntPrefix(s) == Some(DigitsValue(s))
  {
    var n := LeadingDigitCount(s);
    assert n == |s|;
    assert s[..n] == s;
  }
}

=== FILE: wrappers.dfy ===
/** Option and Result, used for the application's absent values and error
    replies. */
module Wrappers {

  datatype Option<+T> = None | Some(value: T)

  datatype Result<+T, +E> = Ok(value: T) | Err(error: E)
}
